=== FILE: README.md ===
# WoT-Solid binary codecs and GATT forms in Dafny

This project models the pure core of the WoT-Solid mobile app. The app reads sensor values from Bluetooth Low Energy (BLE) devices that a W3C Thing Description describes. Every function here works only on byte sequences (`seq<int>` holding 0..255) and strings (`seq<char>`). Every failure the source throws is an `Err` of one `Error` datatype.

- **Octet-stream decoder** (`OctetStream`, `BitWindow`): `bytesToValue` of `octetstream-codec.ts`.
  - It settles the bit window, byte order and signedness from the schema and the content-type parameters.
  - It checks sized type names (section 3.3.3 of RFC 8927).
  - It cuts the window with `readBits`. `BitWindow.ReadBits` is the source's loop, proved equal to a recursive packing of the selected bits.
  - It decodes booleans, integers of any byte width, text, null and objects.
- **`bdo:*` binary codec** (`BinaryData`, `BinaryNumbers`, `BinaryPattern`, `PatternRoundTrip`): `bytesToValue` and `valueToBytes` of `BinaryDataCodec.ts`.
  - Integer fields follow `bdo:bytelength`, `bdo:signed`, `bdo:byteOrder`, `bdo:scale`, `bdo:offset` and `bdo:precision`.
  - Strings are UTF-8 (RFC 3629) or lower-case base16 (section 8 of RFC 4648).
  - `bdo:pattern` templates such as `{temp}00{light}` are read into names and byte gaps, used to slice buffers, and filled from objects.
- **GATT forms** (`GattForm`, `BleThing`):
  - the two copies of `deconstructForm`, which split an href into device, service and characteristic ids, a segment being an id when it is a lower-case 8-4-4-4-12 UUID (section 3 of RFC 4122);
  - the operation checks of `writeResource` and `subscribeResource`;
  - the flag and characteristic-lookup logic of `createBleThing`.
- **Support modules.**
  - `Wrappers` and `Errors`.
  - `Bytes`: big- and little-endian values, two's complement.
  - `Text`: split, join, search, lower case, hex.
  - `Utf8`.
  - `Buffer`: the Buffer library calls the codecs make, namely `readIntBE`/`readIntLE`, `writeIntBE`/`writeIntLE` and `swap16`.
  - `Schema`: data schemas and values.

JavaScript numbers are exact reals; NaN is a separate case. `JSON.parse` and `JSON.stringify`, and `Buffer.toString` for charsets other than UTF-8 and hex, are parameters of the model. They appear as the total functions of a `Foreign` record.

The octet-stream decoder is defined once and read two ways, `AsWritten` and `Corrected`; the two defects under "## Findings" separate them. `OctetStream.BytesToValue` is the corrected decoder, and `OctetStream.BytesToValueAsWritten` is the source's.

## Behaviour of the code

The model follows the code, including these points a reader might not expect:

- **Defaults.** The two codecs have opposite defaults.
  - The octet-stream decoder is signed unless `signed` is exactly "false", and big-endian unless `byteSeq` mentions "little".
  - The `bdo:*` codec is unsigned and little-endian.
  - The `bdo:*` codec reads the lower-case key `bdo:bytelength`. It never consults a bit length.
- **Decoding integers.** `byte2int` takes the whole buffer when no byte length is given; only `int2byte` requires one. An empty field reads as `undefined`, so it decodes to NaN. Two inputs give an empty field: an empty buffer, and a pattern variable without `bdo:bytelength`, whose slice ends at NaN.
- **Zero-width reads.** The Buffer library accepts a read of width 0. It returns the byte just before the offset (big-endian) or at the offset (little-endian). That byte is less 1 when signed and at least 128, and `undefined` when it lies outside the buffer. An empty buffer decoded as octet-stream type "integer" is therefore `undefined`.
- **Rounding.** `byte2int` rounds with `Math.round`, so halves go toward +infinity. Its exponent-string trick gives NaN whenever JavaScript would print the number in exponent notation, and for every negative `bdo:precision`.
- **Encoding integers.** `int2byte` multiplies by `bdo:scale`, as decoding does. A scaled value therefore does not round-trip, and the round-trip lemmas require scale 1.
- **Hex text.** The Buffer library's `hexWrite` reads each pair of hex text with `parseInt(…, 16)`. That library is not part of this model; its rule is restated in `Text.HexDecode`. So "1g" gives 0x01, " f" gives 0x0f and "-1" gives 0xff, and decoding stops only at the first pair that gives NaN.
- **Pattern decoding.** It returns the decoded variables as a list in template order.
- **Pattern slicing.** Slice i starts at the template's leading gap plus, for every earlier variable, its `bdo:bytelength` and the gap after it. It is `bdo:bytelength` bytes long, cut short at the end of the buffer.
- **Objects.** The octet-stream decoder hands the whole buffer to every property of an object.
- **BleSelector's copy of `deconstructForm`.** `createBleThing` calls it with the `forms` array. The href is therefore that of the first form, while `op` and `sbo:methodName` are read off the array, so they are always empty.

## Model

| member | source | states |
|---|---|---|
| OctetStream.Resolve | app/screens/Things/octetstream-codec.ts:10-63 | A schema without a type fails with MissingType. The layout is big-endian exactly when `byteSeq` does not mention "little". It is signed only if `signed` is not "false", and exactly then for a type name the sized-name parse does not recognise. The offset defaults to 0 and the bit length to the whole buffer. The bit length fits in the room after the offset. In the corrected reading the offset is non-negative. |
| OctetStream.CheckLength | app/screens/Things/octetstream-codec.ts:57-63 | The length check passes exactly when the bit length fits in the buffer's bits minus the offset; the corrected reading also requires a non-negative offset. |
| OctetStream.ByteSwap | app/screens/Things/octetstream-codec.ts:65-68 | The swap keeps the buffer's length and its bytes in range, and without BYTE_SWAP leaves it unchanged. |
| OctetStream.Decode | app/screens/Things/octetstream-codec.ts:5-113 | A missing type is rejected before any decoding. A successful decode leaves a buffer of the same length, unchanged unless a swap was requested. |
| OctetStream.BytesToValueAsWritten | app/screens/Things/octetstream-codec.ts:5-113 | Without BYTE_SWAP the source's decoder leaves the caller's buffer as it was. |
| OctetStream.BytesToValue | app/screens/Things/octetstream-codec.ts:5-113 | A successful corrected decode had its bit window (offset and length, with their defaults) inside the buffer. |
| OctetStream.WindowChecked | app/screens/Things/octetstream-codec.ts:57-73 | Success in the corrected reading implies a non-negative offset and length whose sum is at most the buffer's bit count. |
| OctetStream.Dispatch | app/screens/Things/octetstream-codec.ts:86-112 | The switch on the data type returns the buffer it was given (same length, bytes in range) and never reports the object-schema error. |
| OctetStream.KindOf | app/screens/Things/octetstream-codec.ts:87-111 | A data type selects the object branch exactly when it is "object". |
| OctetStream.AnyNonZero | app/screens/Things/octetstream-codec.ts:88-90 | True exactly when some byte is non-zero. |
| OctetStream.BooleanMeansNonZero | app/screens/Things/octetstream-codec.ts:88-90 | Type "boolean" decodes to true exactly when some byte of the buffer is non-zero. |
| OctetStream.NullAndArray | app/screens/Things/octetstream-codec.ts:107-111 | Type "null" decodes to null whatever the bytes. Type "array" fails as an unhandled type. |
| OctetStream.SixtyFourBitUnhandled | app/screens/Things/octetstream-codec.ts:109-111 | "int64" and "uint64" fail the type guard and then fail as unhandled types. |
| OctetStream.IntegerToValue | app/screens/Things/octetstream-codec.ts:115-153 | The read succeeds exactly when the field width (bit length / 8, truncated toward zero) is between 0 and the buffer length. The result is `undefined` exactly for width 0 over an empty buffer or in big-endian order. For width w >= 1, unsigned results lie in [0, 2^(8w)) and signed ones in [-2^(8w-1), 2^(8w-1)). The result is congruent to the unsigned value of the first w bytes in the chosen order, and a one-byte field ignores the order. |
| OctetStream.FieldWidth | app/screens/Things/octetstream-codec.ts:121-152 | The width is the bit length divided by 8 and truncated toward zero, which the 8, 16 and 32 cases agree with. It is zero exactly for bit lengths strictly between -8 and 8, and non-negative exactly for bit lengths above -8. |
| OctetStream.EmptyIntegerUndefined | app/screens/Things/octetstream-codec.ts:143-151 | An empty buffer decoded as type "integer" (no swap requested) is `undefined`: its bit length is 0, so the generic read has width 0. |
| OctetStream.IntegerIsRead | app/screens/Things/octetstream-codec.ts:121-152 | For a whole number of bytes, all cases of the width switch agree with the generic read of w bytes, with one byte read in either order. |
| OctetStream.ReadWidth | app/screens/Things/octetstream-codec.ts:142-151 | Whenever the Buffer library reads v from the first w bytes, a field of 8w bits decodes to v. |
| OctetStream.SingleByteOrder | app/screens/Things/octetstream-codec.ts:122-123 | An 8-bit read gives the same value in either byte order. |
| OctetStream.ReversedBytesSwapOrder | app/screens/Things/octetstream-codec.ts:124-151 | A big-endian decode of the reversed bytes equals the little-endian decode of the original bytes. |
| OctetStream.IntegerRoundTrip | app/screens/Things/octetstream-codec.ts:115-153 | An integer the Buffer library writes into w bytes decodes back to itself as type "integer", under matching `byteSeq` and `signed` parameters. |
| OctetStream.UnsignedByte | app/screens/Things/octetstream-codec.ts:38-45 | "UInt8" forces unsigned reading even though the decoder defaults to signed, so every byte decodes to its own value. |
| OctetStream.NumberToValue | app/screens/Things/octetstream-codec.ts:155-179 | A number must be 16, 32 or 64 bits wide and fit the buffer. Any other width fails with the width error. |
| OctetStream.DecodeText | app/screens/Things/octetstream-codec.ts:100-101 | An empty buffer decodes to "". The charsets utf8, utf-8 and hex always decode. An error names an unknown encoding. |
| OctetStream.KnownCharsets | app/screens/Things/octetstream-codec.ts:100-101 | With no charset the text is the UTF-8 decoding; with "hex" it is the lower-case base16 encoding. |
| OctetStream.Utf8TextRoundTrip | app/screens/Things/octetstream-codec.ts:100-101 | The UTF-8 encoding of any string decodes back to that string as type "string". |
| OctetStream.HexTextRoundTrip | app/screens/Things/octetstream-codec.ts:100-101 | With charset "hex", the decoded text base16-decodes back to the buffer. |
| OctetStream.ObjectToValue | app/screens/Things/octetstream-codec.ts:181-197 | An object decodes to one field per declared property. It fails with the object-schema error exactly when the schema's type is not "object". |
| OctetStream.DecodeProperties | app/screens/Things/octetstream-codec.ts:190-196 | The remaining properties yield one field each. The buffer is shared and is unchanged in the corrected reading. |
| OctetStream.PropertiesStep | app/screens/Things/octetstream-codec.ts:192-195 | Each property is decoded against the buffer the previous property left, and named after its property. |
| OctetStream.FieldsNamed | app/screens/Things/octetstream-codec.ts:190-196 | Field k carries the name of property k, in declaration order. |
| OctetStream.DispatchObject | app/screens/Things/octetstream-codec.ts:102-106 | An object schema with properties decodes to the object of its decoded properties, or to their first error. |
| OctetStream.KeywordAt | app/screens/Things/octetstream-codec.ts:34-36 | A keyword found at a position is one of short/int/float/byte and occurs there. Finding none means none occurs there. |
| OctetStream.ParseTypeFrom | app/screens/Things/octetstream-codec.ts:34-36 | The leftmost match from a position, as `exec` returns it: a match occurs at some later position with none before it, and no match means no position matches. |
| OctetStream.GuardedTypesParse | app/screens/Things/octetstream-codec.ts:29-37 | Every name that passes the guarding test also parses, so the guard's `if (typeSem)` never fails. |
| OctetStream.ContainedTypesParse | app/screens/Things/octetstream-codec.ts:29-37 | A name containing short, float or byte parses. |
| OctetStream.EndingTypesParse | app/screens/Things/octetstream-codec.ts:29-37 | A name ending in int, int8, int16 or int32 parses. |
| OctetStream.Unsized | app/screens/Things/octetstream-codec.ts:29-33 | A name with no short/float/byte and no int ending fails the guard. |
| OctetStream.SizedTypeName | app/screens/Things/octetstream-codec.ts:29-55 | For a sized type name, an unsigned name with `signed` "true" is an error. On success the data type is the keyword, and the stated width equals the bit length. The read is signed exactly when `signed` is not "false" and the name has no u prefix. |
| OctetStream.UInt8Name | app/screens/Things/octetstream-codec.ts:30-46 | "UInt8" lower-cases to "uint8", passes the guard and parses as unsigned int of width 8. |
| OctetStream.BareKeyword | app/screens/Things/octetstream-codec.ts:29-47 | The bare keywords int, short, float and byte pass the guard and parse with no width. |
| OctetStream.BareKeywordsRejected | app/screens/Things/octetstream-codec.ts:47-53 | A bare keyword always fails with the width-mismatch error, whatever the bit length. |
| OctetStream.PlainDecode | app/screens/Things/octetstream-codec.ts:20-87 | A non-empty, non-object type name the guard rejects reaches the switch with its original spelling. Without a swap, the whole buffer goes there with the default layout: offset 0, all bits, order and signedness from the parameters. |
| OctetStream.DecodeWhole | app/screens/Things/octetstream-codec.ts:70-73 | When the bit length covers the whole buffer, no window is cut and the switch sees the buffer itself. |
| OctetStream.DecodeWindow | app/screens/Things/octetstream-codec.ts:70-73 | A shorter bit length cuts the window with readBits, and the switch sees the window with the bit length reset to its whole bytes. |
| OctetStream.DecodeSwapped | app/screens/Things/octetstream-codec.ts:65-68 | BYTE_SWAP is applied before the switch, and the swapped buffer is what the caller keeps. |
| OctetStream.WholeBufferWidth | app/screens/Things/octetstream-codec.ts:57-72 | In the corrected reading, a bit length that reaches the switch without a window is the whole buffer, a multiple of 8. |
| BitWindow.Extract | app/screens/Things/octetstream-codec.ts:199-213 | readBits fails exactly for a negative offset, a negative length or a window past the buffer, in that order. Otherwise it returns ceil(bitLength / 8) bytes. |
| BitWindow.ReadBits | app/screens/Things/octetstream-codec.ts:199-245 | The loop, with its error checks, returns exactly the packing of the selected bits. |
| BitWindow.NextBit | app/screens/Things/octetstream-codec.ts:221-230 | One step of the cursor reads bit `8 * byteOffset + bitOffsetInByte`, MSB first, and advances the cursor by one bit across byte boundaries. |
| BitWindow.ScanPacks | app/screens/Things/octetstream-codec.ts:221-244 | Running the loop over all bits fills the zeroed result buffer with the packing of the bits. |
| BitWindow.ScanAccumulates | app/screens/Things/octetstream-codec.ts:221-244 | After i bits, the closed groups are packed in place, and `result` holds the open group's bits. |
| BitWindow.AccumulateStep | app/screens/Things/octetstream-codec.ts:232-241 | One iteration keeps that invariant, whether or not it writes a byte. |
| BitWindow.AccumulateClose | app/screens/Things/octetstream-codec.ts:233-241 | A bit that satisfies the write test completes the next output byte, which lies inside the result buffer. |
| BitWindow.AccumulateOpen | app/screens/Things/octetstream-codec.ts:222-223 | A bit that does not close its group is shifted into `result`. |
| BitWindow.ScanInBounds | app/screens/Things/octetstream-codec.ts:238 | The loop never writes past the end of its result buffer. |
| BitWindow.GroupBoundary | app/screens/Things/octetstream-codec.ts:233-237 | The three-way write test holds exactly at the last bit of an output group: the leading partial group, then groups of eight. |
| BitWindow.CeilBytes | app/screens/Things/octetstream-codec.ts:213 | `Math.ceil(len / 8)` bytes hold len bits with fewer than eight to spare. |
| BitWindow.WindowValue | app/screens/Things/octetstream-codec.ts:215-244 | The output, read as a big-endian unsigned integer, equals the value of the selected bit span. |
| BitWindow.WindowBytes | app/screens/Things/octetstream-codec.ts:213-244 | Every output element is a byte. |
| BitWindow.WindowAligned | app/screens/Things/octetstream-codec.ts:215-244 | Reading the first k whole bytes bit by bit reproduces them. |
| BitWindow.ExtractWhole | app/screens/Things/octetstream-codec.ts:199-245 | `readBits(b, 0, 8 * b.length)` returns b. |
| BitWindow.ExtractPrefix | app/screens/Things/octetstream-codec.ts:199-245 | `readBits(b, 0, 8 * k)` returns the first k bytes. |
| Buffer.ReadInt | app/screens/Things/BinaryDataCodec.ts:123-135 | For a width of at least one byte, the read succeeds exactly when the w-byte field lies in the buffer. Unsigned and signed results lie in their ranges, and the result is congruent to the field's unsigned value. |
| Buffer.Read | app/screens/Things/BinaryDataCodec.ts:123-135 | The read succeeds exactly when the offset and the width are non-negative and the field lies in the buffer. A width of at least one gives ReadInt's value. Width 0 reads the byte before the offset (big-endian) or at it (little-endian), less 1 when signed and at least 128; the result is `undefined` exactly when that byte lies outside the buffer. |
| Buffer.EmptyReadUndefined | app/screens/Things/BinaryDataCodec.ts:123-135 | A zero-width read of an empty buffer passes the range check and is `undefined`, in either order and signedness. |
| Buffer.ZeroWidthFirstByte | app/screens/Things/BinaryDataCodec.ts:123-135 | An unsigned zero-width read at offset 0 of a non-empty buffer is its first byte in little-endian order and `undefined` in big-endian order. |
| Buffer.WriteInt | app/screens/Things/BinaryDataCodec.ts:164-177 | An out-of-range value or a non-zero offset into a fresh field of its own width is an error. Otherwise the w bytes hold the truncated value modulo 256^w. |
| Buffer.WriteReadInt | app/screens/Things/BinaryDataCodec.ts:164-177 | An in-range integer written into w bytes reads back unchanged, in either order and signedness. |
| Buffer.ReadReversed | app/screens/Things/octetstream-codec.ts:124-151 | A big-endian read of reversed bytes equals the little-endian read of the bytes. |
| Buffer.Swap16 | app/screens/Things/octetstream-codec.ts:66-68 | swap16 fails exactly on an odd length. Otherwise it exchanges the bytes of each pair. |
| Buffer.Swap16Twice | app/screens/Things/octetstream-codec.ts:66-68 | Swapping twice restores the buffer. |
| BinaryNumbers.ByteToInt | app/screens/Things/BinaryDataCodec.ts:109-142 | The defaults are the whole buffer, unsigned, little-endian, scale 1, offset 0 and precision 2. An order other than little/big reads 0, so the result is 0, or NaN for a negative precision. Otherwise the result fails exactly when the read does; an `undefined` read gives NaN, and any other read gives the rounded, scaled value. |
| BinaryNumbers.UnscaledIsRaw | app/screens/Things/BinaryDataCodec.ts:109-142 | With scale 1 the result is exactly the raw integer read. |
| BinaryNumbers.RoundAt | app/screens/Things/BinaryDataCodec.ts:137-140 | The rounding yields a number or NaN. It is NaN for a negative precision (the text "e+-p" does not parse) and for any input JavaScript prints in exponent notation. |
| BinaryNumbers.ZeroRounds | app/screens/Things/BinaryDataCodec.ts:137-140 | Zero, scaled and rounded, stays 0 at any non-negative precision and is NaN at a negative one. |
| BinaryNumbers.RoundHalfUp | app/screens/Things/BinaryDataCodec.ts:140 | `Math.round` lands within one half of its argument, with halves going up. |
| BinaryNumbers.RoundInteger | app/screens/Things/BinaryDataCodec.ts:137-140 | An integer whose shifted text stays below 1e21 is unchanged by the rounding. |
| BinaryNumbers.IntToByte | app/screens/Things/BinaryDataCodec.ts:150-180 | A missing `bdo:bytelength` is an error. The output has exactly bytelength bytes. For little/big order these hold the truncated value times the scale, modulo 256^bytelength. Another order, or NaN, leaves zeros. |
| BinaryNumbers.IntRoundTrip | app/screens/Things/BinaryDataCodec.ts:109-180 | With scale 1 and offset 0, an in-range integer survives int2byte then byte2int, under the same signedness, order and byte length. |
| BinaryNumbers.EmptyFieldIsNaN | app/screens/Things/BinaryDataCodec.ts:109-142 | With no `bdo:bytelength`, offset 0 and order little or big, an empty field decodes to NaN, because the zero-width read is `undefined`. |
| BinaryNumbers.NegativePrecisionIsNaN | app/screens/Things/BinaryDataCodec.ts:115-140 | With a negative `bdo:precision`, every successful decode is NaN. |
| Text.HexEncode | app/screens/Things/BinaryDataCodec.ts:287-288 | Hex output has two lower-case hex digits per byte. |
| Text.HexRoundTrip | app/screens/Things/BinaryDataCodec.ts:264-294 | Base16-decoding the hex text of bytes gives the bytes back. |
| Text.HexCanonical | app/screens/Things/BinaryDataCodec.ts:264-294 | Encoding the decoding of well-formed hex text gives the text in lower case. |
| Text.ParseHexPair | app/screens/Things/BinaryDataCodec.ts:269-271 | A pair is read as `parseInt` reads it: two hex digits give their byte, leading white space or a sign before one digit is accepted, a digit followed by a non-digit gives that digit, and "0x", "0X" or no digit gives NaN. |
| Text.HexDecodeMeaning | app/screens/Things/BinaryDataCodec.ts:269-271 | `Buffer.from(s, "hex")` yields the pairs read in order, each stored modulo 256, stopping at the first NaN pair, at the end of the text, or after an astral character. |
| Text.DecodesPairsUnique | app/screens/Things/BinaryDataCodec.ts:269-271 | Those two facts determine the decoded bytes. |
| Text.LenientPairs | app/screens/Things/BinaryDataCodec.ts:269-271 | "1g" decodes to [0x01], " f" to [0x0f], "-1" to [0xff], "0x12" to nothing, and "abzzcd" to [0xab]. |
| Utf8.DecodeEncode | app/screens/Things/BinaryDataCodec.ts:264-294 | UTF-8 decoding undoes UTF-8 encoding for every string. |
| BinaryData.ByteToString | app/screens/Things/BinaryDataCodec.ts:283-294 | The conversion fails exactly for a format other than absent or "hex". Hex output has two hex digits per byte, and UTF-8 text is never longer than its bytes. |
| BinaryData.StringToByte | app/screens/Things/BinaryDataCodec.ts:264-275 | The conversion fails exactly for a format other than absent or "hex", and always yields bytes. For "hex", byte i is pair i of the text read by `parseInt(…, 16)` and stored modulo 256, and decoding stops at the first pair that gives NaN. |
| BinaryData.ByteToObject | app/screens/Things/BinaryDataCodec.ts:302-305 | It fails exactly when JSON.parse rejects the UTF-8 text. |
| BinaryData.ObjectToByte | app/screens/Things/BinaryDataCodec.ts:313-316 | The bytes are the UTF-8 encoding of JSON.stringify. |
| BinaryData.ToNumber | app/screens/Things/BinaryDataCodec.ts:239-240 | Only numbers, NaN, `undefined`, null, booleans and absent values convert to a number; anything else is a type error. Integers and numbers keep their value, and NaN, `undefined` or an absent value give NaN. |
| BinaryData.DecodeTyped | app/screens/Things/BinaryDataCodec.ts:24-54 | The error for an unsupported data type arises exactly for types other than integer, number, string and object. Integers decode to numbers, strings to strings. |
| BinaryData.ReadPattern | app/screens/Things/BinaryDataCodec.ts:188-224 | An unclosed placeholder is an error. Otherwise there is one slice per template name, each of bytes, and every name is a declared variable. |
| BinaryData.ReadPatternSized | app/screens/Things/BinaryDataCodec.ts:212-223 | With every variable sized, `readPattern` succeeds with the parsed names, and its slices are SliceFrom's. The template's first gap is the offset of the first slice, and the later gaps trail each variable. |
| BinaryData.ReadPatternPositions | app/screens/Things/BinaryDataCodec.ts:212-223 | With every variable sized, slice i of `readPattern` is the subarray that starts at the template's first gap plus, for every earlier variable, its `bdo:bytelength` and the gap after it, and is variable i's `bdo:bytelength` long. |
| BinaryData.TempLightSlices | app/screens/Things/BinaryDataCodec.ts:193-223 | `readPattern` on "{temp}00{light}" with two-byte variables over [1, 2, 0, 3, 4] gives the names [temp, light] and the slices [[1, 2], [3, 4]]. |
| BinaryData.DecodeSegments | app/screens/Things/BinaryDataCodec.ts:19-39 | Slice i decodes by the schema of name i. Any failure is the failure of some slice. |
| BinaryData.BytesToValue | app/screens/Things/BinaryDataCodec.ts:5-57 | With a pattern, the result is null for no placeholders and otherwise a list with one value per template name. Item i is slice i of `readPattern`, decoded by the schema of name i. |
| BinaryData.PatternFirst | app/screens/Things/BinaryDataCodec.ts:13-41 | When a pattern is present, `type` has no effect in either direction. |
| BinaryData.UnsupportedExactly | app/screens/Things/BinaryDataCodec.ts:41-54 | Without a pattern, decoding fails as unsupported exactly for types other than integer, number, string and object. |
| BinaryData.NoPlaceholderIsNull | app/screens/Things/BinaryDataCodec.ts:9-39 | A pattern without placeholders decodes to null. |
| BinaryData.HexFields | app/screens/Things/BinaryDataCodec.ts:237-250 | Every integer variable becomes hex text, other fields keep their values, and existing hex text stays. |
| BinaryData.HexField | app/screens/Things/BinaryDataCodec.ts:239-243 | One integer variable becomes hex text exactly when int2byte accepts it, leaving the other fields alone. |
| BinaryData.FillStringPattern | app/screens/Things/BinaryDataCodec.ts:233-256 | Missing variables, or a value that is not an object, is an error. |
| BinaryData.ValueToBytes | app/screens/Things/BinaryDataCodec.ts:64-101 | The output is bytes. Without a pattern, a type outside number/integer/string/object/array encodes as the single byte 0x00. |
| BinaryData.ArrayOneWay | app/screens/Things/BinaryDataCodec.ts:77-89 | An array encodes as JSON but does not decode. |
| BinaryData.Utf8StringRoundTrip | app/screens/Things/BinaryDataCodec.ts:264-294 | A string without a format survives encode then decode. |
| BinaryData.HexStringRoundTrip | app/screens/Things/BinaryDataCodec.ts:264-294 | Hex text with format "hex" comes back lower-cased. |
| BinaryData.HexBytesRoundTrip | app/screens/Things/BinaryDataCodec.ts:264-294 | With format "hex", bytes decode to their hex text and that text encodes back to the bytes. |
| BinaryData.ObjectRoundTrip | app/screens/Things/BinaryDataCodec.ts:302-316 | An object that JSON round-trips survives encode then decode. |
| BinaryData.IntegerValueRoundTrip | app/screens/Things/BinaryDataCodec.ts:41-89 | With scale 1 and offset 0, an in-range integer survives valueToBytes then bytesToValue. |
| BinaryPattern.ParseTemplate | app/screens/Things/BinaryDataCodec.ts:200-212 | The template fails exactly when a piece after a "{" has no "}". Otherwise there is one gap more than names, and the first gap is half the leading literal's length. |
| BinaryPattern.ParsePieces | app/screens/Things/BinaryDataCodec.ts:202-212 | Each piece after a "{" yields its name (the text before "}") and the half-length of the literal after it, in template order. |
| BinaryPattern.ParseRender | app/screens/Things/BinaryDataCodec.ts:200-212 | Rendering literals and brace-free names into a pattern, then reading it back, returns the names and the halved literal lengths. |
| BinaryPattern.ParseRenderedPieces | app/screens/Things/BinaryDataCodec.ts:202-212 | The pieces of a rendered pattern parse to its names and gaps. |
| BinaryPattern.TempLightTemplate | app/screens/Things/BinaryDataCodec.ts:193-196 | "{temp}00{light}" reads as names [temp, light] with gaps [0, 1, 0]. |
| BinaryPattern.Gaps | app/screens/Things/BinaryDataCodec.ts:207-210 | Gap i is half the length of literal i. |
| BinaryPattern.SliceFrom | app/screens/Things/BinaryDataCodec.ts:214-223 | Slicing succeeds exactly when every name is a declared variable, and yields one slice per name, each of bytes. |
| BinaryPattern.SliceWithOk | app/screens/Things/BinaryDataCodec.ts:214-223 | Whatever the cutting function, the loop fails exactly when some name is not a declared variable. |
| BinaryPattern.SlicesAreCut | app/screens/Things/BinaryDataCodec.ts:214-223 | With every variable sized, the loop cuts one piece per variable: each piece is its `bdo:bytelength` long, and the next starts after it and its trailing gap. |
| BinaryPattern.StartShift | app/screens/Things/BinaryDataCodec.ts:216-221 | The start of piece i + 1 is the start of piece i of the rest of the template, counted from where the first piece and its gap end. |
| BinaryPattern.CutPositions | app/screens/Things/BinaryDataCodec.ts:216-221 | Piece i runs from Start(i), the offset plus the lengths and gaps of the earlier pieces, to Start(i) plus its size. |
| BinaryPattern.SlicePositions | app/screens/Things/BinaryDataCodec.ts:214-223 | With every variable sized, slicing succeeds, and slice i is `bytes.subarray(Start(i), Start(i) + bytelength_i)`. |
| BinaryPattern.TemplatePlaced | app/screens/Things/BinaryDataCodec.ts:212-223 | Slicing with a template's first gap as the offset and the rest trailing their variables places slice i at `Start(i)`, `bdo:bytelength` bytes long. |
| BinaryPattern.SliceBytes | app/screens/Things/BinaryDataCodec.ts:214-223 | A sized slice that starts at a whole byte s holds the bytes from s to s + bytelength, clamped to the buffer. Its length is bytelength, less whatever lies past the end, and 0 when s is past the end. |
| BinaryPattern.SubarrayFrom | app/screens/Things/BinaryDataCodec.ts:219 | `subarray(s, s + n)` at a whole index s is the bytes from s to s + n, both clamped to the buffer, with the matching length. |
| BinaryPattern.NaNOffsetSlices | app/screens/Things/BinaryDataCodec.ts:216-221 | Once the running offset is NaN, every remaining slice is empty. |
| BinaryPattern.UnsizedHeadSlices | app/screens/Things/BinaryDataCodec.ts:216-221 | A variable without `bdo:bytelength` ends at NaN, so its slice and every later slice are empty. |
| BinaryPattern.TempLightSizes | app/screens/Things/BinaryDataCodec.ts:193-196 | The example's variables temp and light are sized, two bytes each. |
| BinaryPattern.TempLightSliced | app/screens/Things/BinaryDataCodec.ts:193-223 | Slicing [1, 2, 0, 3, 4] from offset 0 with gaps [1, 0] gives [[1, 2], [3, 4]]: the one-byte gap after temp is skipped. |
| BinaryPattern.GaplessSlices | app/screens/Things/BinaryDataCodec.ts:214-223 | With zero gaps and sized variables, the slices concatenate to the buffer span of the summed byte lengths. |
| BinaryPattern.Subarray | app/screens/Things/BinaryDataCodec.ts:219 | A subarray is never longer than the buffer. |
| BinaryPattern.SubarrayRange | app/screens/Things/BinaryDataCodec.ts:219 | In-range bounds give exactly that slice. |
| BinaryPattern.SubarrayClamped | app/screens/Things/BinaryDataCodec.ts:219 | An end past the buffer is clamped without error. |
| BinaryPattern.SubarrayNaNEnd | app/screens/Things/BinaryDataCodec.ts:219 | An undefined byte length (NaN end) gives an empty slice. |
| BinaryPattern.Add | app/screens/Things/BinaryDataCodec.ts:220 | An offset becomes NaN as soon as one addend is NaN. |
| BinaryPattern.VariableSchema | app/screens/Things/BinaryDataCodec.ts:218 | Missing `bdo:variables` and an undeclared name are distinct errors. Otherwise the result is the declared schema. |
| BinaryPattern.FieldValue | app/screens/Things/BinaryDataCodec.ts:240 | A field lookup finds the value of a field of that name, or proves there is none. |
| BinaryPattern.SetField | app/screens/Things/BinaryDataCodec.ts:242 | Overwriting one key changes only that key. |
| BinaryPattern.Substitute | app/screens/Things/BinaryDataCodec.ts:253-255 | A placeholder accepts a string, inserted as is, or an absent, `undefined` or null value, which insert nothing. Anything else is a type error. |
| BinaryPattern.ExpandRender | app/screens/Things/BinaryDataCodec.ts:252-255 | Expanding a rendered pattern with string fields gives the literals interleaved with the fields' texts. |
| BinaryPattern.ExpandRenderedPieces | app/screens/Things/BinaryDataCodec.ts:253-255 | Each placeholder piece expands to its field's text followed by its literal. |
| PatternRoundTrip.OneVariableRoundTrip | app/screens/Things/BinaryDataCodec.ts:188-256 | For a hex pattern prefix{name}suffix and a representable integer, the object {name: v} encodes and decodes to the list [v]. |
| PatternRoundTrip.FillOne | app/screens/Things/BinaryDataCodec.ts:233-256 | Filling puts the variable's hex between prefix and suffix. |
| PatternRoundTrip.EncodeOne | app/screens/Things/BinaryDataCodec.ts:64-73 | The encoded bytes are the prefix bytes, the field, then the suffix bytes. |
| PatternRoundTrip.TemplateOne | app/screens/Things/BinaryDataCodec.ts:200-212 | The leading gap is the prefix's byte count. |
| PatternRoundTrip.SliceOne | app/screens/Things/BinaryDataCodec.ts:214-223 | The one slice is exactly the field after the prefix. |
| PatternRoundTrip.ReadOne | app/screens/Things/BinaryDataCodec.ts:188-224 | readPattern cuts out exactly the field. |
| PatternRoundTrip.DecodeOne | app/screens/Things/BinaryDataCodec.ts:13-39 | The field decodes to the integer written into it. |
| PatternRoundTrip.ExpandOne | app/screens/Things/BinaryDataCodec.ts:252-255 | One placeholder expands to its string between the literals. |
| GattForm.UuidLowerCase | app/screens/Things/BleSelector.tsx:445-446 | A UUID is already lower case and contains no "/". |
| GattForm.UpperCaseNotUuid | app/screens/Things/BleSelector.tsx:445-446 | Any upper-case letter makes a segment a non-UUID, so it joins the device id. |
| GattForm.ThreeSegments | app/screens/Things/BleSelector.tsx:465-474 | A three-segment path maps positionally to device, service and characteristic, whatever the segments hold. |
| GattForm.ScanMeaning | app/screens/Things/BleSelector.tsx:444-464 | Otherwise the device id is the first segment joined with "/" to every later non-UUID segment, in order. The service is set only by a UUID second-to-last, and the characteristic only by a UUID last. |
| GattForm.ScanFrom | app/screens/Things/BleSelector.tsx:449-461 | The loop from segment i on completes the scan's partial result. |
| GattForm.NonUuid | app/screens/Things/BleSelector.tsx:449-452 | The kept segments are a subsequence, none of them a UUID. |
| GattForm.SelectorSplit | app/screens/Things/BleSelector.tsx:442-464 | On a whole href `scheme//device/service/characteristic`, the selector's copy keeps `scheme//device` as the device id. |
| GattForm.SelectorDeconstruct | app/screens/Things/BleSelector.tsx:437-483 | Without forms it fails. Otherwise the address is the split of the first form's href, with operation "" and no BLE operation. |
| GattForm.ClientPath | app/models/wot/bindings/binding-bluetooth/Bluetooth-client.ts:223 | The path is the text between the first "//" and the next one, absent without a "//". |
| GattForm.ClientPathOf | app/models/wot/bindings/binding-bluetooth/Bluetooth-client.ts:223 | For a scheme without "/" and a path without "//", the path of `scheme//path` is the path. |
| GattForm.ClientDeconstruct | app/models/wot/bindings/binding-bluetooth/Bluetooth-client.ts:219-268 | It fails exactly when the href has no "//". Otherwise the address is the split of the path, the operation is `op` printed or "", and the BLE operation is `sbo:methodName`. |
| GattForm.CopiesAgree | app/models/wot/bindings/binding-bluetooth/Bluetooth-client.ts:219-268 | The two copies agree on service and characteristic. The client's device id drops the scheme the selector's keeps. |
| GattForm.WriteModeOf | app/models/wot/bindings/binding-bluetooth/Bluetooth-client.ts:92-112 | Only "sbo:write-without-response" and "sbo:write" are accepted. The latter, exactly, means a write with response. |
| GattForm.WriteRequest | app/models/wot/bindings/binding-bluetooth/Bluetooth-client.ts:66-113 | A write goes to the split path with its content, or a single zero byte when there is none. It fails without a path or a known write operation. |
| GattForm.SubscribeRequest | app/models/wot/bindings/binding-bluetooth/Bluetooth-client.ts:141-153 | A subscription is accepted exactly for "sbo:notify" and "sbo:subscribe", at the split path. |
| BleThing.ShortId | app/screens/Things/BleSelector.tsx:219 | The short id is characters 4..8 of the id, at most four characters. |
| BleThing.Find | app/screens/Things/BleSelector.tsx:220-225 | A match is found exactly when some listed characteristic equals the full or the short id. |
| BleThing.ShortIdMatches | app/screens/Things/BleSelector.tsx:218-225 | A peripheral that lists only a UUID's 16-bit short form still matches it. |
| BleThing.ConvertProperty | app/screens/Things/BleSelector.tsx:217-232 | A property converts exactly when its first form names a characteristic the peripheral lists. It is readable or writeable. It is both exactly when readOnly and writeOnly agree, and only one of them when only that flag is set. It is observable exactly when observable is true. |
| BleThing.ConvertEvent | app/screens/Things/BleSelector.tsx:237-244 | An event fails only without forms. It takes the ids its href names, and its schema is `data` or else the event itself. |
| BleThing.ConvertProperties | app/screens/Things/BleSelector.tsx:215-234 | All properties convert, keyed and in order, or the whole conversion fails. |
| BleThing.ConvertEvents | app/screens/Things/BleSelector.tsx:235-246 | All events convert, keyed and in order, or the whole conversion fails. |
| BleThing.CreateBleThing | app/screens/Things/BleSelector.tsx:204-248 | A thing is built exactly when every property converts and every event has a form, with as many entries as the description has. One failing property fails it all. |
| BleThing.PropertiesListed | app/screens/Things/BleSelector.tsx:215-234 | Every property of a built thing keeps its key and names a listed characteristic from its first form, and can be read or written. |
| OctetStreamFindings.NegativeOffsetAccepted | app/screens/Things/octetstream-codec.ts:57-73 | As written, `bdo:bitOffset: -4` with `bdo:bitLength: 12` over one byte passes the length check, skips readBits, and reads 18. |
| OctetStreamFindings.SwappedFirstByte | app/screens/Things/octetstream-codec.ts:65-73 | As written, a nested property swaps the shared two-byte buffer again and reads what was the second byte. |
| OctetStreamFindings.SwapRepeatedPerProperty | app/screens/Things/octetstream-codec.ts:181-197 | As written, two properties with the same schema over [1, 2] with BYTE_SWAP decode to 1 and 2. |
| OctetStreamFindings.TwoProperties | app/screens/Things/octetstream-codec.ts:190-196 | In either reading, the second of two properties is decoded against the buffer the first left, and the object keeps the last buffer. |
| OctetStreamFindings.IndependentFields | app/screens/Things/octetstream-codec.ts:190-196 | In the corrected reading, each field is the decode of its own schema over the caller's buffer. |
| OctetStreamFindings.SameSchemaSameValue | app/screens/Things/octetstream-codec.ts:190-196 | In the corrected reading, two properties with the same schema decode to the same value. |

## Left out

- **Floating point.** Half, single and double decoding in `numberToValue` is not modelled: `OctetStream.NumberToValue` keeps the bytes a float would be read from.
  - OctetStream.NumberToValue: states the width rule and which bytes are read, not the float value.
- **Charsets.** Charsets other than UTF-8 and hex in `Buffer.toString`, and `JSON.parse` / `JSON.stringify`, are parameters (`Foreign`). Their behaviour belongs to libraries that are not part of this model.
- **`tst:function`** (BinaryDataCodec.ts, lines 94-99). It runs code taken from the schema, which a model cannot follow.
- **URI templates.** `UriTemplate.expand` is modelled as `{name}` substitution with string and null values:
  - operator expressions (`{+x}`, `{?x}` and so on) are rejected as malformed;
  - percent-encoding of reserved characters is left out, since hex text never contains them;
  - numbers and booleans in a placeholder are treated as type errors rather than printed.
- **JavaScript coercions.** `valueToBytes` casts its argument with `as`. The model takes the value's kind at face value: a non-object value given to a pattern, or a string, object or array given to an integer, is a type error where JavaScript would coerce it. Null and booleans given to an integer convert to 0 and to 1 or 0, as in JavaScript.
- **`parseInt` leniency.** `bdo:bitOffset` and `bdo:bitLength` are integers in the schema datatype, so text such as "8abc" is not modelled.
- Buffer.Read: offsets and widths are whole numbers and are not reduced modulo 2^32 as the library's `>>> 0` does. A negative one is rejected, as its wrapped value lies past any buffer shorter than 4 GiB.
- OctetStream.FieldWidth: a fractional `dataLength / 8` is truncated toward zero, as `>>> 0` does for a width of 0 or more; a negative width is rejected by the range check, as above.
- **Letter case and string units.** Text.ToLowerAscii folds only the ASCII letters A-Z, where `toLowerCase` also folds other letters. BleThing.ShortId counts characters, where `substring(4, 8)` counts UTF-16 code units. Both differ only outside ASCII, which UUIDs never leave.
- BinaryPattern.ExpandPieces: a "}" outside a placeholder is kept as literal text. The uritemplate library that decides this is not part of this model.
- BinaryData.HexFields: the integer fields are rewritten in a copy. The source rewrites the caller's object in place, which then keeps the hex text; the returned bytes are the same.
- **Logging.** The `console.log` of the decoded bytes in the octet-stream decoder and the `debug` calls of the Bluetooth client are not modelled; they print and change no value.
- **BLE I/O and UI.** All BLE I/O is left out, and with it:
  - `getCharacteristic`;
  - the write and notify calls;
  - subscriptions and streams;
  - scanning and connection;
  - the mobx stores and the UI.

  `WriteRequest` and `SubscribeRequest` return the request that would be issued.
- **`actions` of a BLE thing.** `createBleThing` always leaves it empty, so the `Thing` datatype has no such member.
- **Events in `createBleThing`.** Their characteristic is not looked up in the peripheral's list, as in the source, so events are never rejected for it.
- **Contracts stated as errors only.** These members state the errors and the shape of the result. The value a success carries is proved for the one-variable hex pattern in `PatternRoundTrip` and for each type by the round-trip lemmas.
  - BinaryData.FillStringPattern: the contract states only the errors.
  - BinaryData.ValueToBytes: the contract states only the byte range and the 0x00 default.
  - BinaryPattern.ExpandPieces: the contract states only which errors can arise.

## Findings

| source | as written | input that shows it | evidently intended | confidence | as-written member | corrected member |
|---|---|---|---|---|---|---|
| app/screens/Things/octetstream-codec.ts:57-73 | The length check compares the bit length with `bytes.length * 8 - offset`, so a negative offset enlarges the room. When the window then covers the whole buffer, readBits (which rejects negative offsets) is skipped. | one byte 0x12, `type: "integer"`, `bdo:bitOffset: -4`, `bdo:bitLength: 12` decodes to 18 | a negative bit offset is rejected, and a successful decode reads a window inside the buffer | high, not executed | OctetStreamFindings.NegativeOffsetAccepted | OctetStream.BytesToValue |
| app/screens/Things/octetstream-codec.ts:65-68 | `swap16` works in place on the buffer an object shares with its properties. Every property's recursive call swaps it again, so consecutive properties see alternating byte orders. | bytes [1, 2], `byteSeq=BYTE_SWAP`, an object with two properties both `type: "integer"`, `bdo:bitOffset: 0`, `bdo:bitLength: 8` decodes to {a: 1, b: 2} | the buffer is swapped once, so two properties with the same schema decode to the same value | high, not executed | OctetStreamFindings.SwapRepeatedPerProperty | OctetStreamFindings.SameSchemaSameValue |

=== FILE: binarydata.dfy ===
/**
 * The `bdo:*` binary codec (app/screens/Things/BinaryDataCodec.ts):
 * `bytesToValue` and `valueToBytes` dispatch on `bdo:pattern` first and on
 * `type` otherwise, to the integer, string and JSON conversions.
 */
module BinaryData {
  import opened Wrappers
  import opened Bytes
  import opened Errors
  import opened Text
  import opened Schema
  import opened BinaryNumbers
  import opened BinaryPattern
  import Buffer
  import Utf8

  // ---------------------------------------------------------------------------
  // Strings and JSON (BinaryDataCodec.ts, lines 264-316).

  /** `byte2string`: utf-8 without a `format`, lower-case hex for "hex", an error for any other format. */
  function ByteToString(schema: DataSchema, bytes: seq<int>): (r: Result<string, Error>)
    requires IsBytes(bytes)
    ensures r.Err? <==> schema.format.Some? && schema.format.value != "hex"
    ensures r.Err? ==> r.error == UnsupportedFormat
    ensures r.Ok? && schema.format.None? ==> |r.value| <= |bytes|
    ensures r.Ok? && schema.format.Some? ==> |r.value| == 2 * |bytes| && IsHexText(r.value)
  {
    if schema.format.None? then Ok(Utf8.Decode(bytes))
    else if schema.format.value == "hex" then
      HexEncodeIsHexText(bytes);
      Ok(HexEncode(bytes))
    else Err(UnsupportedFormat)
  }

  /**
   * `string2byte`: the utf-8 bytes without a `format`; for "hex", the pairs of
   * the text read by `parseInt` up to the first that gives NaN; an error for any other format.
   */
  function StringToByte(schema: DataSchema, s: string): (r: Result<seq<int>, Error>)
    ensures r.Err? <==> schema.format.Some? && schema.format.value != "hex"
    ensures r.Err? ==> r.error == UnsupportedFormat
    ensures r.Ok? ==> IsBytes(r.value)
    ensures r.Ok? && schema.format.None? ==> |s| <= |r.value| <= 4 * |s|
    ensures r.Ok? && schema.format.Some? ==> |r.value| <= |s| / 2
    ensures r.Ok? && schema.format.Some? ==> DecodesPairs(s, r.value) && StopsAfter(s, |r.value|)
  {
    if schema.format.None? then Ok(Utf8.Encode(s))
    else if schema.format.value == "hex" then
      HexDecodeMeaning(s);
      Ok(HexDecode(s))
    else Err(UnsupportedFormat)
  }

  /** `byte2object`: `JSON.parse` of the utf-8 text. */
  function ByteToObject(bytes: seq<int>, foreign: Foreign): (r: Result<Value, Error>)
    requires IsBytes(bytes)
    ensures r.Err? <==> foreign.parseJson(Utf8.Decode(bytes)).None?
    ensures r.Err? ==> r.error == JsonSyntax
  {
    match foreign.parseJson(Utf8.Decode(bytes))
    case None => Err(JsonSyntax)
    case Some(v) => Ok(v)
  }

  /** `object2byte`: the utf-8 bytes of `JSON.stringify`. */
  function ObjectToByte(v: Value, foreign: Foreign): (r: seq<int>)
    ensures IsBytes(r)
    ensures Utf8.Decode(r) == foreign.stringify(v)
  {
    Utf8.DecodeEncode(foreign.stringify(v));
    Utf8.Encode(foreign.stringify(v))
  }

  /** `Number(value)` for the values the encoder accepts as numbers; `None` is NaN, and undefined, absent or not, gives NaN. */
  function ToNumber(v: Option<Value>): (r: Result<Option<real>, Error>)
    ensures r.Err? <==> v.Some? && !(v.value.Int? || v.value.Num? || v.value.NotANumber? || v.value.Undefined? || v.value.Null? || v.value.Bool?)
    ensures r.Err? ==> r.error == ValueTypeMismatch
    ensures v.Some? && v.value.Int? ==> r == Ok(Some(v.value.i as real))
    ensures v.Some? && v.value.Num? ==> r == Ok(Some(v.value.r))
    ensures v.None? || (v.Some? && (v.value.NotANumber? || v.value.Undefined?)) ==> r == Ok(None)
    ensures v == Some(Null) ==> r == Ok(Some(0.0))
    ensures v.Some? && v.value.Bool? ==> r == Ok(Some(if v.value.b then 1.0 else 0.0))
  {
    match v
    case None => Ok(None)
    case Some(Int(i)) => Ok(Some(i as real))
    case Some(Num(x)) => Ok(Some(x))
    case Some(NotANumber) => Ok(None)
    case Some(Undefined) => Ok(None)
    case Some(Null) => Ok(Some(0.0))
    case Some(Bool(b)) => Ok(Some(if b then 1.0 else 0.0))
    case Some(_) => Err(ValueTypeMismatch)
  }

  // ---------------------------------------------------------------------------
  // Decoding (BinaryDataCodec.ts, lines 5-57).

  /** The `type`s the decoder converts. */
  predicate Decodable(typ: Option<string>)
  {
    typ == Some("integer") || typ == Some("number") || typ == Some("string") || typ == Some("object")
  }

  /** The `switch` on `type` that decodes a whole buffer or one pattern variable's slice. */
  function DecodeTyped(schema: DataSchema, bytes: seq<int>, foreign: Foreign): (r: Result<Value, Error>)
    requires IsBytes(bytes)
    ensures r == Err(UnsupportedDatatype) <==> !Decodable(schema.typ)
    ensures r.Ok? && (schema.typ == Some("integer") || schema.typ == Some("number")) ==> r.value.Num? || r.value.NotANumber?
    ensures r.Ok? && schema.typ == Some("string") ==> r.value.Str?
  {
    if schema.typ == Some("integer") || schema.typ == Some("number") then ByteToInt(schema, bytes)
    else if schema.typ == Some("string") then
      var s :- ByteToString(schema, bytes);
      Ok(Str(s))
    else if schema.typ == Some("object") then ByteToObject(bytes, foreign)
    else Err(UnsupportedDatatype)
  }

  /** The placeholder names of a pattern and the slice of the buffer each one names. */
  datatype Segments = Segments(names: seq<string>, slices: seq<seq<int>>)

  /** `readPattern`: the template is read in full first, then the buffer is cut. */
  function ReadPattern(schema: DataSchema, bytes: seq<int>): (r: Result<Segments, Error>)
    requires schema.pattern.Some?
    ensures ParseTemplate(schema.pattern.value).Err? ==> r == Err(UnclosedPlaceholder)
    ensures r.Ok? ==> ParseTemplate(schema.pattern.value).Ok? && r.value.names == ParseTemplate(schema.pattern.value).value.names
    ensures r.Ok? ==> |r.value.slices| == |r.value.names|
    ensures r.Ok? && IsBytes(bytes) ==> forall i :: 0 <= i < |r.value.slices| ==> IsBytes(r.value.slices[i])
    ensures r.Ok? ==> forall i :: 0 <= i < |r.value.names| ==> VariableSchema(schema.variables, r.value.names[i]).Ok?
  {
    var t :- ParseTemplate(schema.pattern.value);
    var slices :- SliceFrom(bytes, t.names, t.gaps[1..], schema.variables, Some(t.gaps[0]));
    Ok(Segments(t.names, slices))
  }

  /**
   * With every variable sized, `readPattern` is `sliceFrom` over the parsed
   * names, with the template's first gap as the offset of the first slice and
   * every later gap trailing its variable; `SlicePositions` and `SliceBytes`
   * then say where each slice starts and which bytes it holds.
   */
  lemma ReadPatternSized(schema: DataSchema, bytes: seq<int>, t: Template)
    requires schema.pattern.Some? && ParseTemplate(schema.pattern.value) == Ok(t)
    requires AllSized(schema.variables, t.names)
    ensures SliceFrom(bytes, t.names, t.gaps[1..], schema.variables, Some(t.gaps[0])).Ok?
    ensures ReadPattern(schema, bytes)
      == Ok(Segments(t.names, SliceFrom(bytes, t.names, t.gaps[1..], schema.variables, Some(t.gaps[0])).value))
  {
    AllSizedEach(schema.variables, t.names);
  }

  /**
   * With every variable sized, slice i of `readPattern` is the subarray that
   * starts at `Start(i)` (the template's first gap plus, for every earlier
   * variable, its bytelength and the gap after it) and is variable i's
   * bytelength long.
   */
  lemma ReadPatternPositions(schema: DataSchema, bytes: seq<int>, t: Template, i: nat)
    requires schema.pattern.Some? && ParseTemplate(schema.pattern.value) == Ok(t)
    requires AllSized(schema.variables, t.names) && i < |t.names|
    ensures ReadPattern(schema, bytes).Ok?
    ensures PlacedAt(bytes, schema.variables, t.names, t.gaps, ReadPattern(schema, bytes).value.slices, i)
  {
    ReadPatternSized(schema, bytes, t);
    TemplatePlaced(bytes, schema.variables, t.names, t.gaps, i);
  }

  /** The codec's own example: "{temp}00{light}" with two-byte variables. */
  const TempLightSchema := Blank.(pattern := Some("{temp}00{light}"), variables := TempLightVariables)

  /** Over [1, 2, 0, 3, 4], temp is the first two bytes and light the two after the one-byte gap. */
  lemma TempLightSlices()
    ensures ReadPattern(TempLightSchema, [1, 2, 0, 3, 4]) == Ok(Segments(["temp", "light"], [[1, 2], [3, 4]]))
  {
    var t := Template(["temp", "light"], [0.0, 1.0, 0.0]);
    TempLightTemplate();
    TempLightSizes();
    ReadPatternSized(TempLightSchema, [1, 2, 0, 3, 4], t);
    assert t.gaps[1..] == [1.0, 0.0];
    TempLightSliced();
  }

  /** Each slice decoded by its variable's schema. */
  function DecodeSegments(variables: Entries, names: seq<string>, slices: seq<seq<int>>, foreign: Foreign): (r: Result<seq<Value>, Error>)
    requires |names| == |slices| && forall i :: 0 <= i < |slices| ==> IsBytes(slices[i])
    requires forall i :: 0 <= i < |names| ==> VariableSchema(variables, names[i]).Ok?
    ensures r.Ok? ==> |r.value| == |names|
    ensures r.Ok? ==> forall i :: 0 <= i < |names| ==>
      DecodeTyped(VariableSchema(variables, names[i]).value, slices[i], foreign) == Ok(r.value[i])
    ensures r.Err? ==> exists i :: 0 <= i < |names| && DecodeTyped(VariableSchema(variables, names[i]).value, slices[i], foreign) == Err(r.error)
  {
    if |names| == 0 then Ok([])
    else
      var head := DecodeTyped(VariableSchema(variables, names[0]).value, slices[0], foreign);
      if head.Err? then Err(head.error)
      else
        assert forall i :: 1 <= i < |names| ==> names[1..][i - 1] == names[i] && slices[1..][i - 1] == slices[i];
        var rest := DecodeSegments(variables, names[1..], slices[1..], foreign);
        if rest.Err? then
          var i :| 0 <= i < |names| - 1 && DecodeTyped(VariableSchema(variables, names[1..][i]).value, slices[1..][i], foreign) == Err(rest.error);
          assert DecodeTyped(VariableSchema(variables, names[i + 1]).value, slices[i + 1], foreign) == Err(rest.error);
          Err(rest.error)
        else Ok([head.value] + rest.value)
  }

  /**
   * `bytesToValue`: with a pattern, the list of the variables' values (null
   * when the pattern names none, as the result is only set inside the loop);
   * without one, the buffer decoded by `type`.
   */
  function BytesToValue(schema: DataSchema, bytes: seq<int>, foreign: Foreign): (r: Result<Value, Error>)
    requires IsBytes(bytes)
    ensures schema.pattern.Some? && r.Ok? ==> r.value.Null? || r.value.List?
    ensures schema.pattern.Some? && r.Ok? ==> ReadPattern(schema, bytes).Ok?
    ensures schema.pattern.Some? && r.Ok? ==> (r.value.Null? <==> |ReadPattern(schema, bytes).value.names| == 0)
    ensures schema.pattern.Some? && r.Ok? && r.value.List? ==> |r.value.items| == |ReadPattern(schema, bytes).value.names|
    ensures schema.pattern.Some? && r.Ok? && r.value.List? ==> forall i :: 0 <= i < |r.value.items| ==>
      DecodeTyped(VariableSchema(schema.variables, ReadPattern(schema, bytes).value.names[i]).value, ReadPattern(schema, bytes).value.slices[i], foreign) == Ok(r.value.items[i])
  {
    if schema.pattern.Some? then
      var segments :- ReadPattern(schema, bytes);
      var values :- DecodeSegments(schema.variables, segments.names, segments.slices, foreign);
      if |segments.names| == 0 then Ok(Null) else Ok(List(values))
    else DecodeTyped(schema, bytes, foreign)
  }

  // ---------------------------------------------------------------------------
  // Encoding (BinaryDataCodec.ts, lines 64-101 and 233-256).

  /** The fields after every integer-typed variable's value is replaced by the hex text of its bytes. */
  function HexFields(vars: seq<Property>, fields: seq<Field>): (r: Result<seq<Field>, Error>)
    ensures r.Ok? ==> forall n :: (forall i :: 0 <= i < |vars| ==> vars[i].name != n) ==> FieldValue(r.value, n) == FieldValue(fields, n)
    ensures r.Ok? ==> forall n :: HexValued(fields, n) ==> HexValued(r.value, n)
    ensures r.Ok? ==> forall i :: 0 <= i < |vars| && vars[i].schema.typ == Some("integer") ==> HexValued(r.value, vars[i].name)
    decreases |vars|
  {
    if |vars| == 0 then Ok(fields)
    else
      var next :- if vars[0].schema.typ == Some("integer") then HexField(vars[0], fields) else Ok(fields);
      var r :- HexFields(vars[1..], next);
      assert forall i :: 1 <= i < |vars| ==> vars[1..][i - 1] == vars[i];
      Ok(r)
  }

  /** The field `name` holds hex text. */
  predicate HexValued(fields: seq<Field>, name: string)
  {
    var v := FieldValue(fields, name);
    v.Some? && v.value.Str? && IsHexText(v.value.s)
  }

  /** `value[key] = int2byte(params, value[key]).toString("hex")`. */
  function HexField(p: Property, fields: seq<Field>): (r: Result<seq<Field>, Error>)
    ensures r.Ok? ==> forall n :: n != p.name ==> FieldValue(r.value, n) == FieldValue(fields, n)
    ensures r.Ok? ==> HexValued(r.value, p.name)
    ensures r.Ok? <==> ToNumber(FieldValue(fields, p.name)).Ok? && IntToByte(p.schema, ToNumber(FieldValue(fields, p.name)).value).Ok?
  {
    var n :- ToNumber(FieldValue(fields, p.name));
    var buf :- IntToByte(p.schema, n);
    HexEncodeIsHexText(buf);
    Ok(SetField(fields, p.name, Str(HexEncode(buf))))
  }

  /** `fillStringPattern`: the integer variables become hex text, then the template is expanded with the value's fields. */
  function FillStringPattern(schema: DataSchema, value: Value): (r: Result<string, Error>)
    requires schema.pattern.Some?
    ensures schema.variables.Absent? ==> r == Err(MissingVariables)
    ensures schema.variables.Present? && !value.Obj? ==> r == Err(ValueTypeMismatch)
  {
    match schema.variables
    case Absent => Err(MissingVariables)
    case Present(vars) =>
      if !value.Obj? then Err(ValueTypeMismatch)
      else
        var fields :- HexFields(vars, value.fields);
        Expand(schema.pattern.value, fields)
  }

  /**
   * `valueToBytes`: a pattern is filled in and the text converted by the
   * schema's `format`; otherwise `type` chooses the conversion, and a type
   * it does not name leaves the one zero byte the buffer starts with.
   */
  function ValueToBytes(schema: DataSchema, value: Value, foreign: Foreign): (r: Result<seq<int>, Error>)
    ensures r.Ok? ==> IsBytes(r.value)
    ensures schema.pattern.None? && !Encodable(schema.typ) ==> r == Ok([0])
  {
    if schema.pattern.Some? then
      var text :- FillStringPattern(schema, value);
      StringToByte(schema, text)
    else if schema.typ == Some("number") || schema.typ == Some("integer") then
      var n :- ToNumber(Some(value));
      IntToByte(schema, n)
    else if schema.typ == Some("string") then
      if value.Str? then StringToByte(schema, value.s) else Err(ValueTypeMismatch)
    else if schema.typ == Some("object") || schema.typ == Some("array") then Ok(ObjectToByte(value, foreign))
    else Ok([0])
  }

  /** The `type`s the encoder converts. */
  predicate Encodable(typ: Option<string>)
  {
    typ == Some("number") || typ == Some("integer") || typ == Some("string") || typ == Some("object") || typ == Some("array")
  }

  // ---------------------------------------------------------------------------
  // Laws of the codec.

  /** A pattern decides both directions: the schema's `type` is then never read. */
  lemma PatternFirst(schema: DataSchema, typ: Option<string>, bytes: seq<int>, value: Value, foreign: Foreign)
    requires IsBytes(bytes) && schema.pattern.Some?
    ensures BytesToValue(schema.(typ := typ), bytes, foreign) == BytesToValue(schema, bytes, foreign)
    ensures ValueToBytes(schema.(typ := typ), value, foreign) == ValueToBytes(schema, value, foreign)
  {
    PatternDecodes(schema, typ, bytes, foreign);
    PatternEncodes(schema, typ, value, foreign);
  }

  lemma PatternDecodes(schema: DataSchema, typ: Option<string>, bytes: seq<int>, foreign: Foreign)
    requires IsBytes(bytes) && schema.pattern.Some?
    ensures BytesToValue(schema.(typ := typ), bytes, foreign) == BytesToValue(schema, bytes, foreign)
  {
    assert ReadPattern(schema.(typ := typ), bytes) == ReadPattern(schema, bytes);
  }

  lemma PatternEncodes(schema: DataSchema, typ: Option<string>, value: Value, foreign: Foreign)
    requires schema.pattern.Some?
    ensures ValueToBytes(schema.(typ := typ), value, foreign) == ValueToBytes(schema, value, foreign)
  {
    assert FillStringPattern(schema.(typ := typ), value) == FillStringPattern(schema, value);
  }

  /** Without a pattern, decoding fails as unsupported exactly for the types it does not convert. */
  lemma UnsupportedExactly(schema: DataSchema, bytes: seq<int>, foreign: Foreign)
    requires IsBytes(bytes) && schema.pattern.None?
    ensures BytesToValue(schema, bytes, foreign) == Err(UnsupportedDatatype) <==> !Decodable(schema.typ)
  {
  }

  /** A pattern without a placeholder decodes to null, whatever the buffer. */
  lemma NoPlaceholderIsNull(schema: DataSchema, bytes: seq<int>, foreign: Foreign)
    requires IsBytes(bytes) && schema.pattern.Some? && Free(schema.pattern.value, '{')
    ensures BytesToValue(schema, bytes, foreign) == Ok(Null)
  {
    SplitFree(schema.pattern.value, '{');
    var t := ParseTemplate(schema.pattern.value);
    assert t.Ok? && |t.value.names| == 0;
  }

  /** An array is encoded as JSON but not decoded: `bytesToValue` has no case for it. */
  lemma ArrayOneWay(schema: DataSchema, value: Value, bytes: seq<int>, foreign: Foreign)
    requires IsBytes(bytes) && schema.pattern.None? && schema.typ == Some("array")
    ensures ValueToBytes(schema, value, foreign) == Ok(ObjectToByte(value, foreign))
    ensures BytesToValue(schema, bytes, foreign) == Err(UnsupportedDatatype)
  {
  }

  /** A utf-8 string comes back unchanged through a string schema without a format. */
  lemma Utf8StringRoundTrip(schema: DataSchema, s: string, foreign: Foreign)
    requires schema.pattern.None? && schema.typ == Some("string") && schema.format.None?
    ensures ValueToBytes(schema, Str(s), foreign).Ok?
    ensures BytesToValue(schema, ValueToBytes(schema, Str(s), foreign).value, foreign) == Ok(Str(s))
  {
    Utf8.DecodeEncode(s);
  }

  /** Hex text comes back in lower case through a string schema of format "hex". */
  lemma HexStringRoundTrip(schema: DataSchema, s: string, foreign: Foreign)
    requires schema.pattern.None? && schema.typ == Some("string") && schema.format == Some("hex")
    requires IsHexText(s)
    ensures ValueToBytes(schema, Str(s), foreign).Ok?
    ensures BytesToValue(schema, ValueToBytes(schema, Str(s), foreign).value, foreign) == Ok(Str(ToLowerAscii(s)))
  {
    HexCanonical(s);
  }

  /** Any buffer comes back unchanged through its hex text. */
  lemma HexBytesRoundTrip(schema: DataSchema, bytes: seq<int>, foreign: Foreign)
    requires IsBytes(bytes) && schema.pattern.None? && schema.typ == Some("string") && schema.format == Some("hex")
    ensures BytesToValue(schema, bytes, foreign) == Ok(Str(HexEncode(bytes)))
    ensures ValueToBytes(schema, Str(HexEncode(bytes)), foreign) == Ok(bytes)
  {
    HexRoundTrip(bytes);
  }

  /** A value whose JSON parses back to it comes back through an object schema. */
  lemma ObjectRoundTrip(schema: DataSchema, value: Value, foreign: Foreign)
    requires schema.pattern.None? && schema.typ == Some("object")
    requires foreign.parseJson(foreign.stringify(value)) == Some(value)
    ensures BytesToValue(schema, ValueToBytes(schema, value, foreign).value, foreign) == Ok(value)
  {
  }

  /**
   * An integer that fits the field comes back through an integer or number
   * schema with scale 1 and offset 0, in either byte order and signedness.
   */
  lemma IntegerValueRoundTrip(schema: DataSchema, v: int, foreign: Foreign)
    requires schema.pattern.None? && (schema.typ == Some("integer") || schema.typ == Some("number"))
    requires schema.bytelength.Some? && schema.bytelength.value >= 1
    requires schema.scale.GetOr(1.0) == 1.0 && schema.offset.GetOr(0) == 0
    requires OrderOf(schema.byteOrder) != NoOrder
    requires Buffer.InRange(v as real, schema.bytelength.value, schema.signed.GetOr(false))
    requires schema.precision.GetOr(2) >= 0 && Abs(v as real) * Pow10(schema.precision.GetOr(2)) as real < ExponentFrom
    ensures ValueToBytes(schema, Int(v), foreign).Ok?
    ensures BytesToValue(schema, ValueToBytes(schema, Int(v), foreign).value, foreign) == Ok(Num(v as real))
  {
    IntRoundTrip(schema, v);
    assert ValueToBytes(schema, Int(v), foreign) == IntToByte(schema, Some(v as real));
  }
}

=== FILE: binarynumbers.dfy ===
/**
 * The integers of the `bdo:*` binary codec (app/screens/Things/BinaryDataCodec.ts):
 * fields of `bdo:bytelength` bytes with `bdo:signed`, `bdo:byteOrder`,
 * `bdo:scale`, `bdo:offset` and `bdo:precision`.
 *
 * JavaScript numbers are exact reals here; NaN is `NotANumber` as a decoded
 * value and `None` as an `Option<real>` operand.
 */
module BinaryNumbers {
  import opened Wrappers
  import opened Bytes
  import opened Errors
  import opened Text
  import opened Schema
  import Buffer

  // ---------------------------------------------------------------------------
  // Numbers (BinaryDataCodec.ts, lines 109-180).

  function Pow10(n: nat): (r: nat)
    ensures r >= 1
  {
    if n == 0 then 1 else 10 * Pow10(n - 1)
  }

  function Abs(x: real): real
  {
    if x < 0.0 then -x else x
  }

  /** 1e21, from which JavaScript prints numbers in exponent notation. */
  const ExponentFrom: real := 1000000000000000000000.0

  /** 1e-6, below which JavaScript prints non-zero numbers in exponent notation. */
  const ExponentBelow: real := 0.000001

  /**
   * `+(Math.round(Number(x + "e+" + p)) + "e-" + p)`: rounding half toward
   * +infinity at `p` decimals.  The trick shifts the decimal point in the
   * text of the number, so it yields NaN whenever that text is in exponent
   * notation: for a non-zero `x` below 1e-6 or from 1e21 up in magnitude, and
   * for a shifted, rounded value from 1e21 up.  A negative precision writes
   * "e+-", which `Number` does not parse, so it always yields NaN.
   */
  function RoundAt(x: real, p: int): (v: Value)
    ensures v.Num? || v.NotANumber?
    ensures Exponential(x) || p < 0 ==> v.NotANumber?
  {
    if p < 0 then NotANumber else RoundBy(x, Pow10(p))
  }

  /** The rounding with the shift written as a factor `q`, a power of ten. */
  function RoundBy(x: real, q: nat): (v: Value)
    requires q >= 1
    ensures v.Num? || v.NotANumber?
  {
    if Exponential(x) then NotANumber
    else
      var m := RoundHalfUp(ShiftBy(x, q));
      if Abs(m as real) >= ExponentFrom then NotANumber
      else Num(UnshiftBy(m, q))
  }

  /** JavaScript writes `x` in exponent notation. */
  predicate Exponential(x: real)
  {
    x != 0.0 && (Abs(x) >= ExponentFrom || Abs(x) < ExponentBelow)
  }

  /** `x` with its decimal point moved right by the factor `q`. */
  function ShiftBy(x: real, q: nat): real
  {
    x * q as real
  }

  /** `m` with its decimal point moved left by the factor `q`. */
  function UnshiftBy(m: int, q: nat): real
    requires q >= 1
  {
    m as real / q as real
  }

  /** `Math.round`: the integer nearest to `y`, halves going up. */
  function RoundHalfUp(y: real): (m: int)
    ensures y - 0.5 < m as real <= y + 0.5
  {
    (y + 0.5).Floor
  }

  /** An integer whose shifted text stays below 1e21 comes out of the rounding unchanged. */
  lemma RoundInteger(v: int, p: nat)
    requires Abs(v as real) * Pow10(p) as real < ExponentFrom
    ensures RoundAt(v as real, p) == Num(v as real)
  {
    RoundIntegerBy(v, Pow10(p));
  }

  lemma RoundIntegerBy(v: int, q: nat)
    requires q >= 1 && Abs(v as real) * q as real < ExponentFrom
    ensures RoundBy(v as real, q) == Num(v as real)
  {
    ShiftInteger(v, q);
    RoundExact(v * q);
  }

  /** Shifting an integer is exact, stays below 1e21 when its product does, and shifts back. */
  lemma ShiftInteger(v: int, q: nat)
    requires q >= 1 && Abs(v as real) * q as real < ExponentFrom
    ensures !Exponential(v as real)
    ensures ShiftBy(v as real, q) == (v * q) as real
    ensures Abs((v * q) as real) < ExponentFrom
    ensures UnshiftBy(v * q, q) == v as real
  {
    RealProduct(v, q);
    AtLeastItself(Abs(v as real), q as real);
    AbsProduct(v, q);
    DivExact(v, q);
  }

  lemma RealProduct(a: int, b: int)
    ensures a as real * b as real == (a * b) as real
  {
  }

  lemma AtLeastItself(x: real, q: real)
    requires x >= 0.0 && q >= 1.0
    ensures x <= x * q
  {
  }

  lemma AbsProduct(v: int, q: int)
    requires q >= 1
    ensures Abs((v * q) as real) == Abs(v as real) * q as real
  {
    RealProduct(v, q);
  }

  lemma RoundExact(n: int)
    ensures RoundHalfUp(n as real) == n
  {
  }

  lemma DivExact(n: int, q: int)
    requires q > 0
    ensures (n * q) as real / q as real == n as real
  {
    RealProduct(n, q);
  }

  /** JavaScript's `a * b`, kept as a function so that the solver treats the product as one term. */
  function Times(a: real, b: real): (r: real)
    ensures b == 1.0 ==> r == a
  {
    a * b
  }

  /** Zero, scaled by anything and rounded, stays zero unless the precision is negative. */
  lemma ZeroRounds(scale: real, p: int)
    ensures RoundAt(Times(0.0, scale), p) == if p < 0 then NotANumber else Num(0.0)
  {
    if p >= 0 {
      var q := Pow10(p);
      assert Times(0.0, scale) == 0.0 && ShiftBy(0.0, q) == 0.0;
      assert RoundHalfUp(0.0) == 0;
      assert UnshiftBy(0, q) == 0.0;
    }
  }

  /** The byte order named "little" or "big"; any other order reads and writes nothing. */
  datatype Order = Little | Big | NoOrder

  function OrderOf(byteOrder: Option<string>): Order
  {
    var o := byteOrder.GetOr("little");
    if o == "little" then Little else if o == "big" then Big else NoOrder
  }

  /**
   * `byte2int(schema, bytes)`: defaults are the whole buffer, unsigned,
   * little-endian, scale 1, offset 0 and precision 2; an order other than
   * "little" or "big" leaves the raw value 0.  (`bytes.byteLength` is always
   * defined, so the missing-parameter error of the source cannot arise.)
   */
  function ByteToInt(schema: DataSchema, bytes: seq<int>): (r: Result<Value, Error>)
    requires IsBytes(bytes)
    ensures r.Err? ==> r.error == ReadOutOfRange
    ensures r.Ok? ==> r.value.Num? || r.value.NotANumber?
    ensures OrderOf(schema.byteOrder) == NoOrder ==> r == Ok(if schema.precision.GetOr(2) < 0 then NotANumber else Num(0.0))
    ensures OrderOf(schema.byteOrder) != NoOrder ==>
      var raw := Buffer.Read(bytes, schema.offset.GetOr(0), schema.bytelength.GetOr(|bytes|), OrderOf(schema.byteOrder) == Big, schema.signed.GetOr(false));
      (r.Ok? <==> raw.Ok?)
      && (r.Ok? && raw.value.None? ==> r.value == NotANumber)
      && (r.Ok? && raw.value.Some? ==> r.value == RoundAt(Times(raw.value.value as real, schema.scale.GetOr(1.0)), schema.precision.GetOr(2)))
  {
    var width := schema.bytelength.GetOr(|bytes|);
    var signed := schema.signed.GetOr(false);
    var order := OrderOf(schema.byteOrder);
    ZeroRounds(schema.scale.GetOr(1.0), schema.precision.GetOr(2));
    var raw :- match order
      case Little => Buffer.Read(bytes, schema.offset.GetOr(0), width, false, signed)
      case Big => Buffer.Read(bytes, schema.offset.GetOr(0), width, true, signed)
      case NoOrder => Ok(Some(0));
    if raw.None? then Ok(NotANumber)
    else Ok(RoundAt(Times(raw.value as real, schema.scale.GetOr(1.0)), schema.precision.GetOr(2)))
  }

  /**
   * A variable without `bdo:bytelength` gets an empty slice, which reads as
   * `undefined` at the default offset: the decoded number is NaN.
   */
  lemma EmptyFieldIsNaN(schema: DataSchema)
    requires schema.bytelength.None? && schema.offset.GetOr(0) == 0 && OrderOf(schema.byteOrder) != NoOrder
    ensures ByteToInt(schema, []) == Ok(NotANumber)
  {
    Buffer.EmptyReadUndefined(OrderOf(schema.byteOrder) == Big, schema.signed.GetOr(false));
  }

  /** A negative `bdo:precision` makes every decoded number NaN. */
  lemma NegativePrecisionIsNaN(schema: DataSchema, bytes: seq<int>)
    requires IsBytes(bytes) && schema.precision.GetOr(2) < 0
    ensures ByteToInt(schema, bytes).Ok? ==> ByteToInt(schema, bytes) == Ok(NotANumber)
  {
  }

  /**
   * `int2byte(schema, v)`: `bdo:bytelength` is required; the value (`None`
   * is NaN) is multiplied by `bdo:scale` and written at `bdo:offset` into a
   * fresh buffer of that many bytes, which stays all zeros for an order other
   * than "little" or "big".  NaN passes the Buffer library's range check and
   * is written as zeros.
   */
  function IntToByte(schema: DataSchema, v: Option<real>): (r: Result<seq<int>, Error>)
    ensures r == Err(MissingParameters) <==> schema.bytelength.None?
    ensures schema.bytelength.Some? && schema.bytelength.value < 0 ==> r == Err(InvalidSize)
    ensures r.Ok? ==> |r.value| == schema.bytelength.value && IsBytes(r.value)
    ensures r.Ok? && v.Some? && OrderOf(schema.byteOrder) != NoOrder ==>
      Buffer.Unsigned(r.value, OrderOf(schema.byteOrder) == Big) == Buffer.Trunc(Times(v.value, schema.scale.GetOr(1.0))) % Pow256(|r.value|)
    ensures r.Ok? && (v.None? || OrderOf(schema.byteOrder) == NoOrder) ==> r.value == seq(|r.value|, _ => 0)
    ensures OrderOf(schema.byteOrder) == NoOrder && schema.bytelength.Some? && schema.bytelength.value >= 0 ==> r.Ok?
    ensures v.None? && schema.bytelength.Some? && schema.bytelength.value >= 0 ==>
      (r.Ok? <==> OrderOf(schema.byteOrder) == NoOrder || schema.offset.GetOr(0) == 0)
  {
    if schema.bytelength.None? then Err(MissingParameters)
    else if schema.bytelength.value < 0 then Err(InvalidSize)
    else
      var width := schema.bytelength.value;
      var zeros := seq(width, _ => 0);
      var signed := schema.signed.GetOr(false);
      var offset := schema.offset.GetOr(0);
      match OrderOf(schema.byteOrder)
      case NoOrder => Ok(zeros)
      case _ =>
        if v.None? then (if offset != 0 then Err(IndexOutOfRange) else Ok(zeros))
        else Buffer.WriteInt(Times(v.value, schema.scale.GetOr(1.0)), offset, width, OrderOf(schema.byteOrder) == Big, signed)
  }

  /**
   * With scale 1 and offset 0, an integer that fits the field is written and
   * read back unchanged, in either byte order and signedness.
   */
  lemma IntRoundTrip(schema: DataSchema, v: int)
    requires schema.bytelength.Some? && schema.bytelength.value >= 1
    requires schema.scale.GetOr(1.0) == 1.0 && schema.offset.GetOr(0) == 0
    requires OrderOf(schema.byteOrder) != NoOrder
    requires Buffer.InRange(v as real, schema.bytelength.value, schema.signed.GetOr(false))
    requires schema.precision.GetOr(2) >= 0 && Abs(v as real) * Pow10(schema.precision.GetOr(2)) as real < ExponentFrom
    ensures IntToByte(schema, Some(v as real)).Ok?
    ensures ByteToInt(schema, IntToByte(schema, Some(v as real)).value) == Ok(Num(v as real))
  {
    var w := schema.bytelength.value;
    var big := OrderOf(schema.byteOrder) == Big;
    var signed := schema.signed.GetOr(false);
    Buffer.WriteReadInt(v, w, big, signed);
    assert IntToByte(schema, Some(v as real)) == Buffer.WriteInt(v as real, 0, w, big, signed);
    RoundInteger(v, schema.precision.GetOr(2));
  }

  /**
   * With scale 1 the decoded number is exactly the raw integer the field
   * holds, as long as its text shifted by the precision stays below 1e21
   * (at the default precision 2, any field of up to seven bytes).
   */
  lemma UnscaledIsRaw(schema: DataSchema, bytes: seq<int>)
    requires IsBytes(bytes) && schema.scale.GetOr(1.0) == 1.0
    requires OrderOf(schema.byteOrder) != NoOrder
    requires var raw := Buffer.ReadInt(bytes, schema.offset.GetOr(0), schema.bytelength.GetOr(|bytes|), OrderOf(schema.byteOrder) == Big, schema.signed.GetOr(false));
      raw.Ok? && schema.precision.GetOr(2) >= 0 && Abs(raw.value as real) * Pow10(schema.precision.GetOr(2)) as real < ExponentFrom
    ensures var raw := Buffer.ReadInt(bytes, schema.offset.GetOr(0), schema.bytelength.GetOr(|bytes|), OrderOf(schema.byteOrder) == Big, schema.signed.GetOr(false)).value;
      ByteToInt(schema, bytes) == Ok(Num(raw as real))
  {
    var raw := Buffer.ReadInt(bytes, schema.offset.GetOr(0), schema.bytelength.GetOr(|bytes|), OrderOf(schema.byteOrder) == Big, schema.signed.GetOr(false)).value;
    assert Times(raw as real, schema.scale.GetOr(1.0)) == raw as real;
    RoundInteger(raw, schema.precision.GetOr(2));
  }
}

=== FILE: binarypattern.dfy ===
/**
 * The `bdo:pattern` templates of the binary codec
 * (app/screens/Things/BinaryDataCodec.ts): a pattern such as
 * "{temp}00{light}" names the entries of `bdo:variables` between braces and
 * spells the bytes between them in hex.  Decoding reads the placeholder names
 * and the byte gaps out of the pattern and cuts the buffer accordingly;
 * encoding substitutes the variables' hex text into the placeholders.
 */
module BinaryPattern {
  import opened Wrappers
  import opened Bytes
  import opened Errors
  import opened Text
  import opened Schema
  import Buffer

  // ---------------------------------------------------------------------------
  // Reading the template (BinaryDataCodec.ts, lines 197-212).

  /** The placeholder names of a pattern and the byte gap before the first and after each one. */
  datatype Template = Template(names: seq<string>, gaps: seq<real>)

  /** Half the length of a hex literal: the number of bytes it spans (a half for an odd digit). */
  function Gap(literal: string): real
  {
    |literal| as real / 2.0
  }

  /**
   * The pattern split at "{": the text before the first "}" of the first
   * piece is the leading gap; every later piece must hold a "}", with the
   * name before it and the gap between it and the next "}" after it.  A piece
   * without "}" makes the source read the length of `undefined`.
   */
  function ParseTemplate(pattern: string): (r: Result<Template, Error>)
    ensures r.Ok? ==> |r.value.gaps| == |r.value.names| + 1 == |Split(pattern, "{")|
    ensures r.Ok? ==> r.value.gaps[0] == Gap(Split(Split(pattern, "{")[0], "}")[0])
    ensures r.Err? ==> r.error == UnclosedPlaceholder
    ensures r.Err? <==> exists i :: 1 <= i < |Split(pattern, "{")| && Unclosed(Split(pattern, "{")[i])
  {
    var pieces := Split(pattern, "{");
    var rest := ParsePieces(pieces[1..]);
    UnclosedAfterFirst(pieces);
    if rest.Err? then
      assert exists i :: 1 <= i < |Split(pattern, "{")| && Unclosed(Split(pattern, "{")[i]);
      Err(rest.error)
    else
      Ok(Template(rest.value.names, [Gap(Split(pieces[0], "}")[0])] + rest.value.gaps))
  }

  /** A piece after a "{" that holds no "}". */
  predicate Unclosed(piece: string)
  {
    |Split(piece, "}")| < 2
  }

  lemma UnclosedAfterFirst(pieces: seq<string>)
    requires |pieces| >= 1
    ensures (exists i :: 0 <= i < |pieces[1..]| && Unclosed(pieces[1..][i])) <==> (exists i :: 1 <= i < |pieces| && Unclosed(pieces[i]))
  {
    if exists i :: 0 <= i < |pieces[1..]| && Unclosed(pieces[1..][i]) {
      var i :| 0 <= i < |pieces[1..]| && Unclosed(pieces[1..][i]);
      assert Unclosed(pieces[i + 1]);
    }
    if exists i :: 1 <= i < |pieces| && Unclosed(pieces[i]) {
      var i :| 1 <= i < |pieces| && Unclosed(pieces[i]);
      assert Unclosed(pieces[1..][i - 1]);
    }
  }

  /** The pieces after a "{": each one's name and the gap after it. */
  function ParsePieces(pieces: seq<string>): (r: Result<Template, Error>)
    ensures r.Ok? ==> |r.value.names| == |r.value.gaps| == |pieces|
    ensures r.Ok? ==> forall i :: 0 <= i < |pieces| ==> PieceParsed(pieces[i], r.value.names[i], r.value.gaps[i])
    ensures r.Err? ==> r.error == UnclosedPlaceholder
    ensures r.Err? <==> exists i :: 0 <= i < |pieces| && Unclosed(pieces[i])
  {
    if |pieces| == 0 then Ok(Template([], []))
    else
      var parts := Split(pieces[0], "}");
      if |parts| < 2 then
        assert Unclosed(pieces[0]);
        Err(UnclosedPlaceholder)
      else
        var rest := ParsePieces(pieces[1..]);
        UnclosedAfterFirst(pieces);
        if rest.Err? then Err(rest.error)
        else
          ParsedCons(pieces, parts[0], Gap(parts[1]), rest.value.names, rest.value.gaps);
          Ok(Template([parts[0]] + rest.value.names, [Gap(parts[1])] + rest.value.gaps))
  }

  /** `piece` holds a "}", with `name` before it and `gap` the gap after it. */
  predicate PieceParsed(piece: string, name: string, gap: real)
  {
    var parts := Split(piece, "}");
    |parts| >= 2 && name == parts[0] && gap == Gap(parts[1])
  }

  lemma ParsedCons(pieces: seq<string>, name: string, gap: real, names: seq<string>, gaps: seq<real>)
    requires |pieces| > 0 && PieceParsed(pieces[0], name, gap)
    requires |names| == |gaps| == |pieces| - 1
    requires forall i :: 0 <= i < |pieces| - 1 ==> PieceParsed(pieces[1..][i], names[i], gaps[i])
    ensures forall i :: 0 <= i < |pieces| ==> PieceParsed(pieces[i], ([name] + names)[i], ([gap] + gaps)[i])
  {
    forall i | 1 <= i < |pieces| ensures PieceParsed(pieces[i], ([name] + names)[i], ([gap] + gaps)[i]) {
      assert pieces[1..][i - 1] == pieces[i];
    }
  }

  // ---------------------------------------------------------------------------
  // Writing a template: the inverse of reading one.

  /** No character of `s` is `c`. */
  predicate Free(s: string, c: char)
  {
    forall i :: 0 <= i < |s| ==> s[i] != c
  }

  /** Neither brace occurs in `s`. */
  predicate BraceFree(s: string)
  {
    Free(s, '{') && Free(s, '}')
  }

  /** `literals[0]{names[0]}literals[1]{names[1]}...`. */
  function Render(literals: seq<string>, names: seq<string>): string
    requires |literals| == |names| + 1
  {
    literals[0] + RenderRest(literals[1..], names)
  }

  function RenderRest(literals: seq<string>, names: seq<string>): string
    requires |literals| == |names|
  {
    if |names| == 0 then ""
    else "{" + names[0] + "}" + literals[0] + RenderRest(literals[1..], names[1..])
  }

  /** The pieces a rendered template splits into at "{" after its first literal. */
  function Pieces(literals: seq<string>, names: seq<string>): (r: seq<string>)
    requires |literals| == |names|
    ensures |r| == |names|
  {
    if |names| == 0 then []
    else [names[0] + "}" + literals[0]] + Pieces(literals[1..], names[1..])
  }

  /** The gap each literal makes. */
  function Gaps(literals: seq<string>): (r: seq<real>)
    ensures |r| == |literals|
    ensures forall i :: 0 <= i < |literals| ==> r[i] == Gap(literals[i])
  {
    if |literals| == 0 then [] else [Gap(literals[0])] + Gaps(literals[1..])
  }

  lemma {:induction false} SplitRendered(head: string, literals: seq<string>, names: seq<string>)
    requires |literals| == |names| && Free(head, '{')
    requires forall i :: 0 <= i < |names| ==> BraceFree(names[i]) && BraceFree(literals[i])
    ensures Split(head + RenderRest(literals, names), "{") == [head] + Pieces(literals, names)
    decreases |names|
  {
    if |names| == 0 {
      assert head + RenderRest(literals, names) == head;
      SplitFree(head, '{');
    } else {
      var next := names[0] + "}" + literals[0];
      var tail := RenderRest(literals[1..], names[1..]);
      assert head + RenderRest(literals, names) == head + ['{'] + (next + tail);
      assert Free(next, '{') by {
        assert forall i :: 0 <= i < |next| ==> next[i] != '{' by {
          assert BraceFree(names[0]) && BraceFree(literals[0]);
        }
      }
      SplitAfterFree(head, '{', next + tail);
      SplitRendered(next, literals[1..], names[1..]);
    }
  }

  lemma PieceParts(name: string, literal: string)
    requires BraceFree(name) && BraceFree(literal)
    ensures Split(name + "}" + literal, "}") == [name, literal]
  {
    SplitAfterFree(name, '}', literal);
    SplitFree(literal, '}');
  }

  lemma {:induction false} ParseRenderedPieces(literals: seq<string>, names: seq<string>)
    requires |literals| == |names|
    requires forall i :: 0 <= i < |names| ==> BraceFree(names[i]) && BraceFree(literals[i])
    ensures ParsePieces(Pieces(literals, names)) == Ok(Template(names, Gaps(literals)))
    decreases |names|
  {
    if |names| > 0 {
      ParseRenderedPieces(literals[1..], names[1..]);
      ParseRenderedStep(literals, names);
    }
  }

  /** The first rendered piece parses as its name and literal, ahead of the rest. */
  lemma ParseRenderedStep(literals: seq<string>, names: seq<string>)
    requires |literals| == |names| > 0
    requires BraceFree(names[0]) && BraceFree(literals[0])
    requires ParsePieces(Pieces(literals[1..], names[1..])) == Ok(Template(names[1..], Gaps(literals[1..])))
    ensures ParsePieces(Pieces(literals, names)) == Ok(Template(names, Gaps(literals)))
  {
    var pieces := Pieces(literals, names);
    assert pieces[0] == names[0] + "}" + literals[0];
    assert pieces[1..] == Pieces(literals[1..], names[1..]);
    PieceParts(names[0], literals[0]);
    assert names == [names[0]] + names[1..];
  }

  /**
   * A template written from brace-free literals and names reads back as those
   * names, with each literal's length in bytes as the gap it makes.
   */
  lemma ParseRender(literals: seq<string>, names: seq<string>)
    requires |literals| == |names| + 1
    requires forall i :: 0 <= i < |literals| ==> BraceFree(literals[i])
    requires forall i :: 0 <= i < |names| ==> BraceFree(names[i])
    ensures ParseTemplate(Render(literals, names)) == Ok(Template(names, Gaps(literals)))
  {
    var rest := literals[1..];
    assert forall i :: 0 <= i < |names| ==> rest[i] == literals[i + 1];
    SplitRendered(literals[0], rest, names);
    assert BraceFree(literals[0]);
    SplitFree(literals[0], '}');
    ParseRenderedPieces(rest, names);
    assert Gaps(literals) == [Gap(literals[0])] + Gaps(rest);
  }

  /** The pattern of the codec's own comment: "{temp}00{light}" is temp, a one-byte gap, then light. */
  lemma TempLightTemplate()
    ensures ParseTemplate("{temp}00{light}") == Ok(Template(["temp", "light"], [0.0, 1.0, 0.0]))
  {
    TempLightRendered();
    ParseRender(["", "00", ""], ["temp", "light"]);
    assert Gaps(["", "00", ""]) == [Gap(""), Gap("00"), Gap("")];
  }

  /** The example's variables: two bytes each. */
  const TempLightVariables := Present([Property("temp", Blank.(bytelength := Some(2))), Property("light", Blank.(bytelength := Some(2)))])

  /** Both variables of the example are sized, two bytes each. */
  lemma TempLightSizes()
    ensures AllSized(TempLightVariables, ["temp", "light"]) && Sizes(TempLightVariables, ["temp", "light"]) == [2, 2]
  {
    var variables := TempLightVariables;
    var names := ["temp", "light"];
    assert Lookup(variables.list, "temp") == Some(Blank.(bytelength := Some(2)));
    assert Lookup(variables.list[1..], "light") == Some(Blank.(bytelength := Some(2)));
    assert Lookup(variables.list, "light") == Some(Blank.(bytelength := Some(2)));
    assert names[1..] == ["light"] && names[1..][1..] == [];
    assert AllSized(variables, names[1..][1..]);
    assert AllSized(variables, names[1..]);
    assert AllSized(variables, names);
    SizesAt(variables, names, 0);
    SizesAt(variables, names, 1);
  }

  /** Over [1, 2, 0, 3, 4], the first slice starts at 0 and the second after the one-byte gap. */
  lemma TempLightSliced()
    ensures SliceFrom([1, 2, 0, 3, 4], ["temp", "light"], [1.0, 0.0], TempLightVariables, Some(0.0)) == Ok([[1, 2], [3, 4]])
  {
    var bytes := [1, 2, 0, 3, 4];
    var names := ["temp", "light"];
    var gaps := [1.0, 0.0];
    var variables := TempLightVariables;
    TempLightSizes();
    var sizes := Sizes(variables, names);
    assert Start(sizes, gaps, 0.0, 1) == 3.0;
    SliceBytes(bytes, names, gaps, variables, 0.0, 0, 0);
    SliceBytes(bytes, names, gaps, variables, 0.0, 1, 3);
    var slices := SliceFrom(bytes, names, gaps, variables, Some(0.0)).value;
    assert sizes[0] == 2 && sizes[1] == 2;
    assert Clamp(0, 5) == 0 && Clamp(2, 5) == 2 && Clamp(3, 5) == 3 && Clamp(5, 5) == 5;
    assert slices[0] == bytes[0..2] == [1, 2];
    assert slices[1] == bytes[3..5] == [3, 4];
    assert slices == [[1, 2], [3, 4]];
  }

  lemma TempLightRendered()
    ensures Render(["", "00", ""], ["temp", "light"]) == "{temp}00{light}"
    ensures BraceFree("") && BraceFree("temp") && BraceFree("light") && BraceFree("00")
  {
    assert [""][1..] == [] && ["light"][1..] == [];
    assert RenderRest([""], ["light"]) == "{light}";
    assert ["00", ""][1..] == [""] && ["temp", "light"][1..] == ["light"];
    assert RenderRest(["00", ""], ["temp", "light"]) == "{temp}00" + "{light}";
    assert ["", "00", ""][1..] == ["00", ""];
  }

  // ---------------------------------------------------------------------------
  // Cutting the buffer (BinaryDataCodec.ts, lines 214-223).

  /**
   * A start or end index as `TypedArray.prototype.subarray` resolves it:
   * NaN (`None`) is 0, a fraction is truncated toward zero, a negative index
   * counts from the end, and the result is clamped to the buffer.
   */
  function RelativeIndex(x: Option<real>, len: nat): (k: nat)
    ensures k <= len
  {
    var n := if x.None? then 0 else Buffer.Trunc(x.value);
    if n < 0 then (if len + n < 0 then 0 else len + n)
    else if n > len then len
    else n
  }

  /** `b.subarray(start, end)`: the bytes between the two resolved indices, none when the end comes first. */
  function Subarray(b: seq<int>, start: Option<real>, end: Option<real>): (r: seq<int>)
    ensures IsBytes(b) ==> IsBytes(r)
    ensures |r| <= |b|
  {
    var s := RelativeIndex(start, |b|);
    var e := RelativeIndex(end, |b|);
    if s <= e then b[s..e] else []
  }

  /** Integer indices inside the buffer cut exactly that range. */
  lemma SubarrayRange(b: seq<int>, s: int, e: int)
    requires 0 <= s <= e <= |b|
    ensures Subarray(b, Some(s as real), Some(e as real)) == b[s..e]
  {
    assert Buffer.Trunc(s as real) == s && Buffer.Trunc(e as real) == e;
  }

  /** An end beyond the buffer is the buffer's end; a start beyond it leaves nothing. */
  lemma SubarrayClamped(b: seq<int>, s: int, e: int)
    requires 0 <= s && |b| <= e
    ensures Subarray(b, Some(s as real), Some(e as real)) == if s <= |b| then b[s..] else []
  {
    assert Buffer.Trunc(s as real) == s && Buffer.Trunc(e as real) == e;
  }

  /** A NaN end cuts nothing, wherever the start lies. */
  lemma SubarrayNaNEnd(b: seq<int>, start: Option<real>)
    ensures Subarray(b, start, None) == []
  {
  }

  /** The sum of two offsets, either of which may be NaN. */
  function Add(a: Option<real>, b: Option<real>): (r: Option<real>)
    ensures r.Some? <==> a.Some? && b.Some?
    ensures r.Some? ==> r.value == a.value + b.value
  {
    if a.Some? && b.Some? then Some(a.value + b.value) else None
  }

  /**
   * The schema of variable `name`: reading a property of undefined
   * `bdo:variables`, or `bdo:bytelength` of a variable it does not define,
   * is a TypeError.
   */
  function VariableSchema(variables: Entries, name: string): (r: Result<DataSchema, Error>)
    ensures variables.Absent? <==> r == Err(MissingVariables)
    ensures variables.Present? && Lookup(variables.list, name).None? <==> r == Err(UnknownVariable(name))
    ensures r.Ok? <==> variables.Present? && Lookup(variables.list, name).Some?
    ensures r.Ok? ==> r.value == Lookup(variables.list, name).value
  {
    match variables
    case Absent => Err(MissingVariables)
    case Present(list) =>
      match Lookup(list, name)
      case None => Err(UnknownVariable(name))
      case Some(s) => Ok(s)
  }

  /** A variable's `bdo:bytelength` as a number: undefined makes NaN. */
  function LengthOf(schema: DataSchema): Option<real>
  {
    if schema.bytelength.Some? then Some(schema.bytelength.value as real) else None
  }

  /** `bytes.subarray(start, end)` as a cutting function. */
  function SubarrayOf(bytes: seq<int>): (Option<real>, Option<real>) -> seq<int>
  {
    (start: Option<real>, end: Option<real>) => Subarray(bytes, start, end)
  }

  /**
   * One slice per name, from `offset` on, each taken by `cut(start, end)`:
   * a variable's slice spans its `bdo:bytelength`, and the next one starts
   * after it and the gap that follows it in the pattern.
   */
  function SliceWith(cut: (Option<real>, Option<real>) -> seq<int>, names: seq<string>, gaps: seq<real>, variables: Entries, offset: Option<real>): (r: Result<seq<seq<int>>, Error>)
    requires |gaps| == |names|
    ensures r.Ok? ==> |r.value| == |names|
    decreases |names|
  {
    if |names| == 0 then Ok([])
    else
      var head := VariableSchema(variables, names[0]);
      if head.Err? then Err(head.error)
      else
        var end := Add(offset, LengthOf(head.value));
        var rest := SliceWith(cut, names[1..], gaps[1..], variables, Add(end, Some(gaps[0])));
        if rest.Err? then Err(rest.error)
        else Ok([cut(offset, end)] + rest.value)
  }

  /** Slicing fails exactly when a name is not a defined variable. */
  lemma {:induction false} SliceWithOk(cut: (Option<real>, Option<real>) -> seq<int>, names: seq<string>, gaps: seq<real>, variables: Entries, offset: Option<real>)
    requires |gaps| == |names|
    ensures SliceWith(cut, names, gaps, variables, offset).Ok? <==> forall i :: 0 <= i < |names| ==> VariableSchema(variables, names[i]).Ok?
    decreases |names|
  {
    if |names| > 0 && VariableSchema(variables, names[0]).Ok? {
      var end := Add(offset, LengthOf(VariableSchema(variables, names[0]).value));
      SliceWithOk(cut, names[1..], gaps[1..], variables, Add(end, Some(gaps[0])));
      assert forall i :: 1 <= i < |names| ==> names[1..][i - 1] == names[i];
    }
  }

  /** Every slice is one the cutting function returns, so bytes when it only returns bytes. */
  lemma {:induction false} SliceWithBytes(cut: (Option<real>, Option<real>) -> seq<int>, names: seq<string>, gaps: seq<real>, variables: Entries, offset: Option<real>)
    requires |gaps| == |names| && forall s, e :: IsBytes(cut(s, e))
    ensures SliceWith(cut, names, gaps, variables, offset).Ok? ==> forall i :: 0 <= i < |names| ==> IsBytes(SliceWith(cut, names, gaps, variables, offset).value[i])
    decreases |names|
  {
    var r := SliceWith(cut, names, gaps, variables, offset);
    if |names| > 0 && r.Ok? {
      var end := Add(offset, LengthOf(VariableSchema(variables, names[0]).value));
      SliceWithBytes(cut, names[1..], gaps[1..], variables, Add(end, Some(gaps[0])));
      assert forall i :: 1 <= i < |names| ==> r.value[i] == SliceWith(cut, names[1..], gaps[1..], variables, Add(end, Some(gaps[0]))).value[i - 1];
    }
  }

  /** The slices `bytes.subarray` cuts out of the buffer. */
  function SliceFrom(bytes: seq<int>, names: seq<string>, gaps: seq<real>, variables: Entries, offset: Option<real>): (r: Result<seq<seq<int>>, Error>)
    requires |gaps| == |names|
    ensures r.Ok? ==> |r.value| == |names|
    ensures r.Ok? && IsBytes(bytes) ==> forall i :: 0 <= i < |r.value| ==> IsBytes(r.value[i])
    ensures r.Ok? <==> forall i :: 0 <= i < |names| ==> VariableSchema(variables, names[i]).Ok?
  {
    SliceWithOk(SubarrayOf(bytes), names, gaps, variables, offset);
    if IsBytes(bytes) then
      assert forall s, e :: IsBytes(SubarrayOf(bytes)(s, e));
      SliceWithBytes(SubarrayOf(bytes), names, gaps, variables, offset);
      SliceWith(SubarrayOf(bytes), names, gaps, variables, offset)
    else SliceWith(SubarrayOf(bytes), names, gaps, variables, offset)
  }

  /** Variable `name` is defined and has a `bdo:bytelength` of zero or more. */
  predicate Sized(variables: Entries, name: string)
  {
    VariableSchema(variables, name).Ok? && VariableSchema(variables, name).value.bytelength.Some?
    && VariableSchema(variables, name).value.bytelength.value >= 0
  }

  /** Every variable of `names` is sized. */
  predicate AllSized(variables: Entries, names: seq<string>)
    decreases |names|
  {
    |names| == 0 || (Sized(variables, names[0]) && AllSized(variables, names[1..]))
  }

  /** Being sized one by one is being sized all together. */
  lemma {:induction false} AllSizedEach(variables: Entries, names: seq<string>)
    ensures AllSized(variables, names) <==> forall i :: 0 <= i < |names| ==> Sized(variables, names[i])
    decreases |names|
  {
    if |names| > 0 {
      AllSizedEach(variables, names[1..]);
      assert forall i :: 1 <= i < |names| ==> names[1..][i - 1] == names[i];
    }
  }

  /** The sum of the variables' lengths. */
  function TotalLength(variables: Entries, names: seq<string>): (n: nat)
    requires AllSized(variables, names)
  {
    if |names| == 0 then 0
    else VariableSchema(variables, names[0]).value.bytelength.value + TotalLength(variables, names[1..])
  }

  /** The slices laid end to end. */
  function Concat(slices: seq<seq<int>>): seq<int>
  {
    if |slices| == 0 then [] else slices[0] + Concat(slices[1..])
  }

  lemma SliceCons(cut: (Option<real>, Option<real>) -> seq<int>, names: seq<string>, gaps: seq<real>, variables: Entries, offset: Option<real>)
    requires |gaps| == |names| > 0 && VariableSchema(variables, names[0]).Ok?
    ensures var end := Add(offset, LengthOf(VariableSchema(variables, names[0]).value));
      var rest := SliceWith(cut, names[1..], gaps[1..], variables, Add(end, Some(gaps[0])));
      SliceWith(cut, names, gaps, variables, offset)
        == if rest.Err? then Err(rest.error) else Ok([cut(offset, end)] + rest.value)
  {
  }

  /** Once the running offset is NaN, every remaining slice is empty. */
  lemma {:induction false} NaNOffsetSlices(bytes: seq<int>, names: seq<string>, gaps: seq<real>, variables: Entries)
    requires |gaps| == |names|
    ensures SliceFrom(bytes, names, gaps, variables, None).Ok? ==>
      forall i :: 0 <= i < |names| ==> SliceFrom(bytes, names, gaps, variables, None).value[i] == []
    decreases |names|
  {
    var r := SliceFrom(bytes, names, gaps, variables, None);
    if |names| > 0 && r.Ok? {
      var end := Add(None, LengthOf(VariableSchema(variables, names[0]).value));
      assert end == None && Add(end, Some(gaps[0])) == None;
      var rest := SliceFrom(bytes, names[1..], gaps[1..], variables, None);
      SliceCons(SubarrayOf(bytes), names, gaps, variables, None);
      NaNOffsetSlices(bytes, names[1..], gaps[1..], variables);
      SubarrayNaNEnd(bytes, None);
      assert r.value == [SubarrayOf(bytes)(None, None)] + rest.value;
      assert SubarrayOf(bytes)(None, None) == [];
      assert forall i :: 1 <= i < |names| ==> r.value[i] == rest.value[i - 1];
    }
  }

  /**
   * A variable without `bdo:bytelength` ends at NaN: its slice and every
   * later one are empty.
   */
  lemma UnsizedHeadSlices(bytes: seq<int>, names: seq<string>, gaps: seq<real>, variables: Entries, offset: Option<real>)
    requires |gaps| == |names| > 0
    requires VariableSchema(variables, names[0]).Ok? && VariableSchema(variables, names[0]).value.bytelength.None?
    ensures SliceFrom(bytes, names, gaps, variables, offset).Ok? ==>
      forall i :: 0 <= i < |names| ==> SliceFrom(bytes, names, gaps, variables, offset).value[i] == []
  {
    var r := SliceFrom(bytes, names, gaps, variables, offset);
    if r.Ok? {
      var end := Add(offset, LengthOf(VariableSchema(variables, names[0]).value));
      assert end == None && Add(end, Some(gaps[0])) == None;
      var rest := SliceFrom(bytes, names[1..], gaps[1..], variables, None);
      SliceCons(SubarrayOf(bytes), names, gaps, variables, offset);
      NaNOffsetSlices(bytes, names[1..], gaps[1..], variables);
      SubarrayNaNEnd(bytes, offset);
      assert r.value == [SubarrayOf(bytes)(offset, None)] + rest.value;
      assert SubarrayOf(bytes)(offset, None) == [];
      assert forall i :: 1 <= i < |names| ==> r.value[i] == rest.value[i - 1];
    }
  }

  lemma AllSizedTail(variables: Entries, names: seq<string>)
    requires |names| > 0 && AllSized(variables, names)
    ensures AllSized(variables, names[1..])
    ensures TotalLength(variables, names) == VariableSchema(variables, names[0]).value.bytelength.value + TotalLength(variables, names[1..])
  {
  }

  lemma ConcatCons(a: seq<int>, rest: seq<seq<int>>)
    ensures Concat([a] + rest) == a + Concat(rest)
  {
    assert ([a] + rest)[1..] == rest;
  }

  lemma SliceSplit(b: seq<int>, i: nat, j: nat, k: nat)
    requires i <= j <= k <= |b|
    ensures b[i..k] == b[i..j] + b[j..k]
  {
  }

  /**
   * Without gaps, consecutive variables that fit the buffer cut it into
   * adjacent pieces: laid end to end, the slices are the bytes they cover.
   */
  lemma {:induction false} GaplessSlices(bytes: seq<int>, names: seq<string>, gaps: seq<real>, variables: Entries, offset: nat)
    requires |gaps| == |names| && AllSized(variables, names)
    requires forall i :: 0 <= i < |gaps| ==> gaps[i] == 0.0
    requires offset + TotalLength(variables, names) <= |bytes|
    ensures SliceFrom(bytes, names, gaps, variables, Some(offset as real)).Ok?
    ensures Concat(SliceFrom(bytes, names, gaps, variables, Some(offset as real)).value)
      == bytes[offset..offset + TotalLength(variables, names)]
    decreases |names|
  {
    if |names| > 0 {
      var n := VariableSchema(variables, names[0]).value.bytelength.value;
      AllSizedTail(variables, names);
      var tail := TotalLength(variables, names[1..]);
      assert n + tail == TotalLength(variables, names);
      assert forall i :: 0 <= i < |gaps[1..]| ==> gaps[1..][i] == gaps[i + 1];
      GaplessSlices(bytes, names[1..], gaps[1..], variables, offset + n);
      GaplessCons(bytes, names, gaps, variables, offset, n, tail);
    }
  }

  lemma GaplessCons(bytes: seq<int>, names: seq<string>, gaps: seq<real>, variables: Entries, offset: nat, n: nat, tail: nat)
    requires |gaps| == |names| > 0 && gaps[0] == 0.0
    requires VariableSchema(variables, names[0]).Ok? && VariableSchema(variables, names[0]).value.bytelength == Some(n)
    requires offset + n + tail <= |bytes|
    requires SliceFrom(bytes, names[1..], gaps[1..], variables, Some((offset + n) as real)).Ok?
    requires Concat(SliceFrom(bytes, names[1..], gaps[1..], variables, Some((offset + n) as real)).value) == bytes[offset + n..offset + n + tail]
    ensures SliceFrom(bytes, names, gaps, variables, Some(offset as real)).Ok?
    ensures Concat(SliceFrom(bytes, names, gaps, variables, Some(offset as real)).value) == bytes[offset..offset + n + tail]
  {
    var rest := SliceFrom(bytes, names[1..], gaps[1..], variables, Some((offset + n) as real)).value;
    GaplessStep(bytes, names, gaps, variables, offset, n, tail, rest);
    ConcatStep(bytes, offset, n, tail, rest);
  }

  /** The first slice, of `n` bytes, followed by the gapless slices after it. */
  lemma GaplessStep(bytes: seq<int>, names: seq<string>, gaps: seq<real>, variables: Entries, offset: nat, n: nat, tail: nat, rest: seq<seq<int>>)
    requires |gaps| == |names| > 0 && gaps[0] == 0.0
    requires VariableSchema(variables, names[0]).Ok? && VariableSchema(variables, names[0]).value.bytelength == Some(n)
    requires offset + n + tail <= |bytes|
    requires SliceFrom(bytes, names[1..], gaps[1..], variables, Some((offset + n) as real)) == Ok(rest)
    ensures SliceFrom(bytes, names, gaps, variables, Some(offset as real)) == Ok([bytes[offset..offset + n]] + rest)
  {
    ArithStep(offset, n, gaps[0]);
    var head := VariableSchema(variables, names[0]).value;
    var next := offset + n;
    SliceCons(SubarrayOf(bytes), names, gaps, variables, Some(offset as real));
    assert LengthOf(head) == Some(n as real);
    var end := Add(Some(offset as real), LengthOf(head));
    assert end == Some(next as real);
    assert Add(end, Some(gaps[0])) == Some(next as real);
    SubarrayRange(bytes, offset, next);
    assert Subarray(bytes, Some(offset as real), end) == bytes[offset..next];
    assert SliceFrom(bytes, names[1..], gaps[1..], variables, Add(end, Some(gaps[0]))) == Ok(rest);
    assert SliceFrom(bytes, names, gaps, variables, Some(offset as real)) == Ok([Subarray(bytes, Some(offset as real), end)] + rest);
  }

  lemma ArithStep(offset: nat, n: nat, g: real)
    requires g == 0.0
    ensures Add(Some(offset as real), Some(n as real)) == Some((offset + n) as real)
    ensures Add(Add(Some(offset as real), Some(n as real)), Some(g)) == Some((offset + n) as real)
  {
  }

  /** Laying the first slice before the others covers the bytes of both. */
  lemma ConcatStep(bytes: seq<int>, offset: nat, n: nat, tail: nat, rest: seq<seq<int>>)
    requires offset + n + tail <= |bytes|
    requires Concat(rest) == bytes[offset + n..offset + n + tail]
    ensures Concat([bytes[offset..offset + n]] + rest) == bytes[offset..offset + n + tail]
  {
    ConcatCons(bytes[offset..offset + n], rest);
    SliceSplit(bytes, offset, offset + n, offset + n + tail);
  }

  /** The `bdo:bytelength` of every variable, when all are sized. */
  function Sizes(variables: Entries, names: seq<string>): (r: seq<nat>)
    requires AllSized(variables, names)
    ensures |r| == |names|
  {
    if |names| == 0 then []
    else
      AllSizedTail(variables, names);
      [VariableSchema(variables, names[0]).value.bytelength.value] + Sizes(variables, names[1..])
  }

  /** Size `i` is variable `i`'s `bdo:bytelength`. */
  lemma {:induction false} SizesAt(variables: Entries, names: seq<string>, i: nat)
    requires AllSized(variables, names) && i < |names|
    ensures Sized(variables, names[i])
    ensures Sizes(variables, names)[i] == VariableSchema(variables, names[i]).value.bytelength.value
    decreases i
  {
    if i > 0 {
      AllSizedTail(variables, names);
      SizesAt(variables, names[1..], i - 1);
      assert names[1..][i - 1] == names[i];
    }
  }

  /**
   * Where slice `i` starts: the offset, then for every earlier variable its
   * length and the gap that follows it.
   */
  function Start(sizes: seq<nat>, gaps: seq<real>, offset: real, i: nat): real
    requires |gaps| == |sizes| && i <= |sizes|
  {
    if i == 0 then offset
    else Start(sizes, gaps, offset, i - 1) + sizes[i - 1] as real + gaps[i - 1]
  }

  /**
   * Pieces of known sizes, each one starting after the previous one and its
   * gap; `cut(start, end)` takes one piece.
   */
  function Cut(cut: (Option<real>, Option<real>) -> seq<int>, sizes: seq<nat>, gaps: seq<real>, offset: real): (r: seq<seq<int>>)
    requires |gaps| == |sizes|
    ensures |r| == |sizes|
    decreases |sizes|
  {
    if |sizes| == 0 then []
    else [cut(Some(offset), Some(offset + sizes[0] as real))] + Cut(cut, sizes[1..], gaps[1..], offset + sizes[0] as real + gaps[0])
  }

  /** With every variable sized, slicing succeeds and cuts by the sizes. */
  lemma {:induction false} SlicesAreCut(cut: (Option<real>, Option<real>) -> seq<int>, names: seq<string>, gaps: seq<real>, variables: Entries, offset: real)
    requires |gaps| == |names| && AllSized(variables, names)
    ensures SliceWith(cut, names, gaps, variables, Some(offset)) == Ok(Cut(cut, Sizes(variables, names), gaps, offset))
    decreases |names|
  {
    if |names| > 0 {
      var sizes := Sizes(variables, names);
      var n := sizes[0];
      var next := offset + n as real + gaps[0];
      AllSizedTail(variables, names);
      assert sizes[1..] == Sizes(variables, names[1..]);
      SizesAt(variables, names, 0);
      var end := Add(Some(offset), LengthOf(VariableSchema(variables, names[0]).value));
      assert end == Some(offset + n as real);
      assert Add(end, Some(gaps[0])) == Some(next);
      SlicesAreCut(cut, names[1..], gaps[1..], variables, next);
      SliceCons(cut, names, gaps, variables, Some(offset));
    }
  }

  /** Counting from the second piece, with the first one's size and gap added to the offset, gives the same starts. */
  lemma {:induction false} StartShift(sizes: seq<nat>, gaps: seq<real>, offset: real, i: nat)
    requires |gaps| == |sizes| && i < |sizes|
    ensures Start(sizes, gaps, offset, i + 1) == Start(sizes[1..], gaps[1..], offset + sizes[0] as real + gaps[0], i)
  {
    if i > 0 {
      StartShift(sizes, gaps, offset, i - 1);
      assert sizes[1..][i - 1] == sizes[i] && gaps[1..][i - 1] == gaps[i];
    }
  }

  /** Piece `i` is cut from its start to its start plus its size. */
  lemma {:induction false} CutPositions(cut: (Option<real>, Option<real>) -> seq<int>, sizes: seq<nat>, gaps: seq<real>, offset: real, i: nat)
    requires |gaps| == |sizes| && i < |sizes|
    ensures Cut(cut, sizes, gaps, offset)[i] == cut(Some(Start(sizes, gaps, offset, i)), Some(Start(sizes, gaps, offset, i) + sizes[i] as real))
    decreases i
  {
    if i > 0 {
      var next := offset + sizes[0] as real + gaps[0];
      CutPositions(cut, sizes[1..], gaps[1..], next, i - 1);
      StartShift(sizes, gaps, offset, i - 1);
      assert sizes[1..][i - 1] == sizes[i];
      assert Cut(cut, sizes, gaps, offset)[i] == Cut(cut, sizes[1..], gaps[1..], next)[i - 1];
    }
  }

  /**
   * With every variable sized, slice `i` is `subarray(start, start + length)`
   * where the start is the offset plus the lengths and gaps before it.
   */
  lemma SlicePositions(bytes: seq<int>, names: seq<string>, gaps: seq<real>, variables: Entries, offset: real, i: nat)
    requires |gaps| == |names| && AllSized(variables, names) && i < |names|
    ensures SliceFrom(bytes, names, gaps, variables, Some(offset)).Ok?
    ensures SliceFrom(bytes, names, gaps, variables, Some(offset)).value[i]
      == Subarray(bytes, Some(Start(Sizes(variables, names), gaps, offset, i)),
                  Some(Start(Sizes(variables, names), gaps, offset, i) + Sizes(variables, names)[i] as real))
  {
    var sizes := Sizes(variables, names);
    var start := Start(sizes, gaps, offset, i);
    var end := start + sizes[i] as real;
    var pieces := Cut(SubarrayOf(bytes), sizes, gaps, offset);
    SlicesAreCut(SubarrayOf(bytes), names, gaps, variables, offset);
    assert SliceFrom(bytes, names, gaps, variables, Some(offset)) == Ok(pieces);
    CutPositions(SubarrayOf(bytes), sizes, gaps, offset, i);
    assert pieces[i] == Subarray(bytes, Some(start), Some(end));
  }

  /**
   * Slice i of `slices` is where a template with these names and gaps puts it:
   * `bdo:bytelength` bytes from `Start(i)`, the first gap being the offset of
   * the first slice and every later gap trailing its variable.
   */
  predicate PlacedAt(bytes: seq<int>, variables: Entries, names: seq<string>, gaps: seq<real>, slices: seq<seq<int>>, i: nat)
  {
    |gaps| == |names| + 1 && AllSized(variables, names) && i < |names| && i < |slices|
    && var sizes := Sizes(variables, names);
      var start := Start(sizes, gaps[1..], gaps[0], i);
      slices[i] == Subarray(bytes, Some(start), Some(start + sizes[i] as real))
  }

  /** Slicing by a template's gaps places every slice as `PlacedAt` says. */
  lemma TemplatePlaced(bytes: seq<int>, variables: Entries, names: seq<string>, gaps: seq<real>, i: nat)
    requires |gaps| == |names| + 1 && AllSized(variables, names) && i < |names|
    ensures SliceFrom(bytes, names, gaps[1..], variables, Some(gaps[0])).Ok?
    ensures PlacedAt(bytes, variables, names, gaps, SliceFrom(bytes, names, gaps[1..], variables, Some(gaps[0])).value, i)
  {
    SlicePositions(bytes, names, gaps[1..], variables, gaps[0], i);
  }

  /**
   * A sized slice that starts at a whole byte `s` holds the bytes from `s`
   * on, cut short at the end of the buffer: its length is the
   * `bdo:bytelength`, less whatever lies past the end.
   */
  lemma SliceBytes(bytes: seq<int>, names: seq<string>, gaps: seq<real>, variables: Entries, offset: real, i: nat, s: nat)
    requires |gaps| == |names| && AllSized(variables, names) && i < |names|
    requires Start(Sizes(variables, names), gaps, offset, i) == s as real
    ensures SliceFrom(bytes, names, gaps, variables, Some(offset)).Ok?
    ensures SliceFrom(bytes, names, gaps, variables, Some(offset)).value[i]
      == bytes[Clamp(s, |bytes|)..Clamp(s + Sizes(variables, names)[i], |bytes|)]
    ensures |SliceFrom(bytes, names, gaps, variables, Some(offset)).value[i]|
      == var n := Sizes(variables, names)[i];
         if s + n <= |bytes| then n else if s <= |bytes| then |bytes| - s else 0
  {
    var sizes := Sizes(variables, names);
    var start := Start(sizes, gaps, offset, i);
    SlicePositions(bytes, names, gaps, variables, offset, i);
    SubarrayFrom(bytes, start, s, sizes[i]);
    var piece := Subarray(bytes, Some(start), Some(start + sizes[i] as real));
    assert SliceFrom(bytes, names, gaps, variables, Some(offset)).value[i] == piece;
    assert piece == bytes[Clamp(s, |bytes|)..Clamp(s + sizes[i], |bytes|)];
  }

  /**
   * A slice of `n` bytes that starts at a whole index `s` holds the bytes
   * from `s` on, cut short at the end of the buffer, and nothing when it
   * starts past the end.
   */
  lemma SubarrayFrom(bytes: seq<int>, x: real, s: nat, n: nat)
    requires x == s as real
    ensures Subarray(bytes, Some(x), Some(x + n as real)) == bytes[Clamp(s, |bytes|)..Clamp(s + n, |bytes|)]
    ensures |Subarray(bytes, Some(x), Some(x + n as real))| == if s + n <= |bytes| then n else if s <= |bytes| then |bytes| - s else 0
  {
    assert x + n as real == (s + n) as real;
    if s + n <= |bytes| {
      SubarrayRange(bytes, s, s + n);
    } else {
      SubarrayClamped(bytes, s, s + n);
    }
  }

  // ---------------------------------------------------------------------------
  // Filling the template (BinaryDataCodec.ts, lines 252-255).

  /** `value[name]`: the first field so named, `None` when undefined. */
  function FieldValue(fields: seq<Field>, name: string): (r: Option<Value>)
    ensures r.None? <==> forall i :: 0 <= i < |fields| ==> fields[i].name != name
    ensures r.Some? ==> exists i :: 0 <= i < |fields| && fields[i] == Field(name, r.value)
  {
    if |fields| == 0 then None
    else if fields[0].name == name then Some(fields[0].value)
    else
      var r := FieldValue(fields[1..], name);
      assert r.Some? ==> exists i :: 0 <= i < |fields| - 1 && fields[1..][i] == Field(name, r.value);
      r
  }

  /** `value[name] = v`: an existing field keeps its place, a new one goes last. */
  function SetField(fields: seq<Field>, name: string, v: Value): (r: seq<Field>)
    ensures FieldValue(r, name) == Some(v)
    ensures forall n :: n != name ==> FieldValue(r, n) == FieldValue(fields, n)
  {
    if |fields| == 0 then [Field(name, v)]
    else if fields[0].name == name then [Field(name, v)] + fields[1..]
    else [fields[0]] + SetField(fields[1..], name, v)
  }

  /**
   * What a level-1 URI template writes for a variable: its string, nothing
   * for undefined (a missing field or an `undefined` value) or null.
   */
  function Substitute(v: Option<Value>): (r: Result<string, Error>)
    ensures r.Err? <==> v.Some? && !v.value.Null? && !v.value.Undefined? && !v.value.Str?
    ensures r.Err? ==> r.error == ValueTypeMismatch
    ensures v.Some? && v.value.Str? ==> r == Ok(v.value.s)
  {
    match v
    case None => Ok("")
    case Some(Null) => Ok("")
    case Some(Undefined) => Ok("")
    case Some(Str(s)) => Ok(s)
    case Some(_) => Err(ValueTypeMismatch)
  }

  /**
   * `UriTemplate.parse(pattern).expand(value)` for simple `{name}`
   * placeholders: the text outside braces is kept, each placeholder becomes
   * its variable's text, and a "{" without a closing "}" is a parse error.
   */
  function Expand(pattern: string, fields: seq<Field>): (r: Result<string, Error>)
  {
    var pieces := Split(pattern, "{");
    var tail :- ExpandPieces(pieces[1..], fields);
    Ok(pieces[0] + tail)
  }

  function ExpandPieces(pieces: seq<string>, fields: seq<Field>): (r: Result<string, Error>)
    ensures r.Err? ==> r.error == MalformedTemplate || r.error == ValueTypeMismatch
  {
    if |pieces| == 0 then Ok("")
    else
      var parts := Split(pieces[0], "}");
      if |parts| < 2 then Err(MalformedTemplate)
      else
        var s :- Substitute(FieldValue(fields, parts[0]));
        var rest :- ExpandPieces(pieces[1..], fields);
        Ok(s + Join(parts[1..], "}") + rest)
  }

  lemma {:induction false} ExpandRenderedPieces(literals: seq<string>, names: seq<string>, fields: seq<Field>)
    requires |literals| == |names|
    requires forall i :: 0 <= i < |names| ==> BraceFree(names[i]) && BraceFree(literals[i])
    requires forall i :: 0 <= i < |names| ==> FieldValue(fields, names[i]).Some? && FieldValue(fields, names[i]).value.Str?
    ensures ExpandPieces(Pieces(literals, names), fields)
      == Ok(Filled(literals, seq(|names|, i requires 0 <= i < |names| => FieldValue(fields, names[i]).value.s)))
    decreases |names|
  {
    var texts := seq(|names|, i requires 0 <= i < |names| => FieldValue(fields, names[i]).value.s);
    if |names| > 0 {
      PieceParts(names[0], literals[0]);
      assert Join([literals[0]], "}") == literals[0];
      var texts' := seq(|names| - 1, i requires 0 <= i < |names| - 1 => FieldValue(fields, names[1..][i]).value.s);
      assert texts' == texts[1..];
      ExpandRenderedPieces(literals[1..], names[1..], fields);
    }
  }

  /** Each text followed by the literal after its placeholder. */
  function Filled(literals: seq<string>, texts: seq<string>): string
    requires |literals| == |texts|
  {
    if |texts| == 0 then "" else texts[0] + literals[0] + Filled(literals[1..], texts[1..])
  }

  /**
   * Expanding a template written from brace-free literals and names, with a
   * string for every name, puts each string in its placeholder's place.
   */
  lemma ExpandRender(literals: seq<string>, names: seq<string>, fields: seq<Field>)
    requires |literals| == |names| + 1
    requires forall i :: 0 <= i < |literals| ==> BraceFree(literals[i])
    requires forall i :: 0 <= i < |names| ==> BraceFree(names[i])
    requires forall i :: 0 <= i < |names| ==> FieldValue(fields, names[i]).Some? && FieldValue(fields, names[i]).value.Str?
    ensures Expand(Render(literals, names), fields)
      == Ok(literals[0] + Filled(literals[1..], seq(|names|, i requires 0 <= i < |names| => FieldValue(fields, names[i]).value.s)))
  {
    var rest := literals[1..];
    assert forall i :: 0 <= i < |names| ==> rest[i] == literals[i + 1];
    SplitRendered(literals[0], rest, names);
    ExpandRenderedPieces(rest, names, fields);
  }
}

=== FILE: bitwindow.dfy ===
/**
 * `readBits` of octetstream-codec.ts: cut an arbitrary bit span out of a
 * buffer and re-pack it, most significant bit first, into the fewest bytes.
 * The loop works bit by bit; `Window` says group by group what it produces:
 * the span as a bit string (`Bits`), packed into bytes from the end (`Pack`).
 */
module BitWindow {
  import opened Wrappers
  import opened Bytes
  import opened Errors

  /** `x >> n`: n halvings, each rounding toward minus infinity as an arithmetic shift does. */
  function ShiftRight(x: int, n: nat): int
    decreases n
  {
    if n == 0 then x else ShiftRight(x / 2, n - 1)
  }

  /** Bit k of the buffer, counting from the most significant bit of byte 0. */
  function Bit(b: seq<int>, k: nat): int
    requires k < 8 * |b|
  {
    ShiftRight(b[k / 8], 7 - k % 8) % 2
  }

  /** The bits `[off, off + len)` of the buffer, in order. */
  function Bits(b: seq<int>, off: nat, len: nat): (r: seq<int>)
    requires off + len <= 8 * |b|
    ensures |r| == len
    ensures forall i :: 0 <= i < len ==> r[i] == Bit(b, off + i)
  {
    seq(len, i requires 0 <= i < len => Bit(b, off + i))
  }

  predicate IsBits(s: seq<int>)
  {
    forall i :: 0 <= i < |s| ==> 0 <= s[i] <= 1
  }

  /** A bit string read as an unsigned integer, most significant bit first. */
  function Value(s: seq<int>): int
  {
    if |s| == 0 then 0 else 2 * Value(s[..|s| - 1]) + s[|s| - 1]
  }

  /**
   * A bit string packed into bytes: every byte but the first holds eight bits,
   * and the first holds the leading `|s| % 8` bits (eight when that is 0),
   * right-aligned. Built from the end, one full byte at a time.
   */
  function Pack(s: seq<int>): (r: seq<int>)
    ensures |s| <= 8 * |r| < |s| + 8
    decreases |s|
  {
    if |s| == 0 then []
    else if |s| <= 8 then [Value(s)]
    else Pack(s[..|s| - 8]) + [Value(s[|s| - 8..])]
  }

  /** The bytes `readBits` builds for the span `[off, off + len)`. */
  function Window(b: seq<int>, off: nat, len: nat): seq<int>
    requires off + len <= 8 * |b|
  {
    Pack(Bits(b, off, len))
  }

  /** What `readBits(buffer, bitOffset, bitLength)` returns or throws. */
  function Extract(b: seq<int>, bitOffset: int, bitLength: int): (r: Result<seq<int>, Error>)
    requires IsBytes(b)
    ensures bitOffset < 0 ==> r == Err(NegativeBitOffset)
    ensures bitOffset >= 0 && bitLength < 0 ==> r == Err(NegativeBitLength)
    ensures bitOffset >= 0 && bitLength >= 0 && bitOffset + bitLength > 8 * |b| ==> r == Err(BitRangeExceedsBuffer)
    ensures r.Ok? <==> 0 <= bitOffset && 0 <= bitLength && bitOffset + bitLength <= 8 * |b|
    ensures r.Ok? ==> bitLength <= 8 * |r.value| < bitLength + 8 && IsBytes(r.value)
  {
    if bitOffset < 0 then Err(NegativeBitOffset)
    else if bitLength < 0 then Err(NegativeBitLength)
    else if bitOffset + bitLength > |b| * 8 then Err(BitRangeExceedsBuffer)
    else
      WindowBytes(b, bitOffset, bitLength);
      Ok(Window(b, bitOffset, bitLength))
  }

  // ---------------------------------------------------------------------------
  // Bit strings and their values.

  lemma BitIsBit(b: seq<int>, k: nat)
    requires k < 8 * |b|
    ensures 0 <= Bit(b, k) <= 1
  {
  }

  lemma BitsAreBits(b: seq<int>, off: nat, len: nat)
    requires off + len <= 8 * |b|
    ensures IsBits(Bits(b, off, len))
  {
    forall i | 0 <= i < len
      ensures 0 <= Bits(b, off, len)[i] <= 1
    {
      BitIsBit(b, off + i);
    }
  }

  /** Shifting one more bit in at the low end. */
  lemma ValueAppend(s: seq<int>, x: int)
    ensures Value(s + [x]) == 2 * Value(s) + x
  {
    assert (s + [x])[..|s|] == s;
  }

  /** n bits hold a value in [0, 2^n). */
  lemma {:induction false} ValueBound(s: seq<int>)
    requires IsBits(s)
    ensures 0 <= Value(s) < Pow2(|s|)
    decreases |s|
  {
    if |s| > 0 {
      ValueBound(s[..|s| - 1]);
    }
  }

  lemma ShiftIn(hi: int, p: int, lo: int, bit: int)
    ensures 2 * (hi * p + lo) + bit == hi * (2 * p) + (2 * lo + bit)
  {
  }

  /** Splitting a bit string in two: the high part shifted left past the low part. */
  lemma {:induction false} ValueConcat(s: seq<int>, t: seq<int>)
    ensures Value(s + t) == Value(s) * Pow2(|t|) + Value(t)
    decreases |t|
  {
    if |t| == 0 {
      assert s + t == s;
    } else {
      var t' := t[..|t| - 1];
      var bit := t[|t| - 1];
      assert s + t == (s + t') + [bit];
      ValueAppend(s + t', bit);
      ValueConcat(s, t');
      assert t == t' + [bit];
      ValueAppend(t', bit);
      assert Pow2(|t|) == 2 * Pow2(|t'|);
      ShiftIn(Value(s), Pow2(|t'|), Value(t'), bit);
    }
  }

  // ---------------------------------------------------------------------------
  // Packing.

  /** Every packed byte is a byte. */
  lemma {:induction false} PackBytes(s: seq<int>)
    requires IsBits(s)
    ensures IsBytes(Pack(s))
    decreases |s|
  {
    Pow2Eight();
    if 0 < |s| <= 8 {
      ValueBound(s);
      Pow2Mono(|s|, 8);
    } else if |s| > 8 {
      PackBytes(s[..|s| - 8]);
      ValueBound(s[|s| - 8..]);
    }
  }

  lemma WindowBytes(b: seq<int>, off: nat, len: nat)
    requires off + len <= 8 * |b|
    ensures IsBytes(Window(b, off, len))
  {
    BitsAreBits(b, off, len);
    PackBytes(Bits(b, off, len));
  }

  /** The packed bytes read as a big-endian unsigned integer are the bit string's value. */
  lemma {:induction false} PackValue(s: seq<int>)
    ensures BigEndian(Pack(s)) == Value(s)
    decreases |s|
  {
    if 0 < |s| <= 8 {
      assert [Value(s)][1..] == [];
    } else if |s| > 8 {
      var front := s[..|s| - 8];
      var last := s[|s| - 8..];
      assert Pack(s) == Pack(front) + [Value(last)];
      PackValue(front);
      BigEndianAppend(Pack(front), Value(last));
      assert s == front + last;
      ValueConcat(front, last);
      Pow2Eight();
      assert Value(s) == 256 * Value(front) + Value(last);
    }
  }

  /** The window read as a big-endian unsigned integer is the value of the bit span. */
  lemma WindowValue(b: seq<int>, off: nat, len: nat)
    requires off + len <= 8 * |b|
    ensures BigEndian(Window(b, off, len)) == Value(Bits(b, off, len))
  {
    PackValue(Bits(b, off, len));
  }

  // ---------------------------------------------------------------------------
  // The loop's grouping of bits.

  /** Width of the first output byte's group: the leftover `len % 8` bits, or a full byte. */
  function FirstWidth(len: nat): (w: nat)
    ensures 1 <= w <= 8
  {
    if len % 8 == 0 then 8 else len % 8
  }

  /** Position, within the span, of the first bit of output byte k. */
  function GroupStart(len: nat, k: nat): nat
  {
    if k == 0 then 0 else FirstWidth(len) + 8 * (k - 1)
  }

  /** Number of span bits in output byte k. */
  function GroupWidth(len: nat, k: nat): nat
  {
    if k == 0 then FirstWidth(len) else 8
  }

  /** `Math.ceil(len / 8)` bytes hold `len` bits with fewer than eight to spare. */
  lemma CeilBytes(len: nat)
    ensures len <= 8 * ((len + 7) / 8) < len + 8
  {
    GroupsOf(len);
  }

  /** `Math.ceil(len / 8)`, spelled out on the quotient and remainder. */
  lemma GroupsOf(len: nat)
    ensures len == 8 * (len / 8) + len % 8
    ensures (len + 7) / 8 == if len % 8 == 0 then len / 8 else len / 8 + 1
  {
    var q := len / 8;
    var r := len % 8;
    if r == 0 {
      ModUnique(len + 7, 8, q, 7);
    } else {
      ModUnique(len + 7, 8, q + 1, r - 1);
    }
  }

  /** A group that starts inside the span is one of the n output bytes. */
  lemma GroupIndexBound(len: nat, k: nat, n: nat)
    requires len <= 8 * n < len + 8
    requires GroupStart(len, k) < len
    ensures k < n
  {
  }

  /** The group that starts exactly at the end of the span is one past the last output byte. */
  lemma GroupEnd(len: nat, k: nat, n: nat)
    requires len <= 8 * n < len + 8
    requires len > 0 && GroupStart(len, k) == len
    ensures k == n
  {
  }

  /**
   * The loop writes a byte when bit i ends the leading partial group, ends a
   * later group of eight, or is the last bit; that test holds exactly when
   * bit i closes output group k.
   */
  lemma GroupBoundary(len: nat, i: nat, k: nat)
    requires i < len
    requires GroupStart(len, k) <= i < GroupStart(len, k) + GroupWidth(len, k)
    ensures ClosesGroup(len, i) <==> i + 1 == GroupStart(len, k) + GroupWidth(len, k)
  {
    GroupsOf(len);
    GroupsOf(i + 1);
  }

  /** Completing group k appends its value to the packing of the bits read so far. */
  lemma PackStep(s: seq<int>, k: nat)
    requires GroupStart(|s|, k) + GroupWidth(|s|, k) <= |s|
    ensures GroupStart(|s|, k + 1) == GroupStart(|s|, k) + GroupWidth(|s|, k)
    ensures Pack(s[..GroupStart(|s|, k + 1)])
      == Pack(s[..GroupStart(|s|, k)]) + [Value(s[GroupStart(|s|, k)..GroupStart(|s|, k + 1)])]
  {
    var lo := GroupStart(|s|, k);
    var hi := GroupStart(|s|, k + 1);
    if k == 0 {
      assert s[..lo] == [];
      assert s[lo..hi] == s[..hi];
    } else {
      assert hi - 8 == lo;
      assert s[..hi][..hi - 8] == s[..lo];
      assert s[..hi][hi - 8..] == s[lo..hi];
    }
  }

  /** The bit the loop takes from its current byte, most significant first, is bit `8 * byteOffset + bitOffsetInByte` of the buffer. */
  lemma BitAt(b: seq<int>, byteOffset: nat, bitOffsetInByte: nat)
    requires bitOffsetInByte < 8 && 8 * byteOffset + bitOffsetInByte < 8 * |b|
    ensures ShiftRight(ByteOrZero(b, byteOffset), 7 - bitOffsetInByte) % 2 == Bit(b, 8 * byteOffset + bitOffsetInByte)
  {
    var k := 8 * byteOffset + bitOffsetInByte;
    assert k / 8 == byteOffset && k % 8 == bitOffsetInByte;
  }

  /** `buffer[i]`, where reading past the end gives `undefined`, which a shift turns into 0. */
  function ByteOrZero(b: seq<int>, i: int): int
  {
    if 0 <= i < |b| then b[i] else 0
  }

  /** The loop's output state: `resultBuffer`, `result`, `resultOffset`, and where the open group began. */
  datatype Acc = Acc(out: seq<int>, result: int, resultOffset: nat, start: nat)

  /**
   * The bookkeeping after the first i bits of `bits`: the output bytes of the
   * finished groups are in place and `result` holds the open group's bits.
   */
  ghost predicate Accumulated(bits: seq<int>, i: nat, a: Acc)
  {
    var len := |bits|;
    && i <= len
    && len <= 8 * |a.out| < len + 8
    && a.start == GroupStart(len, a.resultOffset) <= i
    && (i < len ==> i < a.start + GroupWidth(len, a.resultOffset))
    && (i == len ==> a.start == len && a.resultOffset == |a.out|)
    && a.result == Value(bits[a.start..i])
    && a.resultOffset <= |a.out|
    && a.out[..a.resultOffset] == Pack(bits[..a.start])
  }

  /** The write test of the loop. */
  predicate ClosesGroup(len: nat, i: nat)
  {
    i + 1 == len % 8 || (i + 1) % 8 == len % 8 || i == len - 1
  }

  /** The output state after bit i (of a `len`-bit span) has been shifted in. */
  function Advance(len: nat, i: nat, a: Acc, bit: int): Acc
  {
    if ClosesGroup(len, i) && a.resultOffset < |a.out| then Close(i, a, bit) else Open(a, bit)
  }

  /** The group stays open: the new bit is shifted into the partial byte. */
  function Open(a: Acc, bit: int): Acc
  {
    a.(result := 2 * a.result + bit)
  }

  /** The group closes: the new bit completes the partial byte, which is written to the next output position, and a fresh partial byte starts. */
  function Close(i: nat, a: Acc, bit: int): Acc
    requires a.resultOffset < |a.out|
  {
    Acc(a.out[a.resultOffset := 2 * a.result + bit], 0, a.resultOffset + 1, i + 1)
  }

  /** A bit that does not close its group is shifted into `result`. */
  lemma AccumulateOpen(bits: seq<int>, i: nat, a: Acc)
    requires Accumulated(bits, i, a)
    requires i < |bits| && !ClosesGroup(|bits|, i)
    ensures Accumulated(bits, i + 1, Open(a, bits[i]))
  {
    GroupBoundary(|bits|, i, a.resultOffset);
    assert bits[a.start..i + 1] == bits[a.start..i] + [bits[i]];
    ValueAppend(bits[a.start..i], bits[i]);
  }

  /** A bit that closes its group completes the next output byte, which lies inside the buffer. */
  lemma AccumulateClose(bits: seq<int>, i: nat, a: Acc)
    requires Accumulated(bits, i, a)
    requires i < |bits| && ClosesGroup(|bits|, i)
    ensures a.resultOffset < |a.out|
    ensures Accumulated(bits, i + 1, Close(i, a, bits[i]))
  {
    var len := |bits|;
    var k := a.resultOffset;
    GroupBoundary(len, i, k);
    GroupIndexBound(len, k, |a.out|);
    ClosedPrefix(bits, a.out, k, a.start, i, a.result);
    assert bits[i + 1..i + 1] == [];
    if i + 1 == len {
      GroupEnd(len, k + 1, |a.out|);
    }
  }

  /** Writing the closed group's value into slot k extends the packed prefix by that group. */
  lemma ClosedPrefix(bits: seq<int>, out: seq<int>, k: nat, start: nat, i: nat, result: int)
    requires start <= i < |bits| && k < |out|
    requires start == GroupStart(|bits|, k) && i + 1 == start + GroupWidth(|bits|, k)
    requires out[..k] == Pack(bits[..start])
    requires result == Value(bits[start..i])
    ensures GroupStart(|bits|, k + 1) == i + 1
    ensures out[k := 2 * result + bits[i]][..k + 1] == Pack(bits[..i + 1])
  {
    var v := 2 * result + bits[i];
    assert bits[start..i + 1] == bits[start..i] + [bits[i]];
    ValueAppend(bits[start..i], bits[i]);
    PackStep(bits, k);
    UpdatePrefix(out, k, v);
  }

  /** Writing element k and cutting after it leaves the old prefix plus the new element. */
  lemma UpdatePrefix(s: seq<int>, k: nat, v: int)
    requires k < |s|
    ensures s[k := v][..k + 1] == s[..k] + [v]
  {
  }

  /** One turn of the loop keeps the bookkeeping, whether or not it closes a group. */
  lemma AccumulateStep(bits: seq<int>, i: nat, a: Acc)
    requires Accumulated(bits, i, a)
    requires i < |bits|
    ensures ClosesGroup(|bits|, i) ==> a.resultOffset < |a.out|
    ensures Accumulated(bits, i + 1, Advance(|bits|, i, a, bits[i]))
  {
    if ClosesGroup(|bits|, i) {
      AccumulateClose(bits, i, a);
    } else {
      AccumulateOpen(bits, i, a);
    }
  }

  /** The output state after the first i bits, starting from `a0`. */
  function Scan(bits: seq<int>, len: nat, i: nat, a0: Acc): Acc
    requires i <= |bits|
    decreases i
  {
    if i == 0 then a0 else Advance(len, i - 1, Scan(bits, len, i - 1, a0), bits[i - 1])
  }

  /** From a zeroed buffer of the right size, scanning every bit leaves the packed bytes. */
  lemma {:induction false} ScanAccumulates(bits: seq<int>, i: nat, a0: Acc)
    requires i <= |bits|
    requires a0.result == 0 && a0.resultOffset == 0 && a0.start == 0
    requires |bits| <= 8 * |a0.out| < |bits| + 8
    ensures Accumulated(bits, i, Scan(bits, |bits|, i, a0))
  {
    if i == 0 {
      assert bits[0..0] == [] && bits[..0] == [];
      assert a0.out[..0] == [];
    } else {
      ScanAccumulates(bits, i - 1, a0);
      AccumulateStep(bits, i - 1, Scan(bits, |bits|, i - 1, a0));
    }
  }

  /** The loop never writes past the end of its buffer. */
  lemma ScanInBounds(bits: seq<int>, len: nat, i: nat, a0: Acc)
    requires len == |bits| && i < len
    requires a0.result == 0 && a0.resultOffset == 0 && a0.start == 0
    requires len <= 8 * |a0.out| < len + 8
    ensures ClosesGroup(len, i) ==> Scan(bits, len, i, a0).resultOffset < |Scan(bits, len, i, a0).out|
  {
    ScanAccumulates(bits, i, a0);
    AccumulateStep(bits, i, Scan(bits, len, i, a0));
  }

  /** One turn of the loop, field by field, and it stays inside the buffer. */
  lemma ScanTurn(bits: seq<int>, i: nat, a0: Acc, bit: int)
    requires i < |bits| && bit == bits[i]
    requires a0.result == 0 && a0.resultOffset == 0 && a0.start == 0
    requires |bits| <= 8 * |a0.out| < |bits| + 8
    ensures var a := Scan(bits, |bits|, i, a0);
      var a' := Scan(bits, |bits|, i + 1, a0);
      var result := 2 * a.result + bit;
      if ClosesGroup(|bits|, i) then
        a.resultOffset < |a.out| && a'.out == a.out[a.resultOffset := result]
        && a'.result == 0 && a'.resultOffset == a.resultOffset + 1
      else
        a'.out == a.out && a'.result == result && a'.resultOffset == a.resultOffset
  {
    ScanInBounds(bits, |bits|, i, a0);
  }

  /** The loop's final buffer is the window. */
  lemma ScanPacks(bits: seq<int>, a0: Acc)
    requires a0.result == 0 && a0.resultOffset == 0 && a0.start == 0
    requires |bits| <= 8 * |a0.out| < |bits| + 8
    ensures Scan(bits, |bits|, |bits|, a0).out == Pack(bits)
  {
    ScanAccumulates(bits, |bits|, a0);
    var a := Scan(bits, |bits|, |bits|, a0);
    assert a.out[..a.resultOffset] == a.out;
    assert bits[..|bits|] == bits;
  }

  /**
   * The bit-cursor half of one turn of the `readBits` loop: take the next bit
   * of `targetByte`, and move on to the next byte after its last bit.
   */
  method NextBit(buffer: seq<int>, ghost pos: nat, byteOffset: nat, bitOffsetInByte: nat, targetByte: int)
    returns (bit: int, byteOffset': nat, bitOffsetInByte': nat, targetByte': int)
    requires pos == 8 * byteOffset + bitOffsetInByte && pos < 8 * |buffer|
    requires bitOffsetInByte < 8 && targetByte == ByteOrZero(buffer, byteOffset)
    ensures bit == Bit(buffer, pos)
    ensures 8 * byteOffset' + bitOffsetInByte' == pos + 1
    ensures bitOffsetInByte' < 8 && targetByte' == ByteOrZero(buffer, byteOffset')
  {
    byteOffset', targetByte' := byteOffset, targetByte;
    // The bit at the cursor, counting from the most significant bit of its byte.
    bit := ShiftRight(targetByte, 7 - bitOffsetInByte) % 2;
    BitAt(buffer, byteOffset, bitOffsetInByte);
    bitOffsetInByte' := bitOffsetInByte + 1;
    if bitOffsetInByte' > 7 {
      byteOffset' := byteOffset + 1;
      bitOffsetInByte' := 0;
      targetByte' := ByteOrZero(buffer, byteOffset');
    }
  }

  /**
   * The loop of `readBits`, statement for statement: each bit is shifted into
   * `result`, and `result` is committed whenever a group of bits is complete.
   */
  method ReadBits(buffer: seq<int>, bitOffset: int, bitLength: int) returns (r: Result<seq<int>, Error>)
    requires IsBytes(buffer)
    ensures r == Extract(buffer, bitOffset, bitLength)
  {
    if bitOffset < 0 {
      return Err(NegativeBitOffset);
    }
    if bitLength < 0 {
      return Err(NegativeBitLength);
    }
    if bitOffset + bitLength > |buffer| * 8 {
      return Err(BitRangeExceedsBuffer);
    }
    // A zeroed result with room for every selected bit, whole bytes rounded up.
    var resultBuffer := seq((bitLength + 7) / 8, _ => 0);
    var byteOffset: nat := bitOffset / 8;
    var bitOffsetInByte: nat := bitOffset % 8;
    var targetByte := ByteOrZero(buffer, byteOffset);
    var result := 0;
    var resultOffset := 0;
    ghost var bits := Bits(buffer, bitOffset, bitLength);
    ghost var a0 := Acc(resultBuffer, 0, 0, 0);
    CeilBytes(bitLength);
    var i := 0;
    while i < bitLength
      invariant 0 <= i <= bitLength
      invariant bitOffset + i == 8 * byteOffset + bitOffsetInByte && bitOffsetInByte < 8
      invariant targetByte == ByteOrZero(buffer, byteOffset)
      invariant Scan(bits, bitLength, i, a0).out == resultBuffer
      invariant Scan(bits, bitLength, i, a0).result == result
      invariant Scan(bits, bitLength, i, a0).resultOffset == resultOffset
    {
      var bit;
      bit, byteOffset, bitOffsetInByte, targetByte := NextBit(buffer, bitOffset + i, byteOffset, bitOffsetInByte, targetByte);
      ScanTurn(bits, i, a0, bit);
      // Shift the open group left and append the new bit.
      result := 2 * result + bit;
      if ClosesGroup(bitLength, i) {
        resultBuffer := resultBuffer[resultOffset := result];
        result := 0;
        resultOffset := resultOffset + 1;
      }
      i := i + 1;
    }
    ScanPacks(bits, a0);
    return Ok(resultBuffer);
  }

  // ---------------------------------------------------------------------------
  // Whole bytes.

  /** One more shift halves the already shifted value. */
  lemma {:induction false} ShiftRightStep(x: int, m: nat)
    ensures ShiftRight(x, m + 1) == ShiftRight(x, m) / 2
    decreases m
  {
    if m > 0 {
      ShiftRightStep(x / 2, m - 1);
    }
  }

  /** Shifting a value of n bits right by n leaves nothing. */
  lemma {:induction false} ShiftRightAll(x: int, n: nat)
    requires 0 <= x < Pow2(n)
    ensures ShiftRight(x, n) == 0
    decreases n
  {
    if n > 0 {
      ShiftRightAll(x / 2, n - 1);
    }
  }

  /** The first n bits of byte j are the byte shifted right by 8 - n. */
  lemma {:induction false} ByteBitsPrefix(b: seq<int>, j: nat, n: nat)
    requires j < |b| && n <= 8
    requires IsBytes(b)
    ensures Value(Bits(b, 8 * j, n)) == ShiftRight(b[j], 8 - n)
  {
    if n == 0 {
      Pow2Eight();
      ShiftRightAll(b[j], 8);
    } else {
      var s := Bits(b, 8 * j, n);
      assert s[..n - 1] == Bits(b, 8 * j, n - 1);
      ByteBitsPrefix(b, j, n - 1);
      ShiftRightStep(b[j], 8 - n);
      BitAt(b, j, n - 1);
    }
  }

  /** The window over k whole bytes is the window over k - 1 of them plus byte k - 1. */
  lemma WindowSnoc(b: seq<int>, k: nat)
    requires 1 < k <= |b|
    requires IsBytes(b)
    ensures Window(b, 0, 8 * k) == Window(b, 0, 8 * (k - 1)) + [b[k - 1]]
  {
    var s := Bits(b, 0, 8 * k);
    ByteBitsPrefix(b, k - 1, 8);
    assert s[8 * k - 8..] == Bits(b, 8 * (k - 1), 8);
    assert s[..8 * k - 8] == Bits(b, 0, 8 * (k - 1));
  }

  /** Reading the first k whole bytes bit by bit reproduces them. */
  lemma {:induction false} WindowAligned(b: seq<int>, k: nat)
    requires k <= |b|
    requires IsBytes(b)
    ensures Window(b, 0, 8 * k) == b[..k]
  {
    if k == 1 {
      ByteBitsPrefix(b, 0, 8);
    } else if k > 1 {
      WindowSnoc(b, k);
      WindowAligned(b, k - 1);
      assert b[..k] == b[..k - 1] + [b[k - 1]];
    }
  }

  /** `readBits(b, 0, 8 * k)` is the first k bytes. */
  lemma ExtractPrefix(b: seq<int>, k: nat)
    requires IsBytes(b)
    requires k <= |b|
    ensures Extract(b, 0, 8 * k) == Ok(b[..k])
  {
    WindowAligned(b, k);
  }

  /** `readBits(b, 0, 8 * b.length)` is the identity. */
  lemma ExtractWhole(b: seq<int>)
    requires IsBytes(b)
    ensures Extract(b, 0, 8 * |b|) == Ok(b)
  {
    WindowAligned(b, |b|);
    assert b[..|b|] == b;
  }
}

=== FILE: blething.dfy ===
/**
 * `createBleThing` (app/screens/Things/BleSelector.tsx, lines 204-248): the
 * record the app keeps for a Thing it reaches over Bluetooth Low Energy,
 * built from the Thing Description's properties and events and from the
 * characteristics the connected peripheral lists.
 */
module BleThing {
  import opened Wrappers
  import opened Errors
  import opened Text
  import opened Schema
  import opened GattForm

  /** A property or event of a Thing Description, as far as `createBleThing` reads it. */
  datatype Affordance = Affordance(
    forms: seq<Form>,
    observable: Option<bool>,
    readOnly: Option<bool>,
    writeOnly: Option<bool>,
    data: Option<DataSchema>)

  /** One key of a JSON object with its value, in `Object.entries` order. */
  datatype Entry<T> = Entry(key: string, value: T)

  /** The two affordance maps of a Thing Description; `None` is an absent member. */
  datatype ThingDescription = ThingDescription(properties: Option<seq<Entry<Affordance>>>, events: Option<seq<Entry<Affordance>>>)

  /** What the app records of a property. */
  datatype BleProperty = BleProperty(observable: bool, writeable: bool, readable: bool, characteristic: string)

  /** An event's `data` schema, or the event affordance itself when it has none. */
  datatype EventSchema = Data(schema: DataSchema) | Itself(affordance: Affordance)

  /** What the app records of an event; the ids are those its form names, when it does. */
  datatype BleEvent = BleEvent(dataSchema: EventSchema, characteristicId: Option<string>, serviceId: Option<string>)

  datatype Thing = Thing(id: string, properties: seq<Entry<BleProperty>>, events: seq<Entry<BleEvent>>)

  /** `flag || false` for an optional boolean member. */
  predicate Set(flag: Option<bool>)
  {
    flag == Some(true)
  }

  /** The 16-bit short form of a characteristic id: `substring(4, 8)`. */
  function ShortId(characteristicId: string): (r: string)
    ensures |r| <= 4
    ensures |characteristicId| >= 8 ==> r == characteristicId[4..8]
  {
    Substring(characteristicId, 4, 8)
  }

  /** The peripheral lists the characteristic, by its full id or its short form. */
  predicate Listed(characteristics: seq<string>, characteristicId: string)
  {
    exists c :: c in characteristics && (c == characteristicId || c == ShortId(characteristicId))
  }

  /** The first listed characteristic that matches, as `find` returns it. */
  function Find(characteristics: seq<string>, characteristicId: string): (r: Option<string>)
    ensures r.Some? <==> Listed(characteristics, characteristicId)
    ensures r.Some? ==> r.value in characteristics && (r.value == characteristicId || r.value == ShortId(characteristicId))
  {
    if |characteristics| == 0 then None
    else if characteristics[0] == characteristicId || characteristics[0] == ShortId(characteristicId) then
      assert characteristics[0] in characteristics;
      Some(characteristics[0])
    else
      ListedTail(characteristics, characteristicId);
      Find(characteristics[1..], characteristicId)
  }

  /** Past a first entry that does not match, the list matches exactly when its tail does. */
  lemma ListedTail(characteristics: seq<string>, characteristicId: string)
    requires |characteristics| > 0
    requires characteristics[0] != characteristicId && characteristics[0] != ShortId(characteristicId)
    ensures Listed(characteristics, characteristicId) <==> Listed(characteristics[1..], characteristicId)
  {
    if Listed(characteristics, characteristicId) {
      var c :| c in characteristics && (c == characteristicId || c == ShortId(characteristicId));
      assert c in characteristics[1..];
    }
    if Listed(characteristics[1..], characteristicId) {
      var c :| c in characteristics[1..] && (c == characteristicId || c == ShortId(characteristicId));
      assert c in characteristics;
    }
  }

  /**
   * One property: its forms must name a characteristic that the peripheral
   * lists; the flags default so that a property is readable unless only
   * `writeOnly` is set and writeable unless only `readOnly` is set.
   */
  function ConvertProperty(property: Affordance, characteristics: seq<string>): (r: Result<BleProperty, Error>)
    ensures |property.forms| == 0 ==> r == Err(MissingForm)
    ensures r.Ok? <==> |property.forms| > 0 && var id := SplitPath(property.forms[0].href).characteristicId;
      id.Some? && Listed(characteristics, id.value)
    ensures r.Ok? ==> r.value.characteristic == SplitPath(property.forms[0].href).characteristicId.value
    ensures r.Ok? ==> r.value.readable || r.value.writeable
    ensures r.Ok? ==> (r.value.readable && r.value.writeable <==> Set(property.readOnly) == Set(property.writeOnly))
    ensures r.Ok? && Set(property.readOnly) && !Set(property.writeOnly) ==> r.value.readable && !r.value.writeable
    ensures r.Ok? && Set(property.writeOnly) && !Set(property.readOnly) ==> r.value.writeable && !r.value.readable
    ensures r.Ok? ==> (r.value.observable <==> Set(property.observable))
  {
    var form :- SelectorDeconstruct(property.forms);
    match form.address.characteristicId
    case None => Err(MissingCharacteristicId)
    case Some(id) =>
      if Find(characteristics, id).None? then Err(CharacteristicNotFound)
      else
        Ok(BleProperty(
          Set(property.observable),
          Set(property.writeOnly) || !Set(property.readOnly),
          Set(property.readOnly) || !Set(property.writeOnly),
          id))
  }

  /** One event: its forms must exist; its schema is its `data`, or the event itself. */
  function ConvertEvent(event: Affordance): (r: Result<BleEvent, Error>)
    ensures r.Err? <==> |event.forms| == 0
    ensures r.Err? ==> r.error == MissingForm
    ensures r.Ok? ==> var address := SplitPath(event.forms[0].href);
      r.value.characteristicId == address.characteristicId && r.value.serviceId == address.serviceId
    ensures r.Ok? ==> (r.value.dataSchema.Itself? <==> event.data.None?)
    ensures r.Ok? && r.value.dataSchema.Itself? ==> r.value.dataSchema.affordance == event
  {
    var form :- SelectorDeconstruct(event.forms);
    var schema := if event.data.Some? then Data(event.data.value) else Itself(event);
    Ok(BleEvent(schema, form.address.characteristicId, form.address.serviceId))
  }

  /** The properties in order; the first that fails ends the loop with its error. */
  function ConvertProperties(entries: seq<Entry<Affordance>>, characteristics: seq<string>): (r: Result<seq<Entry<BleProperty>>, Error>)
    ensures r.Ok? <==> forall i :: 0 <= i < |entries| ==> ConvertProperty(entries[i].value, characteristics).Ok?
    ensures r.Ok? ==> |r.value| == |entries|
    ensures r.Ok? ==> forall i :: 0 <= i < |entries| ==>
      r.value[i] == Entry(entries[i].key, ConvertProperty(entries[i].value, characteristics).value)
  {
    if |entries| == 0 then Ok([])
    else
      var head :- ConvertProperty(entries[0].value, characteristics);
      var tail :- ConvertProperties(entries[1..], characteristics);
      assert forall i :: 1 <= i < |entries| ==> entries[i] == entries[1..][i - 1];
      Ok([Entry(entries[0].key, head)] + tail)
  }

  /** The events in order; the first without a form ends the loop with its error. */
  function ConvertEvents(entries: seq<Entry<Affordance>>): (r: Result<seq<Entry<BleEvent>>, Error>)
    ensures r.Ok? <==> forall i :: 0 <= i < |entries| ==> |entries[i].value.forms| > 0
    ensures r.Ok? ==> |r.value| == |entries|
    ensures r.Ok? ==> forall i :: 0 <= i < |entries| ==> r.value[i] == Entry(entries[i].key, ConvertEvent(entries[i].value).value)
  {
    if |entries| == 0 then Ok([])
    else
      var head :- ConvertEvent(entries[0].value);
      var tail :- ConvertEvents(entries[1..]);
      assert forall i :: 1 <= i < |entries| ==> entries[i] == entries[1..][i - 1];
      Ok([Entry(entries[0].key, head)] + tail)
  }

  /**
   * `createBleThing`: properties first, then events; an absent member gives
   * no entries, and the `actions` member is always empty, so it is left out
   * of `Thing`.
   */
  function CreateBleThing(id: string, td: ThingDescription, characteristics: seq<string>): (r: Result<Thing, Error>)
    ensures var properties := td.properties.GetOr([]); var events := td.events.GetOr([]);
      r.Ok? <==> ((forall i :: 0 <= i < |properties| ==> ConvertProperty(properties[i].value, characteristics).Ok?)
                  && (forall i :: 0 <= i < |events| ==> |events[i].value.forms| > 0))
    ensures r.Ok? ==> r.value.id == id
    ensures r.Ok? ==> |r.value.properties| == |td.properties.GetOr([])| && |r.value.events| == |td.events.GetOr([])|
    ensures var properties := td.properties.GetOr([]);
      (exists i :: 0 <= i < |properties| && ConvertProperty(properties[i].value, characteristics).Err?) ==> r.Err?
  {
    var properties :- ConvertProperties(td.properties.GetOr([]), characteristics);
    var events :- ConvertEvents(td.events.GetOr([]));
    Ok(Thing(id, properties, events))
  }

  /**
   * Every property of a Thing the app builds has a characteristic the
   * peripheral lists, under the id the property's first form names, and can
   * be read or written.
   */
  lemma PropertiesListed(id: string, td: ThingDescription, characteristics: seq<string>)
    requires CreateBleThing(id, td, characteristics).Ok?
    ensures var thing := CreateBleThing(id, td, characteristics).value; var properties := td.properties.GetOr([]);
      forall i :: 0 <= i < |thing.properties| ==>
        && thing.properties[i].key == properties[i].key
        && |properties[i].value.forms| > 0
        && SplitPath(properties[i].value.forms[0].href).characteristicId == Some(thing.properties[i].value.characteristic)
        && Listed(characteristics, thing.properties[i].value.characteristic)
        && (thing.properties[i].value.readable || thing.properties[i].value.writeable)
  {
  }

  /** A peripheral listing a characteristic by its short id matches a form naming the full UUID. */
  lemma ShortIdMatches(characteristics: seq<string>, characteristicId: string)
    requires IsUuid(characteristicId) && characteristicId[4..8] in characteristics
    ensures Listed(characteristics, characteristicId)
  {
    assert ShortId(characteristicId) == characteristicId[4..8];
  }
}

=== FILE: buffer.dfy ===
/**
 * The calls the codecs make on the Buffer library: variable-width integer
 * reads and writes in either byte order, and `swap16`.  Every call here either
 * returns a fresh value or fails; none mutates its argument.
 */
module Buffer {
  import opened Wrappers
  import opened Bytes
  import opened Errors

  /** Smallest value an n-byte signed write accepts, negated: 2^(8n-1), or 1/2 for n = 0. */
  function SignedLimit(n: nat): real
  {
    if n == 0 then 0.5 else Pow2(8 * n - 1) as real
  }

  /** Whether `v` fits the n-byte field (`checkInt` of the library). */
  predicate InRange(v: real, n: nat, signed: bool)
  {
    if signed then -SignedLimit(n) <= v <= SignedLimit(n) - 1.0
    else 0.0 <= v <= (Pow256(n) - 1) as real
  }

  /** Truncation toward zero, the effect of the library's bitwise masking on a fractional value. */
  function Trunc(x: real): (r: int)
    ensures x >= 0.0 ==> r == x.Floor
    ensures x < 0.0 ==> r == -((-x).Floor)
  {
    if x >= 0.0 then x.Floor else -((-x).Floor)
  }

  /** The unsigned value of a field in the given byte order. */
  function Unsigned(field: seq<int>, bigEndian: bool): int
  {
    if bigEndian then BigEndian(field) else LittleEndian(field)
  }

  /**
   * `readIntBE`/`readIntLE`/`readUIntBE`/`readUIntLE(offset, width)`: the
   * width-byte field at `offset`, unsigned or two's complement.
   */
  function ReadInt(b: seq<int>, offset: int, width: int, bigEndian: bool, signed: bool): (r: Result<int, Error>)
    requires IsBytes(b)
    ensures r.Ok? <==> 0 <= offset && 1 <= width && offset + width <= |b|
    ensures r.Err? ==> r.error == ReadOutOfRange
    ensures r.Ok? && !signed ==> 0 <= r.value < Pow256(width)
    ensures r.Ok? && signed ==> -(Pow2(8 * width - 1) as int) <= r.value < Pow2(8 * width - 1)
    ensures r.Ok? ==> r.value % Pow256(width) == Unsigned(b[offset..offset + width], bigEndian)
  {
    if offset < 0 || width < 1 || offset + width > |b| then Err(ReadOutOfRange)
    else
      var field := b[offset..offset + width];
      var u := Unsigned(field, bigEndian);
      BigEndianRange(field);
      LittleEndianRange(field);
      ToSignedRange(u, width);
      ModUnique(u, Pow256(width), 0, u);
      Ok(if signed then ToSigned(u, width) else u)
  }

  /**
   * The same four reads for any width the library's `checkOffset` admits,
   * zero included.  A zero-width read skips the loop over the field and
   * returns the byte just before `offset` (big-endian) or at `offset`
   * (little-endian), less 1 when signed and at least 128 (the sign
   * correction with 2^0); past either end of the buffer that byte is
   * `undefined`, here `None`.
   */
  function Read(b: seq<int>, offset: int, width: int, bigEndian: bool, signed: bool): (r: Result<Option<int>, Error>)
    requires IsBytes(b)
    ensures r.Ok? <==> 0 <= offset && 0 <= width && offset + width <= |b|
    ensures r.Err? ==> r.error == ReadOutOfRange
    ensures width >= 1 ==> (r.Ok? <==> ReadInt(b, offset, width, bigEndian, signed).Ok?)
    ensures width >= 1 && r.Ok? ==> r.value == Some(ReadInt(b, offset, width, bigEndian, signed).value)
    ensures r.Ok? && r.value.None? ==> width == 0
    ensures r.Ok? && width == 0 ==>
      var k := if bigEndian then offset - 1 else offset;
      (r.value.Some? <==> 0 <= k < |b|)
      && (r.value.Some? && !signed ==> r.value.value == b[k])
      && (r.value.Some? && signed ==> r.value.value == if b[k] >= 128 then b[k] - 1 else b[k])
  {
    if offset < 0 || width < 0 || offset + width > |b| then Err(ReadOutOfRange)
    else if width >= 1 then Ok(Some(ReadInt(b, offset, width, bigEndian, signed).value))
    else
      var k := if bigEndian then offset - 1 else offset;
      if k < 0 || k >= |b| then Ok(None)
      else if signed && b[k] >= 128 then Ok(Some(b[k] - 1))
      else Ok(Some(b[k]))
  }

  /** A zero-width read of an empty buffer is `undefined`, in either order and signedness. */
  lemma EmptyReadUndefined(bigEndian: bool, signed: bool)
    ensures Read([], 0, 0, bigEndian, signed) == Ok(None)
  {
  }

  /** A zero-width little-endian read of a non-empty buffer returns its first byte, unsigned. */
  lemma ZeroWidthFirstByte(b: seq<int>)
    requires IsBytes(b) && |b| >= 1
    ensures Read(b, 0, 0, false, false) == Ok(Some(b[0]))
    ensures Read(b, 0, 0, true, false) == Ok(None)
  {
  }

  /**
   * `writeIntBE`/`writeIntLE`/`writeUIntBE`/`writeUIntLE(v, offset, width)` on a
   * freshly allocated width-byte buffer: the value is range-checked first, then
   * the field must fit (so only offset 0 succeeds), then the value is written
   * truncated toward zero.
   */
  function WriteInt(v: real, offset: int, width: nat, bigEndian: bool, signed: bool): (r: Result<seq<int>, Error>)
    ensures !InRange(v, width, signed) ==> r == Err(ValueOutOfBounds)
    ensures InRange(v, width, signed) && offset != 0 ==> r == Err(IndexOutOfRange)
    ensures r.Ok? ==> |r.value| == width && IsBytes(r.value)
    ensures r.Ok? ==> Unsigned(r.value, bigEndian) == Trunc(v) % Pow256(width)
  {
    if !InRange(v, width, signed) then Err(ValueOutOfBounds)
    else if offset < 0 || offset + width > width then Err(IndexOutOfRange)
    else
      var n := Trunc(v);
      EncodeLittleValue(n, width);
      EncodeBigValue(n, width);
      Ok(if bigEndian then EncodeBig(n, width) else EncodeLittle(n, width))
  }

  /**
   * Writing an in-range integer and reading the field back with the same
   * width, byte order and signedness gives the integer.
   */
  lemma WriteReadInt(v: int, width: nat, bigEndian: bool, signed: bool)
    requires InRange(v as real, width, signed)
    requires width >= 1
    ensures WriteInt(v as real, 0, width, bigEndian, signed).Ok?
    ensures ReadInt(WriteInt(v as real, 0, width, bigEndian, signed).value, 0, width, bigEndian, signed) == Ok(v)
  {
    var w := WriteInt(v as real, 0, width, bigEndian, signed);
    assert Trunc(v as real) == v;
    var field := w.value;
    assert field[0..width] == field;
    if signed {
      SignedRoundTrip(v, width);
    } else {
      ModUnique(v, Pow256(width), 0, v);
    }
  }

  /** Reading a whole field big-endian equals reading its reversal little-endian. */
  lemma ReadReversed(b: seq<int>, signed: bool)
    requires IsBytes(b) && |b| >= 1
    ensures IsBytes(Reverse(b))
    ensures ReadInt(Reverse(b), 0, |b|, true, signed) == ReadInt(b, 0, |b|, false, signed)
  {
    ReverseBytes(b);
    ReverseBigEndian(b);
    assert Reverse(b)[0..|b|] == Reverse(b) && b[0..|b|] == b;
  }

  /** `buffer.swap16()` applied to a copy: each aligned pair of bytes trades places. */
  function Swap16(b: seq<int>): (r: Result<seq<int>, Error>)
    ensures |b| % 2 != 0 <==> r.Err?
    ensures r.Err? ==> r.error == OddSwapLength
    ensures r.Ok? ==> |r.value| == |b|
    ensures r.Ok? ==> forall i :: 0 <= i < |b| ==> r.value[i] == b[if i % 2 == 0 then i + 1 else i - 1]
  {
    if |b| % 2 != 0 then Err(OddSwapLength) else Ok(SwapPairs(b))
  }

  function SwapPairs(b: seq<int>): (r: seq<int>)
    requires |b| % 2 == 0
    ensures |r| == |b|
    ensures forall i :: 0 <= i < |b| ==> r[i] == b[if i % 2 == 0 then i + 1 else i - 1]
  {
    if |b| == 0 then [] else [b[1], b[0]] + SwapPairs(b[2..])
  }

  /** Swapping twice restores the buffer. */
  lemma Swap16Twice(b: seq<int>)
    requires |b| % 2 == 0
    ensures Swap16(Swap16(b).value) == Ok(b)
  {
    var once := Swap16(b).value;
    assert Swap16(once).value == b;
  }
}

=== FILE: bytes.dfy ===
/**
 * Byte sequences as mathematical integers: octets, powers of two, big- and
 * little-endian unsigned values, and two's complement.  Every integer here is
 * unbounded; widths are explicit.
 */
module Bytes {

  /** An octet, as a buffer element holds it. */
  predicate IsByte(x: int)
  {
    0 <= x < 256
  }

  /** A buffer: every element is an octet. */
  predicate IsBytes(s: seq<int>)
  {
    forall i :: 0 <= i < |s| ==> IsByte(s[i])
  }

  function Pow2(n: nat): (r: nat)
    ensures r >= 1
  {
    if n == 0 then 1 else 2 * Pow2(n - 1)
  }

  function Pow256(n: nat): (r: nat)
    ensures r >= 1
  {
    if n == 0 then 1 else 256 * Pow256(n - 1)
  }

  lemma {:induction false} Pow2Add(a: nat, b: nat)
    ensures Pow2(a + b) == Pow2(a) * Pow2(b)
    decreases b
  {
    if b > 0 {
      Pow2Add(a, b - 1);
      assert Pow2(a + b) == 2 * Pow2(a + b - 1);
      calc {
        2 * (Pow2(a) * Pow2(b - 1));
        Pow2(a) * (2 * Pow2(b - 1));
      }
    }
  }

  lemma {:induction false} Pow2Mono(m: nat, n: nat)
    requires m <= n
    ensures Pow2(m) <= Pow2(n)
    decreases n
  {
    if m < n {
      Pow2Mono(m, n - 1);
    }
  }

  lemma Pow2Eight()
    ensures Pow2(8) == 256
  {
    assert Pow2(2) == 4;
    assert Pow2(4) == 16;
    assert Pow2(6) == 64;
  }

  /** One byte holds eight bits: 256^n == 2^(8n). */
  lemma {:induction false} Pow256IsPow2(n: nat)
    ensures Pow256(n) == Pow2(8 * n)
  {
    if n > 0 {
      Pow256IsPow2(n - 1);
      Pow2Add(8 * (n - 1), 8);
      assert Pow2(8) == 256;
      assert 8 * n == 8 * (n - 1) + 8;
    }
  }

  /** The sign bit of an n-byte value weighs half the value range. */
  lemma SignBitWeight(n: nat)
    requires n >= 1
    ensures Pow256(n) == 2 * Pow2(8 * n - 1)
  {
    Pow256IsPow2(n);
    assert Pow2(8 * n) == 2 * Pow2(8 * n - 1);
  }

  /** Unsigned value of `s`, most significant byte first. */
  function BigEndian(s: seq<int>): int
  {
    if |s| == 0 then 0 else s[0] * Pow256(|s| - 1) + BigEndian(s[1..])
  }

  /** Unsigned value of `s`, least significant byte first. */
  function LittleEndian(s: seq<int>): int
  {
    if |s| == 0 then 0 else s[0] + 256 * LittleEndian(s[1..])
  }

  function Reverse(s: seq<int>): (r: seq<int>)
    ensures |r| == |s|
    ensures forall i :: 0 <= i < |s| ==> r[i] == s[|s| - 1 - i]
  {
    if |s| == 0 then [] else Reverse(s[1..]) + [s[0]]
  }

  lemma ReverseBytes(s: seq<int>)
    requires IsBytes(s)
    ensures IsBytes(Reverse(s))
  {
  }

  lemma {:induction false} BigEndianRange(s: seq<int>)
    requires IsBytes(s)
    ensures 0 <= BigEndian(s) < Pow256(|s|)
  {
    if |s| > 0 {
      BigEndianRange(s[1..]);
      var p := Pow256(|s| - 1);
      MulBounds(s[0], 255, p);
      assert BigEndian(s) == s[0] * p + BigEndian(s[1..]);
      assert Pow256(|s|) == 256 * p;
    }
  }

  lemma MulBounds(a: int, b: int, p: int)
    requires 0 <= a <= b
    requires p >= 0
    ensures 0 <= a * p <= b * p
  {
  }

  lemma {:induction false} LittleEndianRange(s: seq<int>)
    requires IsBytes(s)
    ensures 0 <= LittleEndian(s) < Pow256(|s|)
  {
    if |s| > 0 {
      LittleEndianRange(s[1..]);
    }
  }

  /** Appending a least significant byte shifts the big-endian value by one byte. */
  lemma {:induction false} BigEndianAppend(s: seq<int>, x: int)
    ensures BigEndian(s + [x]) == 256 * BigEndian(s) + x
  {
    if |s| == 0 {
      assert BigEndian([x]) == x * Pow256(0) + BigEndian([]);
    } else {
      var t := s + [x];
      assert t[1..] == s[1..] + [x];
      BigEndianAppend(s[1..], x);
      calc {
        BigEndian(t);
        s[0] * Pow256(|s|) + BigEndian(s[1..] + [x]);
        s[0] * (256 * Pow256(|s| - 1)) + 256 * BigEndian(s[1..]) + x;
        256 * (s[0] * Pow256(|s| - 1) + BigEndian(s[1..])) + x;
      }
    }
  }

  /** Reading reversed bytes big-endian is reading the original little-endian. */
  lemma {:induction false} ReverseBigEndian(s: seq<int>)
    ensures BigEndian(Reverse(s)) == LittleEndian(s)
  {
    if |s| > 0 {
      ReverseBigEndian(s[1..]);
      BigEndianAppend(Reverse(s[1..]), s[0]);
    }
  }

  /**
   * Two's complement reading of the unsigned value `u` of an n-byte field:
   * values at or above the sign bit wrap to negatives.
   */
  function ToSigned(u: int, n: nat): int
    requires n >= 1
  {
    if u >= Pow2(8 * n - 1) then u - Pow256(n) else u
  }

  lemma ToSignedRange(u: int, n: nat)
    requires n >= 1
    requires 0 <= u < Pow256(n)
    ensures -(Pow2(8 * n - 1) as int) <= ToSigned(u, n) < Pow2(8 * n - 1)
    ensures ToSigned(u, n) % Pow256(n) == u
  {
    SignBitWeight(n);
    var m := Pow256(n);
    if u >= Pow2(8 * n - 1) {
      ModUnique(u - m, m, -1, u);
    } else {
      ModUnique(u, m, 0, u);
    }
  }

  /** Two's complement reading inverts reduction modulo 256^n on the signed range. */
  lemma SignedRoundTrip(v: int, n: nat)
    requires n >= 1
    requires -(Pow2(8 * n - 1) as int) <= v < Pow2(8 * n - 1)
    ensures 0 <= v % Pow256(n) < Pow256(n)
    ensures ToSigned(v % Pow256(n), n) == v
  {
    SignBitWeight(n);
    var m := Pow256(n);
    if v >= 0 {
      ModUnique(v, m, 0, v);
    } else {
      ModUnique(v, m, -1, v + m);
    }
  }

  /** The n low-order bytes of `v`, least significant first (two's complement for negatives). */
  function EncodeLittle(v: int, n: nat): (r: seq<int>)
    ensures |r| == n
    ensures IsBytes(r)
    decreases n
  {
    if n == 0 then [] else [v % 256] + EncodeLittle(v / 256, n - 1)
  }

  /** The n low-order bytes of `v`, most significant first. */
  function EncodeBig(v: int, n: nat): (r: seq<int>)
    ensures |r| == n
    ensures IsBytes(r)
  {
    Reverse(EncodeLittle(v, n))
  }

  lemma ModUnique(x: int, d: int, q: int, r: int)
    requires d > 0
    requires x == q * d + r
    requires 0 <= r < d
    ensures x / d == q && x % d == r
  {
    var q' := x / d;
    var r' := x % d;
    assert (q - q') * d == r' - r;
    if q - q' >= 1 {
      MulAtLeast(q - q', d);
    } else if q' - q >= 1 {
      assert (q' - q) * d == r - r';
      MulAtLeast(q' - q, d);
    }
  }

  lemma MulAtLeast(k: int, d: int)
    requires k >= 1 && d > 0
    ensures k * d >= d
  {
    assert k * d == (k - 1) * d + d;
    MulBounds(0, k - 1, d);
  }

  /** Encoding keeps exactly the value modulo 256^n. */
  lemma {:induction false} EncodeLittleValue(v: int, n: nat)
    ensures LittleEndian(EncodeLittle(v, n)) == v % Pow256(n)
    decreases n
  {
    if n == 0 {
      ModUnique(v, 1, v, 0);
    } else {
      var m := Pow256(n - 1);
      var e := EncodeLittle(v, n);
      assert e[1..] == EncodeLittle(v / 256, n - 1);
      EncodeLittleValue(v / 256, n - 1);
      var q := v / 256;
      var r := v % 256;
      var q2 := q / m;
      var r2 := q % m;
      assert v == (q2 * m) * 256 + (256 * r2 + r);
      assert v == q2 * (256 * m) + (256 * r2 + r) by {
        assert (q2 * m) * 256 == q2 * (256 * m);
      }
      assert 256 * r2 + r < 256 * m by {
        assert r2 <= m - 1;
      }
      ModUnique(v, 256 * m, q2, 256 * r2 + r);
    }
  }

  lemma EncodeBigValue(v: int, n: nat)
    ensures BigEndian(EncodeBig(v, n)) == v % Pow256(n)
  {
    ReverseBigEndian(EncodeLittle(v, n));
    EncodeLittleValue(v, n);
  }

  /** Decoding then re-encoding a buffer gives the buffer back. */
  lemma {:induction false} LittleEndianEncode(s: seq<int>)
    requires IsBytes(s)
    ensures EncodeLittle(LittleEndian(s), |s|) == s
  {
    if |s| > 0 {
      var v := LittleEndian(s);
      LittleEndianRange(s[1..]);
      ModUnique(v, 256, LittleEndian(s[1..]), s[0]);
      LittleEndianEncode(s[1..]);
    }
  }
}

=== FILE: errors.dfy ===
/** Every way a modelled operation can throw, one constructor per distinct failure. */
module Errors {

  datatype Error =
    // octetstream-codec.ts, bytesToValue and its helpers
    | MissingType                                // the schema names no type
    | UnsignedTypeSigned                         // an unsigned type name with `signed` set to true
    | TypeWidthMismatch(bitLength: int)          // the bit length disagrees with the width the type names
    | BitLengthExceedsBuffer(bitLength: int)     // the bit window runs past the end of the buffer
    | NegativeBitOffset                          // readBits: the bit offset is negative
    | NegativeBitLength                          // readBits: the bit length is negative
    | BitRangeExceedsBuffer                      // readBits: the window ends past the last bit
    | MissingObjectSchema                        // an object type without a schema
    | NotObjectSchema                            // objectToValue: the schema's type is not object
    | UnhandledType(dataType: string)            // no decoder for this type name
    | WrongFloatWidth(dataLength: int)           // a number whose bit length is not 16, 32 or 64
    | UnknownEncoding(charset: string)           // buffer.toString does not know the charset
    // BinaryDataCodec.ts
    | UnsupportedDatatype                        // the codec has no path for this type
    | MissingParameters                          // the schema gives no byte length
    | UnsupportedFormat                          // a string format other than hex
    | InvalidSize                                // Buffer.alloc of a negative size
    | MissingVariables                           // TypeError: `bdo:variables` is undefined
    | UnknownVariable(name: string)              // TypeError: a template names no declared variable
    | UnclosedPlaceholder                        // TypeError: a `{` with no `}` after it
    | MalformedTemplate                          // the URI template library rejects the pattern
    | ValueTypeMismatch                          // the value is not of the JavaScript type the path expects
    | JsonSyntax                                 // JSON.parse rejects the text
    // the Buffer library
    | ReadOutOfRange                             // a read outside the buffer
    | ValueOutOfBounds                           // the value does not fit the field width
    | IndexOutOfRange                            // a write offset outside the buffer
    | OddSwapLength                              // swap16 on an odd number of bytes
    // BleSelector.tsx and Bluetooth-client.ts
    | MissingForm                                // TypeError: `forms[0]` is undefined
    | MissingPath                                // TypeError: the href has no "//"
    | MissingCharacteristicId                    // TypeError: `characteristicId.substring` on undefined
    | CharacteristicNotFound                     // TypeError: `find(...)` returned undefined
    | UnknownWriteOperation                      // a write whose operation is neither write mode
    | UnsupportedSubscribeOperation              // a subscription whose operation is neither notify nor subscribe
}

=== FILE: findings.dfy ===
/**
 * The two defects of the octet-stream decoder, each shown on a concrete input
 * against the source's reading, and the property the corrected reading keeps.
 */
module OctetStreamFindings {
  import opened Wrappers
  import opened Bytes
  import opened Errors
  import opened Text
  import opened Schema
  import opened OctetStream
  import Buffer
  import BitWindow

  /** A byte below 0x80 read as a one-byte field is itself, signed or not, in either order. */
  lemma SmallByte(b: seq<int>, n: int, bigEndian: bool)
    requires IsBytes(b) && |b| >= 1 && b[0] < 128 && FieldWidth(n) == 1
    ensures IntegerToValue(b, n, bigEndian, true) == Ok(Some(b[0]))
  {
    var field := b[..1];
    assert BigEndian(field) == field[0] * Pow256(0) + BigEndian(field[1..]);
    assert LittleEndian(field) == field[0] + 256 * LittleEndian(field[1..]);
    SignBitWeight(1);
    assert Pow256(1) == 256;
  }

  // ---------------------------------------------------------------------------
  // A negative bit offset.  The length check compares the bit length with the
  // room after the offset, so a negative offset enlarges the room; when the
  // window then covers the whole buffer the bit reader is never consulted.

  /** `type: "integer"`, `bdo:bitOffset: -4`, `bdo:bitLength: 12`. */
  const NegativeOffsetSchema := Typed("integer").(bitOffset := Some(-4), bitLength := Some(12))

  /** The length check passes: 12 bits fit in the room the negative offset makes. */
  lemma NegativeOffsetLayout()
    ensures Resolve(AsWritten, [0x12], NegativeOffsetSchema, NoParameters) == Ok(Layout(true, true, -4, 12, "integer"))
    ensures KindOf("integer") == IntegerKind
  {
    IntegerName();
    NameKinds();
  }

  /** As written the guard lets the window through and the byte 0x12 reads as 18. */
  lemma NegativeOffsetAccepted(foreign: Foreign)
    ensures BytesToValueAsWritten([0x12], NegativeOffsetSchema, NoParameters, foreign) == Ok(Decoded(Int(18), [0x12]))
  {
    var layout := Layout(true, true, -4, 12, "integer");
    NegativeOffsetLayout();
    DecodeWhole(AsWritten, false, [0x12], NegativeOffsetSchema, NoParameters, foreign, layout);
    assert FieldWidth(12) == 1;
    SmallByte([0x12], 12, true);
    DispatchInteger(AsWritten, [0x12], 12, layout, NegativeOffsetSchema, NoParameters, foreign, 0x12);
  }

  // ---------------------------------------------------------------------------
  // BYTE_SWAP repeated per property.  `swap16` works in place on the buffer
  // the object shares with its properties, and every property's decode swaps
  // it again, so consecutive properties see alternating byte orders.

  /** The content-type parameters `byteSeq=BYTE_SWAP`. */
  const SwapParameters := Parameters(Some("BYTE_SWAP"), None, None)

  /** `type: "integer"`, `bdo:bitOffset: 0`, `bdo:bitLength: 8`: the first byte. */
  const FirstByte := Typed("integer").(bitOffset := Some(0), bitLength := Some(8))

  /** An object with two properties of identical schema. */
  const TwinBytes := Typed("object").(properties := Present([Property("a", FirstByte), Property("b", FirstByte)]))

  lemma SwapParametersMean()
    ensures SwapRequested(SwapParameters) && !LittleEndianRequested(SwapParameters)
  {
    assert OccursAt("BYTE_SWAP", "BYTE_SWAP", 0);
    ContainsMeans("BYTE_SWAP", "BYTE_SWAP");
    AbsentPair("BYTE_SWAP", "little");
  }

  /** The first-byte schema settles on an 8-bit big-endian signed integer. */
  lemma FirstByteLayout(x: int, y: int)
    ensures Resolve(AsWritten, [x, y], FirstByte, SwapParameters) == Ok(Layout(true, true, 0, 8, "integer"))
    ensures KindOf("integer") == IntegerKind
  {
    SwapParametersMean();
    IntegerName();
    NameKinds();
  }

  /** BYTE_SWAP exchanges the two bytes of a two-byte buffer. */
  lemma PairSwapped(x: int, y: int)
    ensures ByteSwap([x, y], SwapParameters) == Ok([y, x])
  {
    SwapParametersMean();
    var r := Buffer.Swap16([x, y]).value;
    assert r[0] == y && r[1] == x;
    assert r == [y, x];
  }

  /** As written, a nested first-byte property swaps a two-byte buffer and reads what was its second byte. */
  lemma SwappedFirstByte(x: int, y: int, foreign: Foreign)
    requires IsByte(x) && IsByte(y) && y < 128
    ensures Decode(AsWritten, true, [x, y], FirstByte, SwapParameters, foreign) == Ok(Decoded(Int(y), [y, x]))
  {
    FirstByteLayout(x, y);
    PairSwapped(x, y);
    BitWindow.ExtractPrefix([y, x], 1);
    assert [y, x][..1] == [y];
    DecodeWindow(AsWritten, true, [x, y], FirstByte, SwapParameters, foreign, Layout(true, true, 0, 8, "integer"), [y, x], [y]);
    SmallByte([y], 8, true);
  }

  /** Two properties with the same schema: the second is decoded against the buffer the first leaves. */
  lemma TwoProperties(mode: Reading, bytes: seq<int>, a: string, b: string, s: DataSchema, params: Parameters, foreign: Foreign,
                      x: Value, y: Value, mid: seq<int>, last: seq<int>)
    requires IsBytes(bytes) && IsBytes(mid) && IsBytes(last)
    requires Decode(mode, true, bytes, s, params, foreign) == Ok(Decoded(x, mid))
    requires Decode(mode, true, mid, s, params, foreign) == Ok(Decoded(y, last))
    ensures DecodeProperties(mode, bytes, Typed("object").(properties := Present([Property(a, s), Property(b, s)])), 0, params, foreign)
      == Ok(DecodedFields([Field(a, x), Field(b, y)], last))
  {
    var schema := Typed("object").(properties := Present([Property(a, s), Property(b, s)]));
    assert DecodeProperties(mode, last, schema, 2, params, foreign) == Ok(DecodedFields([], last));
    PropertiesCons(mode, mid, schema, 1, params, foreign, Decoded(y, last), DecodedFields([], last));
    assert [Field(b, y)] + [] == [Field(b, y)];
    assert [Field(a, x)] + [Field(b, y)] == [Field(a, x), Field(b, y)];
    PropertiesCons(mode, bytes, schema, 0, params, foreign, Decoded(x, mid), DecodedFields([Field(b, y)], last));
  }

  /** As written, the two properties of `TwinBytes` over the swapped buffer [2, 1] read 1 and then 2. */
  lemma TwinFieldsAsWritten(foreign: Foreign)
    ensures DecodeProperties(AsWritten, [2, 1], TwinBytes, 0, SwapParameters, foreign)
      == Ok(DecodedFields([Field("a", Int(1)), Field("b", Int(2))], [2, 1]))
  {
    SwappedFirstByte(2, 1, foreign);
    SwappedFirstByte(1, 2, foreign);
    TwoProperties(AsWritten, [2, 1], "a", "b", FirstByte, SwapParameters, foreign, Int(1), Int(2), [1, 2], [2, 1]);
  }

  /** The object settles on the whole two-byte buffer. */
  lemma TwinLayout()
    ensures Resolve(AsWritten, [1, 2], TwinBytes, SwapParameters) == Ok(Layout(true, true, 0, 16, "object"))
  {
    SwapParametersMean();
    ObjectName();
  }

  /** As written, two properties with the same schema over [1, 2] with BYTE_SWAP decode to different values. */
  lemma SwapRepeatedPerProperty(foreign: Foreign)
    ensures BytesToValueAsWritten([1, 2], TwinBytes, SwapParameters, foreign)
      == Ok(Decoded(Obj([Field("a", Int(1)), Field("b", Int(2))]), [2, 1]))
  {
    TwinLayout();
    PairSwapped(1, 2);
    DecodeSwapped(AsWritten, false, [1, 2], TwinBytes, SwapParameters, foreign, Layout(true, true, 0, 16, "object"), [2, 1]);
    TwinFieldsAsWritten(foreign);
    DispatchObject(AsWritten, [2, 1], 16, Layout(true, true, 0, 16, "object"), TwinBytes, SwapParameters, foreign);
  }

  /** `P` holds of `xs[k - i]` and `ys[k]` for every `k` from `i` on. */
  ghost predicate PairedFrom<T, U>(P: (T, U) -> bool, xs: seq<T>, ys: seq<U>, i: nat)
  {
    && |xs| + i == |ys|
    && forall k :: i <= k < |ys| ==> P(xs[k - i], ys[k])
  }

  lemma PairedCons<T, U>(P: (T, U) -> bool, x: T, rest: seq<T>, ys: seq<U>, i: nat)
    requires i < |ys| && P(x, ys[i]) && PairedFrom(P, rest, ys, i + 1)
    ensures PairedFrom(P, [x] + rest, ys, i)
  {
    forall k | i <= k < |ys| ensures P(([x] + rest)[k - i], ys[k]) {
      if k > i {
        assert ([x] + rest)[k - i] == rest[k - (i + 1)];
      }
    }
  }

  /** `field` is property `prop` decoded on its own from the object's buffer in the corrected reading. */
  predicate DecodedAs(bytes: seq<int>, field: Field, prop: Property, params: Parameters, foreign: Foreign)
    requires IsBytes(bytes)
  {
    var d := Decode(Corrected, true, bytes, prop.schema, params, foreign);
    d.Ok? && field == Field(prop.name, d.value.value)
  }

  /** `DecodedAs` for one buffer, as a relation between a field and a property. */
  function DecodesTo(bytes: seq<int>, params: Parameters, foreign: Foreign): (Field, Property) -> bool
  {
    (field: Field, prop: Property) => IsBytes(bytes) && DecodedAs(bytes, field, prop, params, foreign)
  }

  /** In the corrected reading every property is decoded from the same, unswapped buffer. */
  lemma {:induction false} IndependentFields(bytes: seq<int>, schema: DataSchema, i: nat, params: Parameters, foreign: Foreign)
    requires IsBytes(bytes) && schema.properties.Present? && i <= |schema.properties.list|
    requires DecodeProperties(Corrected, bytes, schema, i, params, foreign).Ok?
    ensures PairedFrom(DecodesTo(bytes, params, foreign), DecodeProperties(Corrected, bytes, schema, i, params, foreign).value.fields, schema.properties.list, i)
    decreases |schema.properties.list| - i
  {
    var props := schema.properties.list;
    if i < |props| {
      var d, rest := PropertiesStep(Corrected, bytes, schema, i, params, foreign);
      IndependentFields(bytes, schema, i + 1, params, foreign);
      assert DecodesTo(bytes, params, foreign)(Field(props[i].name, d.value), props[i]);
      PairedCons(DecodesTo(bytes, params, foreign), Field(props[i].name, d.value), rest.fields, props, i);
    }
  }

  /**
   * Corrected, two properties with the same schema decode to the same value:
   * the value of a property depends on its own schema and not on its position.
   */
  lemma SameSchemaSameValue(bytes: seq<int>, schema: DataSchema, params: Parameters, foreign: Foreign, j: nat, k: nat)
    requires IsBytes(bytes) && schema.properties.Present?
    requires j < |schema.properties.list| && k < |schema.properties.list|
    requires schema.properties.list[j].schema == schema.properties.list[k].schema
    requires ObjectToValue(Corrected, bytes, schema, params, foreign).Ok?
    ensures var fields := ObjectToValue(Corrected, bytes, schema, params, foreign).value.value.fields;
      fields[j].value == fields[k].value
  {
    IndependentFields(bytes, schema, 0, params, foreign);
    var fields := DecodeProperties(Corrected, bytes, schema, 0, params, foreign).value.fields;
    assert DecodesTo(bytes, params, foreign)(fields[j - 0], schema.properties.list[j]);
    assert DecodesTo(bytes, params, foreign)(fields[k - 0], schema.properties.list[k]);
  }
}

=== FILE: gattform.dfy ===
/**
 * GATT hrefs of the Bluetooth binding: `deconstructForm`, in its two copies
 * (app/screens/Things/BleSelector.tsx and
 * app/models/wot/bindings/binding-bluetooth/Bluetooth-client.ts), splits a
 * path such as "device/service-uuid/characteristic-uuid" into the ids of a
 * device, a GATT service and a characteristic.
 */
module GattForm {
  import opened Wrappers
  import opened Errors
  import opened Text

  // ---------------------------------------------------------------------------
  // Ids (the 8-4-4-4-12 form of section 3 of RFC 4122, lower case only).

  /** A position of a UUID's text that holds a hyphen. */
  predicate HyphenAt(i: int)
  {
    i == 8 || i == 13 || i == 18 || i == 23
  }

  /** `/^[0-9a-f]{8}-[0-9a-f]{4}-[0-9a-f]{4}-[0-9a-f]{4}-[0-9a-f]{12}$/`. */
  predicate IsUuid(s: string)
  {
    |s| == 36 && forall i :: 0 <= i < 36 ==> if HyphenAt(i) then s[i] == '-' else IsLowerHexDigit(s[i])
  }

  /** A UUID has no upper-case letter and no "/", so it is its own lower case and one path segment. */
  lemma UuidLowerCase(s: string)
    requires IsUuid(s)
    ensures ToLowerAscii(s) == s
    ensures forall i :: 0 <= i < |s| ==> s[i] != '/'
  {
    assert forall i :: 0 <= i < |s| ==> !('A' <= s[i] <= 'Z');
  }

  /** A segment with an upper-case letter is never taken for a UUID. */
  lemma UpperCaseNotUuid(s: string, i: int)
    requires 0 <= i < |s| && 'A' <= s[i] <= 'Z'
    ensures !IsUuid(s)
  {
  }

  // ---------------------------------------------------------------------------
  // Splitting a path (BleSelector.tsx, lines 442-474; Bluetooth-client.ts,
  // lines 227-259).

  /** The ids `deconstructForm` sets; `None` is a key it leaves unset. */
  datatype GattAddress = GattAddress(deviceId: string, serviceId: Option<string>, characteristicId: Option<string>)

  /** The segments of a path that are not UUIDs. */
  function NonUuid(segments: seq<string>): (r: seq<string>)
    ensures |r| <= |segments|
    ensures forall i :: 0 <= i < |r| ==> !IsUuid(r[i])
  {
    if |segments| == 0 then []
    else (if IsUuid(segments[0]) then [] else [segments[0]]) + NonUuid(segments[1..])
  }

  /**
   * The split path: three segments are device, service and characteristic
   * whatever they hold; otherwise the segments are scanned from the second on.
   */
  function SplitPath(path: string): (a: GattAddress)
  {
    var parts := Split(path, "/");
    if |parts| == 3 then GattAddress(parts[0], Some(parts[1]), Some(parts[2]))
    else Scan(parts, 1, GattAddress(parts[0], None, None))
  }

  /**
   * The scan from segment `i` on: a segment that is not a UUID is appended to
   * the device id after a "/"; a UUID is the service id when second-to-last,
   * the characteristic id when last, and is dropped elsewhere.
   */
  function Scan(parts: seq<string>, i: nat, acc: GattAddress): GattAddress
    requires 1 <= i <= |parts|
    decreases |parts| - i
  {
    if i == |parts| then acc
    else
      var segment := parts[i];
      var next :=
        if !IsUuid(segment) then acc.(deviceId := acc.deviceId + "/" + segment)
        else acc.(serviceId := if i == |parts| - 2 then Some(segment) else acc.serviceId,
                  characteristicId := if i == |parts| - 1 then Some(segment) else acc.characteristicId);
      Scan(parts, i + 1, next)
  }

  /**
   * What the scan leaves once it has seen the segments before `i`: the
   * non-UUID segments joined onto the first, and the two trailing ids when
   * already passed and UUIDs.
   */
  function ScannedTo(parts: seq<string>, i: nat): GattAddress
    requires 1 <= i <= |parts|
  {
    var n := |parts|;
    GattAddress(
      Join([parts[0]] + NonUuid(parts[1..i]), "/"),
      if 1 <= n - 2 < i && IsUuid(parts[n - 2]) then Some(parts[n - 2]) else None,
      if 1 <= n - 1 < i && IsUuid(parts[n - 1]) then Some(parts[n - 1]) else None)
  }

  lemma {:induction false} NonUuidSnoc(segments: seq<string>, s: string)
    ensures NonUuid(segments + [s]) == NonUuid(segments) + (if IsUuid(s) then [] else [s])
    decreases |segments|
  {
    if |segments| == 0 {
      assert segments + [s] == [s];
    } else {
      assert (segments + [s])[1..] == segments[1..] + [s];
      NonUuidSnoc(segments[1..], s);
    }
  }

  lemma {:induction false} JoinSnoc(parts: seq<string>, s: string, sep: string)
    requires |parts| >= 1
    ensures Join(parts + [s], sep) == Join(parts, sep) + sep + s
    decreases |parts|
  {
    if |parts| == 1 {
      assert (parts + [s])[1..] == [s];
    } else {
      assert (parts + [s])[1..] == parts[1..] + [s];
      JoinSnoc(parts[1..], s, sep);
    }
  }

  /** One step of the scan keeps `ScannedTo`. */
  lemma ScanStep(parts: seq<string>, i: nat, acc: GattAddress)
    requires 1 <= i < |parts| && acc == ScannedTo(parts, i)
    ensures Scan(parts, i, acc) == Scan(parts, i + 1, ScannedTo(parts, i + 1))
  {
    var segment := parts[i];
    assert parts[1..i + 1] == parts[1..i] + [segment];
    NonUuidSnoc(parts[1..i], segment);
    if !IsUuid(segment) {
      JoinSnoc([parts[0]] + NonUuid(parts[1..i]), segment, "/");
      assert [parts[0]] + NonUuid(parts[1..i + 1]) == [parts[0]] + NonUuid(parts[1..i]) + [segment];
    } else {
      assert NonUuid(parts[1..i + 1]) == NonUuid(parts[1..i]) + [] == NonUuid(parts[1..i]);
      var n := |parts|;
      var next := acc.(serviceId := if i == n - 2 then Some(segment) else acc.serviceId,
                       characteristicId := if i == n - 1 then Some(segment) else acc.characteristicId);
      assert next.deviceId == ScannedTo(parts, i + 1).deviceId;
      assert next.serviceId == ScannedTo(parts, i + 1).serviceId;
      assert next.characteristicId == ScannedTo(parts, i + 1).characteristicId;
      assert Scan(parts, i, acc) == Scan(parts, i + 1, next);
    }
  }

  lemma {:induction false} ScanFrom(parts: seq<string>, i: nat)
    requires 1 <= i <= |parts|
    ensures Scan(parts, i, ScannedTo(parts, i)) == ScannedTo(parts, |parts|)
    decreases |parts| - i
  {
    if i < |parts| {
      ScanStep(parts, i, ScannedTo(parts, i));
      ScanFrom(parts, i + 1);
    }
  }

  /**
   * A path of other than three segments: the device id is the first segment
   * with every later non-UUID segment appended after a "/", in order; the
   * service id is set only by a UUID second-to-last, the characteristic id
   * only by a UUID last, and every other UUID is dropped.
   */
  lemma ScanMeaning(path: string)
    requires |Split(path, "/")| != 3
    ensures var parts := Split(path, "/"); var n := |parts|;
      SplitPath(path) == GattAddress(
        Join([parts[0]] + NonUuid(parts[1..]), "/"),
        if n >= 3 && IsUuid(parts[n - 2]) then Some(parts[n - 2]) else None,
        if n >= 2 && IsUuid(parts[n - 1]) then Some(parts[n - 1]) else None)
  {
    var parts := Split(path, "/");
    assert parts[1..1] == [];
    assert Join([parts[0]] + [], "/") == parts[0];
    assert ScannedTo(parts, 1) == GattAddress(parts[0], None, None);
    ScanFrom(parts, 1);
    assert parts[1..|parts|] == parts[1..];
  }

  /** Three pieces free of "/" joined by "/" split back into the three. */
  lemma SplitThree(a: string, b: string, c: string)
    requires Free3(a) && Free3(b) && Free3(c)
    ensures Split(a + "/" + b + "/" + c, "/") == [a, b, c]
  {
    assert a + "/" + b + "/" + c == a + ['/'] + (b + ['/'] + c);
    SplitAfterFree(a, '/', b + ['/'] + c);
    SplitAfterFree(b, '/', c);
    SplitFree(c, '/');
  }

  /** A path of exactly three segments is device, service and characteristic, UUIDs or not. */
  lemma ThreeSegments(device: string, service: string, characteristic: string)
    requires Free3(device) && Free3(service) && Free3(characteristic)
    ensures SplitPath(device + "/" + service + "/" + characteristic) == GattAddress(device, Some(service), Some(characteristic))
  {
    SplitThree(device, service, characteristic);
  }

  /** `s` has no "/". */
  predicate Free3(s: string)
  {
    forall i :: 0 <= i < |s| ==> s[i] != '/'
  }

  // ---------------------------------------------------------------------------
  // The two copies of `deconstructForm`.

  /**
   * A form of a property or event: its `href`, its `op` (a single operation
   * is a one-element list) and its `sbo:methodName`.
   */
  datatype Form = Form(href: string, op: Option<seq<string>>, methodName: Option<string>)

  /** The record `deconstructForm` returns; `path` is set by the client's copy only. */
  datatype Deconstructed = Deconstructed(path: Option<string>, address: GattAddress, operation: string, bleOperation: Option<string>)

  /** The form's operation printed as text, or "" when it has none; a list prints as its entries joined by ",". */
  function OperationText(op: Option<seq<string>>): string
  {
    if op.None? then "" else Join(op.value, ",")
  }

  /**
   * BleSelector's copy, which `createBleThing` calls with the whole `forms`
   * array: the href is that of the first form, split as it is, and `op` and
   * `sbo:methodName`, read off the array, are undefined.
   */
  function SelectorDeconstruct(forms: seq<Form>): (r: Result<Deconstructed, Error>)
    ensures r.Err? <==> |forms| == 0
    ensures r.Err? ==> r.error == MissingForm
    ensures r.Ok? ==> r.value.operation == "" && r.value.bleOperation.None? && r.value.path.None?
    ensures r.Ok? ==> r.value.address == SplitPath(forms[0].href)
  {
    if |forms| == 0 then Err(MissingForm)
    else Ok(Deconstructed(None, SplitPath(forms[0].href), "", None))
  }

  /** The client's path: the text between the first "//" of the href and the next one. */
  function ClientPath(href: string): (r: Option<string>)
    ensures r.None? <==> |Split(href, "//")| < 2
    ensures r.Some? ==> r.value == Split(href, "//")[1]
  {
    var pieces := Split(href, "//");
    if |pieces| < 2 then None else Some(pieces[1])
  }

  /** Bluetooth-client's copy: the path is split as above, and `op` and `sbo:methodName` are read off the form. */
  function ClientDeconstruct(form: Form): (r: Result<Deconstructed, Error>)
    ensures r.Err? <==> ClientPath(form.href).None?
    ensures r.Err? ==> r.error == MissingPath
    ensures r.Ok? ==> r.value.path == ClientPath(form.href) && r.value.address == SplitPath(r.value.path.value)
    ensures r.Ok? ==> r.value.operation == OperationText(form.op) && r.value.bleOperation == form.methodName
  {
    match ClientPath(form.href)
    case None => Err(MissingPath)
    case Some(path) => Ok(Deconstructed(Some(path), SplitPath(path), OperationText(form.op), form.methodName))
  }

  /** "//" does not occur in `s`. */
  predicate NoDoubleSlash(s: string)
  {
    forall j :: 0 <= j < |s| ==> !OccursAt(s, "//", j)
  }

  /** The client's path of `scheme//path` is `path`, for a scheme without "/" and a path without "//". */
  lemma ClientPathOf(scheme: string, path: string)
    requires Free3(scheme) && NoDoubleSlash(path)
    ensures ClientPath(scheme + "//" + path) == Some(path)
  {
    var href := scheme + "//" + path;
    var k := |scheme|;
    assert href[k..k + 2] == "//";
    assert OccursAt(href, "//", k);
    var found := FindFrom(href, "//", 0);
    forall j | 0 <= j < k ensures !OccursAt(href, "//", j) {
      assert href[j] == scheme[j] && href[j..j + 2][0] == href[j];
    }
    assert found == k;
    assert href[..k] == scheme && href[k + 2..] == path;
    var rest := FindFrom(path, "//", 0);
    assert rest == -1;
    assert Split(path, "//") == [path];
    assert Split(href, "//") == [scheme] + [path];
  }

  /**
   * The two copies agree on the service and characteristic of
   * `scheme//device/service/characteristic` with UUIDs for the two ids; the
   * client's device id is the device, while BleSelector, which splits the
   * whole href, keeps the scheme in it.
   */
  lemma CopiesAgree(scheme: string, device: string, service: string, characteristic: string, op: Option<seq<string>>, methodName: Option<string>)
    requires |scheme| > 0 && Free3(scheme) && Free3(device) && !IsUuid(device) && IsUuid(service) && IsUuid(characteristic)
    ensures var href := scheme + "//" + device + "/" + service + "/" + characteristic;
      && ClientDeconstruct(Form(href, op, methodName)).Ok?
      && ClientDeconstruct(Form(href, op, methodName)).value.address == GattAddress(device, Some(service), Some(characteristic))
      && SelectorDeconstruct([Form(href, op, methodName)]).Ok?
      && SelectorDeconstruct([Form(href, op, methodName)]).value.address == GattAddress(scheme + "//" + device, Some(service), Some(characteristic))
  {
    UuidLowerCase(service);
    UuidLowerCase(characteristic);
    var path := device + "/" + service + "/" + characteristic;
    NoSlashPair(device, service, characteristic);
    assert scheme + "//" + device + "/" + service + "/" + characteristic == scheme + "//" + path;
    ClientPathOf(scheme, path);
    ThreeSegments(device, service, characteristic);
    SelectorSplit(scheme, device, service, characteristic);
  }

  /** Three pieces free of "/", the middle one non-empty, joined by "/" have no "//". */
  lemma NoSlashPair(a: string, b: string, c: string)
    requires Free3(a) && Free3(b) && Free3(c) && |b| > 0
    ensures NoDoubleSlash(a + "/" + b + "/" + c)
  {
    var s := a + "/" + b + "/" + c;
    forall j | 0 <= j < |s| ensures !OccursAt(s, "//", j) {
      if OccursAt(s, "//", j) {
        assert s[j..j + 2] == "//";
        assert s[j] == '/' && s[j + 1] == '/';
        Slashes(a, b, c, j);
        Slashes(a, b, c, j + 1);
        assert false;
      }
    }
  }

  /** The only "/" in `a/b/c`, for pieces free of "/", are the two separators. */
  lemma Slashes(a: string, b: string, c: string, i: int)
    requires Free3(a) && Free3(b) && Free3(c)
    requires 0 <= i < |a + "/" + b + "/" + c| && (a + "/" + b + "/" + c)[i] == '/'
    ensures i == |a| || i == |a| + 1 + |b|
  {
  }

  lemma SelectorSplit(scheme: string, device: string, service: string, characteristic: string)
    requires |scheme| > 0 && Free3(scheme) && Free3(device) && !IsUuid(device) && IsUuid(service) && IsUuid(characteristic)
    ensures SplitPath(scheme + "//" + device + "/" + service + "/" + characteristic)
      == GattAddress(scheme + "//" + device, Some(service), Some(characteristic))
  {
    UuidLowerCase(service);
    UuidLowerCase(characteristic);
    var href := scheme + "//" + device + "/" + service + "/" + characteristic;
    var parts := [scheme, "", device, service, characteristic];
    SelectorParts(scheme, device, service, characteristic);
    ScanMeaning(href);
    assert NonUuid(parts[1..]) == ["", device] by {
      assert !IsUuid("") && !IsUuid(device);
      assert parts[1..] == ["", device, service, characteristic];
      assert NonUuid([characteristic]) == [];
      assert NonUuid([service, characteristic]) == [];
    }
    assert [scheme] + NonUuid(parts[1..]) == [scheme, "", device];
    assert [scheme, "", device][1..] == ["", device] && ["", device][1..] == [device];
    assert Join([device], "/") == device;
    assert Join(["", device], "/") == "" + "/" + device;
    assert Join([scheme, "", device], "/") == scheme + "/" + ("" + "/" + device);
  }

  lemma SelectorParts(scheme: string, device: string, service: string, characteristic: string)
    requires Free3(scheme) && Free3(device) && Free3(service) && Free3(characteristic)
    ensures Split(scheme + "//" + device + "/" + service + "/" + characteristic, "/") == [scheme, "", device, service, characteristic]
  {
    var tail := device + "/" + service + "/" + characteristic;
    assert scheme + "//" + device + "/" + service + "/" + characteristic == scheme + ['/'] + ("" + ['/'] + tail);
    SplitAfterFree(scheme, '/', "" + ['/'] + tail);
    SplitAfterFree("", '/', tail);
    SplitThree(device, service, characteristic);
  }

  // ---------------------------------------------------------------------------
  // Writing and subscribing (Bluetooth-client.ts, lines 66-113 and 141-153).

  /** `writeValueWithoutResponse` or `writeValueWithResponse`. */
  datatype WriteMode = WithoutResponse | WithResponse

  /** A write the client would issue: to which characteristic, how, and which bytes. */
  datatype Write = Write(address: GattAddress, mode: WriteMode, payload: seq<int>)

  /** The `switch` on `sbo:methodName`. */
  function WriteModeOf(bleOperation: Option<string>): (r: Result<WriteMode, Error>)
    ensures r.Ok? <==> bleOperation == Some("sbo:write-without-response") || bleOperation == Some("sbo:write")
    ensures r.Err? ==> r.error == UnknownWriteOperation
    ensures r == Ok(WithResponse) <==> bleOperation == Some("sbo:write")
  {
    if bleOperation == Some("sbo:write-without-response") then Ok(WithoutResponse)
    else if bleOperation == Some("sbo:write") then Ok(WithResponse)
    else Err(UnknownWriteOperation)
  }

  /**
   * `writeResource` without its I/O: the form is taken apart first, absent
   * content is the one byte 0, and the method name chooses the write.
   */
  function WriteRequest(form: Form, content: Option<seq<int>>): (r: Result<Write, Error>)
    ensures r.Ok? ==> r.value.payload == (if content.None? then [0] else content.value)
    ensures ClientPath(form.href).None? ==> r == Err(MissingPath)
    ensures ClientPath(form.href).Some? ==> (r.Ok? <==> WriteModeOf(form.methodName).Ok?)
    ensures r.Ok? ==> r.value.address == SplitPath(ClientPath(form.href).value)
  {
    var parts :- ClientDeconstruct(form);
    var payload := if content.None? then [0] else content.value;
    var mode :- WriteModeOf(parts.bleOperation);
    Ok(Write(parts.address, mode, payload))
  }

  /** `subscribeResource` without its I/O: only "sbo:notify" and "sbo:subscribe" subscribe. */
  function SubscribeRequest(form: Form): (r: Result<GattAddress, Error>)
    ensures ClientPath(form.href).None? ==> r == Err(MissingPath)
    ensures ClientPath(form.href).Some? ==>
      (r.Ok? <==> form.methodName == Some("sbo:notify") || form.methodName == Some("sbo:subscribe"))
    ensures ClientPath(form.href).Some? && r.Err? ==> r.error == UnsupportedSubscribeOperation
    ensures r.Ok? ==> r == Ok(SplitPath(ClientPath(form.href).value))
  {
    var parts :- ClientDeconstruct(form);
    if parts.bleOperation != Some("sbo:notify") && parts.bleOperation != Some("sbo:subscribe") then Err(UnsupportedSubscribeOperation)
    else Ok(parts.address)
  }
}

=== FILE: octetstream.dfy ===
/**
 * The octet-stream content codec's decoder (`bytesToValue` of
 * app/screens/Things/octetstream-codec.ts): a byte buffer and a data schema
 * become a value.  The schema's `type`, `bdo:bitOffset` and `bdo:bitLength`
 * and the content-type parameters `byteSeq`, `signed` and `charset` select
 * the bit window, byte order, signedness and interpretation.
 *
 * The decoder is written twice over one definition, told apart by `Reading`:
 * `AsWritten` follows the source, and `Corrected` repairs the two defects
 * recorded in the README (a negative bit offset that skips the window check,
 * and a byte swap that is applied again for every property of an object).
 */
module OctetStream {
  import opened Wrappers
  import opened Bytes
  import opened Errors
  import opened Text
  import opened Schema
  import Buffer
  import BitWindow
  import Utf8

  datatype Reading = AsWritten | Corrected

  /** The content-type parameters the decoder consults; `None` is an absent parameter. */
  datatype Parameters = Parameters(byteSeq: Option<string>, signed: Option<string>, charset: Option<string>)

  const NoParameters := Parameters(None, None, None)

  /** What the decoder settles on before it touches the bytes. */
  datatype Layout = Layout(bigEndian: bool, signed: bool, offset: int, dataLength: int, dataType: string)

  /** A decoded value and the state of the caller's buffer afterwards (`swap16` works in place). */
  datatype Decoded = Decoded(value: Value, buffer: seq<int>)

  /** Decoded object entries and the state of the shared buffer afterwards. */
  datatype DecodedFields = DecodedFields(fields: seq<Field>, buffer: seq<int>)

  // ---------------------------------------------------------------------------
  // Type names.  Section 3.3.3 of RFC 8927 names the sized integer and float
  // types; the decoder recognises them with two regular expressions.

  /** `byteSeq` mentions "little": the only way to select little-endian order. */
  predicate LittleEndianRequested(p: Parameters)
  {
    p.byteSeq.Some? && Contains(p.byteSeq.value, "little")
  }

  /** `byteSeq` mentions "BYTE_SWAP". */
  predicate SwapRequested(p: Parameters)
  {
    p.byteSeq.Some? && Contains(p.byteSeq.value, "BYTE_SWAP")
  }

  /**
   * The first regular expression, which guards the parse: `short`, `float` or
   * `byte` anywhere, or a name ending in `int`, `int8`, `int16` or `int32`.
   */
  predicate TypeTest(lower: string)
  {
    Contains(lower, "short") || Contains(lower, "float") || Contains(lower, "byte")
    || EndsWith(lower, "int") || EndsWith(lower, "int8") || EndsWith(lower, "int16") || EndsWith(lower, "int32")
  }

  /** The parse of a sized type name: the `u` prefix, the keyword, and the width digits if any. */
  datatype TypeSem = TypeSem(unsigned: bool, keyword: string, width: Option<int>)

  const Keywords: seq<string> := ["short", "int", "float", "byte"]

  /** The keyword the second expression matches at `p`, trying the alternatives in order. */
  function KeywordAt(s: string, p: int): (r: Option<string>)
    ensures r.Some? ==> r.value in Keywords && OccursAt(s, r.value, p)
    ensures r.None? ==> forall k :: 0 <= k < |Keywords| ==> !OccursAt(s, Keywords[k], p)
  {
    if OccursAt(s, "short", p) then Some("short")
    else if OccursAt(s, "int", p) then Some("int")
    else if OccursAt(s, "float", p) then Some("float")
    else if OccursAt(s, "byte", p) then Some("byte")
    else None
  }

  /** The optional width group `(8|16|32|64)?` at `q`, tried in order. */
  function WidthAt(s: string, q: int): (r: Option<int>)
    ensures r.Some? ==> r.value in {8, 16, 32, 64}
  {
    if OccursAt(s, "8", q) then Some(8)
    else if OccursAt(s, "16", q) then Some(16)
    else if OccursAt(s, "32", q) then Some(32)
    else if OccursAt(s, "64", q) then Some(64)
    else None
  }

  /** The match of `(u)?(short|int|float|byte)(8|16|32|64)?` that starts at `p`, if any. */
  function MatchAt(s: string, p: nat): Option<TypeSem>
  {
    if p < |s| && s[p] == 'u' && KeywordAt(s, p + 1).Some? then
      var k := KeywordAt(s, p + 1).value;
      Some(TypeSem(true, k, WidthAt(s, p + 1 + |k|)))
    else if KeywordAt(s, p).Some? then
      var k := KeywordAt(s, p).value;
      Some(TypeSem(false, k, WidthAt(s, p + |k|)))
    else None
  }

  /** `exec`: the leftmost match at or after `p`. */
  function ParseTypeFrom(s: string, p: nat): (r: Option<TypeSem>)
    ensures r.Some? ==> exists q :: p <= q <= |s| && MatchAt(s, q) == r && forall j :: p <= j < q ==> MatchAt(s, j).None?
    ensures r.None? ==> forall q :: p <= q <= |s| ==> MatchAt(s, q).None?
    decreases |s| - p
  {
    if p > |s| then None
    else if MatchAt(s, p).Some? then MatchAt(s, p)
    else ParseTypeFrom(s, p + 1)
  }

  function ParseType(lower: string): Option<TypeSem>
  {
    ParseTypeFrom(lower, 0)
  }

  /** A keyword occurring anywhere makes the parse succeed. */
  lemma KeywordParses(s: string, kw: string, q: int)
    requires kw in Keywords && OccursAt(s, kw, q)
    ensures ParseType(s).Some?
  {
    assert KeywordAt(s, q).Some?;
    assert MatchAt(s, q).Some?;
  }

  /** A name ending in `int` followed by `suffix` holds the keyword `int`. */
  lemma EndsWithInt(s: string, suffix: string)
    requires EndsWith(s, "int" + suffix)
    ensures OccursAt(s, "int", |s| - |suffix| - 3)
  {
    var q := |s| - |suffix| - 3;
    assert s[q..q + 3] == s[q..][..3];
  }

  /** A keyword contained in the name makes the parse succeed. */
  lemma ContainedKeywordParses(s: string, kw: string)
    requires kw in Keywords && Contains(s, kw)
    ensures ParseType(s).Some?
  {
    ContainsMeans(s, kw);
    var q :| OccursAt(s, kw, q);
    KeywordParses(s, kw, q);
  }

  /** A name ending in `int` and a width suffix makes the parse succeed. */
  lemma EndingIntParses(s: string, suffix: string)
    requires EndsWith(s, "int" + suffix)
    ensures ParseType(s).Some?
  {
    EndsWithInt(s, suffix);
    KeywordParses(s, "int", |s| - |suffix| - 3);
  }

  /** Whenever the guard passes, the parse finds a match, so the source's `if (typeSem)` is always taken. */
  lemma GuardedTypesParse(lower: string)
    requires TypeTest(lower)
    ensures ParseType(lower).Some?
  {
    if Contains(lower, "short") || Contains(lower, "float") || Contains(lower, "byte") {
      ContainedTypesParse(lower);
    } else {
      EndingTypesParse(lower);
    }
  }

  lemma ContainedTypesParse(lower: string)
    requires Contains(lower, "short") || Contains(lower, "float") || Contains(lower, "byte")
    ensures ParseType(lower).Some?
  {
    if Contains(lower, "short") {
      ContainedKeywordParses(lower, "short");
    } else if Contains(lower, "float") {
      ContainedKeywordParses(lower, "float");
    } else {
      ContainedKeywordParses(lower, "byte");
    }
  }

  lemma EndingTypesParse(lower: string)
    requires EndsWith(lower, "int") || EndsWith(lower, "int8") || EndsWith(lower, "int16") || EndsWith(lower, "int32")
    ensures ParseType(lower).Some?
  {
    if EndsWith(lower, "int") {
      EndingIntParses(lower, "");
    } else if EndsWith(lower, "int8") {
      EndingIntParses(lower, "8");
    } else if EndsWith(lower, "int16") {
      EndingIntParses(lower, "16");
    } else {
      EndingIntParses(lower, "32");
    }
  }

  /** A string ending in `pat` ends in its last two characters. */
  lemma EndsWithLast(s: string, pat: string)
    requires |pat| >= 2
    ensures EndsWith(s, pat) ==> s[|s| - 1] == pat[|pat| - 1] && s[|s| - 2] == pat[|pat| - 2]
  {
    if EndsWith(s, pat) {
      var k := |s| - |pat|;
      assert s[|s| - 1] == s[k..][|pat| - 1];
      assert s[|s| - 2] == s[k..][|pat| - 2];
    }
  }

  /** A name whose last characters are not `nt`, `8`, `16` or `32` ends in no integer keyword. */
  lemma EndsNotInt(s: string)
    requires |s| >= 2 && !(s[|s| - 1] in "862") && !(s[|s| - 2] == 'n' && s[|s| - 1] == 't')
    ensures !EndsWith(s, "int") && !EndsWith(s, "int8") && !EndsWith(s, "int16") && !EndsWith(s, "int32")
  {
    EndsWithLast(s, "int");
    EndsWithLast(s, "int8");
    EndsWithLast(s, "int16");
    EndsWithLast(s, "int32");
  }

  /** A name that holds none of `sh`, `fl`, `by` and ends in no integer keyword fails the guard. */
  lemma Unsized(s: string)
    requires |s| >= 2 && !(s[|s| - 1] in "862") && !(s[|s| - 2] == 'n' && s[|s| - 1] == 't')
    requires forall j :: 0 <= j < |s| - 1 ==>
      !(s[j] == 's' && s[j + 1] == 'h') && !(s[j] == 'f' && s[j + 1] == 'l') && !(s[j] == 'b' && s[j + 1] == 'y')
    ensures !TypeTest(s)
  {
    AbsentPair(s, "short");
    AbsentPair(s, "float");
    AbsentPair(s, "byte");
    EndsNotInt(s);
  }

  // ---------------------------------------------------------------------------
  // Settling the layout (octetstream-codec.ts, lines 10-63).

  /** Defaults, the type-name parse and the buffer-length check. */
  function Resolve(mode: Reading, bytes: seq<int>, schema: DataSchema, params: Parameters): (r: Result<Layout, Error>)
    ensures schema.typ.None? || schema.typ == Some("") ==> r == Err(MissingType)
    ensures r.Ok? ==> r.value.bigEndian == !LittleEndianRequested(params)
    ensures r.Ok? && r.value.signed ==> params.signed != Some("false")
    ensures r.Ok? && !(TypeTest(ToLowerAscii(schema.typ.value)) && ParseType(ToLowerAscii(schema.typ.value)).Some?) ==>
      r.value.signed == (params.signed != Some("false"))
    ensures r.Ok? ==> r.value.offset == schema.bitOffset.GetOr(0)
    ensures r.Ok? ==> r.value.dataLength == schema.bitLength.GetOr(8 * |bytes|)
    ensures r.Ok? ==> r.value.dataLength <= 8 * |bytes| - r.value.offset
    ensures r.Ok? && mode.Corrected? ==> 0 <= r.value.offset
    ensures r.Ok? && r.value.dataType == "object" ==> schema.typ == Some("object")
  {
    var bigEndian := !LittleEndianRequested(params);
    var signed := params.signed != Some("false");
    var offset := schema.bitOffset.GetOr(0);
    var dataLength := schema.bitLength.GetOr(8 * |bytes|);
    if schema.typ.None? || schema.typ.value == "" then Err(MissingType)
    else
      var t := schema.typ.value;
      var lower := ToLowerAscii(t);
      if TypeTest(lower) && ParseType(lower).Some? then
        var sem := ParseType(lower).value;
        if sem.unsigned && params.signed == Some("true") then Err(UnsignedTypeSigned)
        else if sem.width != Some(dataLength) then Err(TypeWidthMismatch(dataLength))
        else CheckLength(mode, bytes, Layout(bigEndian, signed && !sem.unsigned, offset, dataLength, sem.keyword))
      else CheckLength(mode, bytes, Layout(bigEndian, signed, offset, dataLength, t))
  }

  /**
   * The window must end inside the buffer.  As written, a negative offset
   * enlarges the room rather than being rejected; the corrected reading
   * rejects it the way the bit reader would.
   */
  function CheckLength(mode: Reading, bytes: seq<int>, layout: Layout): (r: Result<Layout, Error>)
    ensures r.Ok? ==> r.value == layout
    ensures r.Ok? <==> layout.dataLength <= 8 * |bytes| - layout.offset && (mode.AsWritten? || 0 <= layout.offset)
  {
    if layout.dataLength > 8 * |bytes| - layout.offset then Err(BitLengthExceedsBuffer(layout.dataLength))
    else if mode.Corrected? && layout.offset < 0 then Err(NegativeBitOffset)
    else Ok(layout)
  }

  /** `bytes.swap16()` when `byteSeq` asks for it and the buffer has more than one byte. */
  function ByteSwap(bytes: seq<int>, params: Parameters): (r: Result<seq<int>, Error>)
    ensures r.Ok? ==> |r.value| == |bytes|
    ensures IsBytes(bytes) && r.Ok? ==> IsBytes(r.value)
    ensures !SwapRequested(params) ==> r == Ok(bytes)
  {
    if SwapRequested(params) && |bytes| > 1 then Buffer.Swap16(bytes) else Ok(bytes)
  }

  // ---------------------------------------------------------------------------
  // Decoding (octetstream-codec.ts, lines 65-197).

  /**
   * `bytesToValue(bytes, schema, parameters)`.  `nested` is set for the
   * properties of an object, which the corrected reading does not swap again.
   */
  function Decode(mode: Reading, nested: bool, bytes: seq<int>, schema: DataSchema, params: Parameters, foreign: Foreign): (r: Result<Decoded, Error>)
    requires IsBytes(bytes)
    ensures schema.typ.None? || schema.typ == Some("") ==> r == Err(MissingType)
    ensures r.Ok? ==> |r.value.buffer| == |bytes| && IsBytes(r.value.buffer)
    ensures r.Ok? && !SwapRequested(params) ==> r.value.buffer == bytes
    ensures r.Ok? && mode.Corrected? && nested ==> r.value.buffer == bytes
    ensures r.Err? ==> r.error != NotObjectSchema
    decreases schema, 3
  {
    var layout :- Resolve(mode, bytes, schema, params);
    var swapped :- if mode.Corrected? && nested then Ok(bytes) else ByteSwap(bytes, params);
    if layout.dataLength < 8 * |swapped| then
      var window :- BitWindow.Extract(swapped, layout.offset, layout.dataLength);
      var d :- Dispatch(mode, window, 8 * |window|, layout, schema, params, foreign);
      Ok(Decoded(d.value, swapped))
    else
      Dispatch(mode, swapped, layout.dataLength, layout, schema, params, foreign)
  }

  /** The source's decoder. */
  function BytesToValueAsWritten(bytes: seq<int>, schema: DataSchema, params: Parameters, foreign: Foreign): (r: Result<Decoded, Error>)
    requires IsBytes(bytes)
    ensures r.Ok? && !SwapRequested(params) ==> r.value.buffer == bytes
  {
    Decode(AsWritten, false, bytes, schema, params, foreign)
  }

  /** The decoder with both defects repaired; the window it reads always lies inside the buffer. */
  function BytesToValue(bytes: seq<int>, schema: DataSchema, params: Parameters, foreign: Foreign): (r: Result<Decoded, Error>)
    requires IsBytes(bytes)
    ensures r.Ok? ==> 0 <= schema.bitOffset.GetOr(0) && 0 <= schema.bitLength.GetOr(8 * |bytes|)
    ensures r.Ok? ==> schema.bitOffset.GetOr(0) + schema.bitLength.GetOr(8 * |bytes|) <= 8 * |bytes|
  {
    var r := Decode(Corrected, false, bytes, schema, params, foreign);
    if r.Ok? then
      WindowChecked(false, bytes, schema, params, foreign);
      r
    else r
  }

  /** In the corrected reading a successful decode had its bit window inside the buffer. */
  lemma WindowChecked(nested: bool, bytes: seq<int>, schema: DataSchema, params: Parameters, foreign: Foreign)
    requires IsBytes(bytes)
    requires Decode(Corrected, nested, bytes, schema, params, foreign).Ok?
    ensures 0 <= schema.bitOffset.GetOr(0) && 0 <= schema.bitLength.GetOr(8 * |bytes|)
    ensures schema.bitOffset.GetOr(0) + schema.bitLength.GetOr(8 * |bytes|) <= 8 * |bytes|
  {
    var layout := Resolve(Corrected, bytes, schema, params).value;
  }

  /** The switch on the data type, given the buffer it reads and its bit length. */
  function Dispatch(mode: Reading, bytes: seq<int>, dataLength: int, layout: Layout, schema: DataSchema, params: Parameters, foreign: Foreign): (r: Result<Decoded, Error>)
    requires IsBytes(bytes)
    requires layout.dataType == "object" ==> schema.typ == Some("object")
    ensures r.Ok? ==> |r.value.buffer| == |bytes| && IsBytes(r.value.buffer)
    ensures r.Ok? && !SwapRequested(params) ==> r.value.buffer == bytes
    ensures r.Ok? && mode.Corrected? ==> r.value.buffer == bytes
    ensures r.Err? ==> r.error != NotObjectSchema
    decreases schema, 2
  {
    match KindOf(layout.dataType)
    case BooleanKind => Ok(Decoded(Bool(AnyNonZero(bytes)), bytes))
    case IntegerKind =>
      var v :- IntegerToValue(bytes, dataLength, layout.bigEndian, layout.signed);
      Ok(Decoded(if v.Some? then Int(v.value) else Undefined, bytes))
    case NumberKind =>
      var v :- NumberToValue(bytes, dataLength, layout.bigEndian);
      Ok(Decoded(v, bytes))
    case StringKind =>
      var s :- DecodeText(params.charset, bytes, foreign);
      Ok(Decoded(Str(s), bytes))
    case ObjectKind =>
      if schema.properties.Absent? then Err(MissingObjectSchema)
      else ObjectToValue(mode, bytes, schema, params, foreign)
    case NullKind => Ok(Decoded(Null, bytes))
    case OtherKind => Err(UnhandledType(layout.dataType))
  }

  /** The branches of the switch on the data type. */
  datatype Kind = BooleanKind | IntegerKind | NumberKind | StringKind | ObjectKind | NullKind | OtherKind

  /** The branch a data type selects; "array" and every other name are unhandled. */
  function KindOf(dataType: string): (k: Kind)
    ensures k == ObjectKind <==> dataType == "object"
  {
    if dataType == "boolean" then BooleanKind
    else if dataType in {"byte", "short", "int", "integer"} then IntegerKind
    else if dataType in {"float", "double", "number"} then NumberKind
    else if dataType == "string" then StringKind
    else if dataType == "object" then ObjectKind
    else if dataType == "null" then NullKind
    else OtherKind
  }

  /** Some byte of the buffer is not zero. */
  function AnyNonZero(bytes: seq<int>): (r: bool)
    ensures r <==> exists i :: 0 <= i < |bytes| && bytes[i] != 0
  {
    if |bytes| == 0 then false else bytes[0] != 0 || AnyNonZero(bytes[1..])
  }

  /**
   * The field width in bytes `integerToValue` reads for a bit length: the
   * library truncates `dataLength / 8` toward zero, so a bit length between
   * -8 and 8 (exclusive) reads zero bytes.
   */
  function FieldWidth(dataLength: int): (w: int)
    ensures dataLength >= 0 ==> w == dataLength / 8
    ensures -8 < dataLength < 8 <==> w == 0
    ensures w >= 0 <==> dataLength > -8
  {
    if dataLength == 8 then 1
    else if dataLength == 16 then 2
    else if dataLength == 32 then 4
    else if dataLength >= 0 then dataLength / 8
    else -((-dataLength) / 8)
  }

  /**
   * `integerToValue`: the field at the start of the buffer, FieldWidth bytes
   * wide, `None` for `undefined`.  A single byte is read without regard to
   * byte order.
   */
  function IntegerToValue(bytes: seq<int>, dataLength: int, bigEndian: bool, signed: bool): (r: Result<Option<int>, Error>)
    requires IsBytes(bytes)
    ensures r.Ok? <==> 0 <= FieldWidth(dataLength) <= |bytes|
    ensures r.Err? ==> r.error == ReadOutOfRange
    ensures r.Ok? && r.value.None? <==> FieldWidth(dataLength) == 0 && (|bytes| == 0 || bigEndian)
    ensures r.Ok? && FieldWidth(dataLength) >= 1 ==> r.value.Some?
    ensures r.Ok? && FieldWidth(dataLength) >= 1 && !signed ==> 0 <= r.value.value < Pow256(FieldWidth(dataLength))
    ensures r.Ok? && FieldWidth(dataLength) >= 1 && signed ==>
      -(Pow2(8 * FieldWidth(dataLength) - 1) as int) <= r.value.value < Pow2(8 * FieldWidth(dataLength) - 1)
    ensures r.Ok? && FieldWidth(dataLength) >= 1 ==>
      r.value.value % Pow256(FieldWidth(dataLength)) == Buffer.Unsigned(bytes[..FieldWidth(dataLength)], bigEndian || dataLength == 8)
  {
    var w := FieldWidth(dataLength);
    Buffer.Read(bytes, 0, w, bigEndian || dataLength == 8, signed)
  }

  /**
   * `numberToValue`: half, single and double precision only.  The model keeps
   * the bytes the float would be read from rather than converting them.
   */
  function NumberToValue(bytes: seq<int>, dataLength: int, bigEndian: bool): (r: Result<Value, Error>)
    ensures r.Ok? <==> dataLength in {16, 32, 64} && 8 * |bytes| >= dataLength
    ensures r.Ok? ==> r.value == Float(dataLength, bytes[..dataLength / 8], bigEndian)
    ensures !(dataLength in {16, 32, 64}) ==> r == Err(WrongFloatWidth(dataLength))
  {
    if !(dataLength in {16, 32, 64}) then Err(WrongFloatWidth(dataLength))
    else if 8 * |bytes| < dataLength then Err(ReadOutOfRange)
    else Ok(Float(dataLength, bytes[..dataLength / 8], bigEndian))
  }

  /** The encoding name `buffer.toString(charset)` settles on: utf8 when absent or empty, otherwise lower-cased. */
  function Encoding(charset: Option<string>): string
  {
    if charset.None? || charset.value == "" then "utf8" else ToLowerAscii(charset.value)
  }

  /** `buffer.toString(charset)`: an empty buffer is always "", other charsets go to the library. */
  function DecodeText(charset: Option<string>, bytes: seq<int>, foreign: Foreign): (r: Result<string, Error>)
    requires IsBytes(bytes)
    ensures |bytes| == 0 ==> r == Ok("")
    ensures r.Err? ==> |bytes| > 0 && r.error == UnknownEncoding(Encoding(charset))
    ensures Encoding(charset) in {"utf8", "utf-8", "hex"} ==> r.Ok?
  {
    var enc := Encoding(charset);
    if |bytes| == 0 then Ok("")
    else if enc == "utf8" || enc == "utf-8" then Ok(Utf8.Decode(bytes))
    else if enc == "hex" then Ok(HexEncode(bytes))
    else
      match foreign.charset(enc, bytes)
      case Some(s) => Ok(s)
      case None => Err(UnknownEncoding(enc))
  }

  /** `objectToValue`: every property decoded in turn against the same buffer. */
  function ObjectToValue(mode: Reading, bytes: seq<int>, schema: DataSchema, params: Parameters, foreign: Foreign): (r: Result<Decoded, Error>)
    requires IsBytes(bytes)
    requires schema.properties.Present?
    ensures r.Ok? ==> |r.value.buffer| == |bytes| && IsBytes(r.value.buffer)
    ensures r.Ok? && !SwapRequested(params) ==> r.value.buffer == bytes
    ensures r.Ok? && mode.Corrected? ==> r.value.buffer == bytes
    ensures r.Ok? ==> r.value.value.Obj? && |r.value.value.fields| == |schema.properties.list|
    ensures r.Err? ==> (r.error == NotObjectSchema <==> schema.typ != Some("object"))
    decreases schema, 1
  {
    if schema.typ != Some("object") then Err(NotObjectSchema)
    else
      var d :- DecodeProperties(mode, bytes, schema, 0, params, foreign);
      Ok(Decoded(Obj(d.fields), d.buffer))
  }

  /** Properties `i..` of `schema`, in order, each decoded against the buffer the previous one left. */
  function DecodeProperties(mode: Reading, bytes: seq<int>, schema: DataSchema, i: nat, params: Parameters, foreign: Foreign): (r: Result<DecodedFields, Error>)
    requires IsBytes(bytes)
    requires schema.properties.Present? && i <= |schema.properties.list|
    ensures r.Ok? ==> |r.value.buffer| == |bytes| && IsBytes(r.value.buffer)
    ensures r.Ok? && !SwapRequested(params) ==> r.value.buffer == bytes
    ensures r.Ok? && mode.Corrected? ==> r.value.buffer == bytes
    ensures r.Ok? ==> |r.value.fields| == |schema.properties.list| - i
    ensures r.Err? ==> r.error != NotObjectSchema
    decreases schema, 0, |schema.properties.list| - i
  {
    var props := schema.properties.list;
    if i == |props| then Ok(DecodedFields([], bytes))
    else
      assert props[i] in props;
      var d :- Decode(mode, true, bytes, props[i].schema, params, foreign);
      var rest :- DecodeProperties(mode, d.buffer, schema, i + 1, params, foreign);
      Ok(DecodedFields([Field(props[i].name, d.value)] + rest.fields, rest.buffer))
  }

  /** One step of the property loop: the head entry, then the entries decoded against the buffer it left. */
  lemma PropertiesStep(mode: Reading, bytes: seq<int>, schema: DataSchema, i: nat, params: Parameters, foreign: Foreign)
      returns (d: Decoded, rest: DecodedFields)
    requires IsBytes(bytes)
    requires schema.properties.Present? && i < |schema.properties.list|
    requires DecodeProperties(mode, bytes, schema, i, params, foreign).Ok?
    ensures Decode(mode, true, bytes, schema.properties.list[i].schema, params, foreign) == Ok(d)
    ensures IsBytes(d.buffer) && DecodeProperties(mode, d.buffer, schema, i + 1, params, foreign) == Ok(rest)
    ensures DecodeProperties(mode, bytes, schema, i, params, foreign)
      == Ok(DecodedFields([Field(schema.properties.list[i].name, d.value)] + rest.fields, rest.buffer))
  {
    d := Decode(mode, true, bytes, schema.properties.list[i].schema, params, foreign).value;
    rest := DecodeProperties(mode, d.buffer, schema, i + 1, params, foreign).value;
  }

  /** Entry `k` of `fields` is named after property `i + k`. */
  predicate NamedAfter(fields: seq<Field>, props: seq<Property>, i: nat)
  {
    |fields| == |props| - i && forall k :: 0 <= k < |fields| ==> fields[k].name == props[i + k].name
  }

  /** Each decoded entry carries the name of the property it was decoded for, in property order. */
  lemma {:induction false} FieldsNamed(mode: Reading, bytes: seq<int>, schema: DataSchema, i: nat, params: Parameters, foreign: Foreign)
    requires IsBytes(bytes)
    requires schema.properties.Present? && i <= |schema.properties.list|
    requires DecodeProperties(mode, bytes, schema, i, params, foreign).Ok?
    ensures NamedAfter(DecodeProperties(mode, bytes, schema, i, params, foreign).value.fields, schema.properties.list, i)
    decreases |schema.properties.list| - i
  {
    var props := schema.properties.list;
    if i < |props| {
      var d, rest := PropertiesStep(mode, bytes, schema, i, params, foreign);
      FieldsNamed(mode, d.buffer, schema, i + 1, params, foreign);
      NamedCons([Field(props[i].name, d.value)] + rest.fields, Field(props[i].name, d.value), rest.fields, props, i);
    }
  }

  lemma NamedCons(fields: seq<Field>, f: Field, rest: seq<Field>, props: seq<Property>, i: nat)
    requires fields == [f] + rest
    requires i < |props| && f.name == props[i].name
    requires NamedAfter(rest, props, i + 1)
    ensures NamedAfter(fields, props, i)
  {
    assert forall k :: 1 <= k < |fields| ==> fields[k] == rest[k - 1];
  }

  // ---------------------------------------------------------------------------
  // Properties of the decoder.

  // The type names the decoder handles, and the 64-bit names, are already
  // lower case and fail the guard.

  lemma BooleanName()
    ensures ToLowerAscii("boolean") == "boolean" && !TypeTest("boolean")
  {
    LowerCaseKept("boolean");
    Unsized("boolean");
  }

  lemma IntegerName()
    ensures ToLowerAscii("integer") == "integer" && !TypeTest("integer")
  {
    LowerCaseKept("integer");
    Unsized("integer");
  }

  lemma StringName()
    ensures ToLowerAscii("string") == "string" && !TypeTest("string")
  {
    LowerCaseKept("string");
    Unsized("string");
  }

  lemma ObjectName()
    ensures ToLowerAscii("object") == "object" && !TypeTest("object")
  {
    LowerCaseKept("object");
    Unsized("object");
  }

  lemma Int64Name()
    ensures ToLowerAscii("int64") == "int64" && !TypeTest("int64")
  {
    LowerCaseKept("int64");
    Unsized("int64");
  }

  lemma Uint64Name()
    ensures ToLowerAscii("uint64") == "uint64" && !TypeTest("uint64")
  {
    LowerCaseKept("uint64");
    Unsized("uint64");
  }

  lemma NameKinds()
    ensures KindOf("boolean") == BooleanKind && KindOf("integer") == IntegerKind && KindOf("string") == StringKind
    ensures KindOf("int64") == OtherKind && KindOf("uint64") == OtherKind
    ensures KindOf("null") == NullKind && KindOf("array") == OtherKind
  {
  }

  /**
   * A type name the guard rejects keeps its spelling as the data type, and
   * without a window or a swap the whole buffer goes to the switch.
   */
  lemma PlainDecode(mode: Reading, nested: bool, bytes: seq<int>, t: string, params: Parameters, foreign: Foreign)
    requires IsBytes(bytes) && !SwapRequested(params)
    requires t != "" && t != "object" && !TypeTest(ToLowerAscii(t))
    ensures Decode(mode, nested, bytes, Typed(t), params, foreign)
      == Dispatch(mode, bytes, 8 * |bytes|, Layout(!LittleEndianRequested(params), params.signed != Some("false"), 0, 8 * |bytes|, t), Typed(t), params, foreign)
  {
    assert Resolve(mode, bytes, Typed(t), params)
      == Ok(Layout(!LittleEndianRequested(params), params.signed != Some("false"), 0, 8 * |bytes|, t));
  }

  /** `toString()` with no charset is UTF-8, and with "hex" is base16, empty buffers included. */
  lemma KnownCharsets(bytes: seq<int>, foreign: Foreign)
    requires IsBytes(bytes)
    ensures DecodeText(None, bytes, foreign) == Ok(Utf8.Decode(bytes))
    ensures DecodeText(Some("hex"), bytes, foreign) == Ok(HexEncode(bytes))
  {
    LowerCaseKept("hex");
  }

  /** The parameters that select a byte order and signedness and nothing else. */
  function IntParameters(bigEndian: bool, signed: bool): (p: Parameters)
    ensures LittleEndianRequested(p) <==> !bigEndian
    ensures !SwapRequested(p)
  {
    var p := Parameters(if bigEndian then None else Some("little"), if signed then None else Some("false"), None);
    assert OccursAt("little", "little", 0);
    ContainsMeans("little", "little");
    p
  }

  /** A one-byte field reads the same in either byte order. */
  lemma SingleByteOrder(b: seq<int>, signed: bool)
    requires IsBytes(b) && |b| >= 1
    ensures Buffer.ReadInt(b, 0, 1, true, signed) == Buffer.ReadInt(b, 0, 1, false, signed)
  {
    var field := b[0..1];
    assert BigEndian(field) == BigEndian(field[..0]) * 256 + field[0];
    assert LittleEndian(field) == field[0] + 256 * LittleEndian(field[1..]);
  }

  /**
   * An integer written by the Buffer library at any width, in either byte
   * order and signedness, decodes back to itself under type "integer" when the
   * parameters name the same order and signedness.
   */
  lemma IntegerRoundTrip(mode: Reading, nested: bool, v: int, width: nat, bigEndian: bool, signed: bool, foreign: Foreign)
    requires width >= 1 && Buffer.InRange(v as real, width, signed)
    ensures Buffer.WriteInt(v as real, 0, width, bigEndian, signed).Ok?
    ensures var bytes := Buffer.WriteInt(v as real, 0, width, bigEndian, signed).value;
      Decode(mode, nested, bytes, Typed("integer"), IntParameters(bigEndian, signed), foreign) == Ok(Decoded(Int(v), bytes))
  {
    Buffer.WriteReadInt(v, width, bigEndian, signed);
    var bytes := Buffer.WriteInt(v as real, 0, width, bigEndian, signed).value;
    IntegerName();
    NameKinds();
    PlainDecode(mode, nested, bytes, "integer", IntParameters(bigEndian, signed), foreign);
    ReadWidth(bytes, width, bigEndian, signed, v);
  }

  /**
   * An empty buffer decoded as type "integer" has bit length 0, so the
   * generic read gets width 0 and returns `undefined`.
   */
  lemma EmptyIntegerUndefined(mode: Reading, nested: bool, params: Parameters, foreign: Foreign)
    requires !SwapRequested(params)
    ensures Decode(mode, nested, [], Typed("integer"), params, foreign) == Ok(Decoded(Undefined, []))
  {
    IntegerName();
    NameKinds();
    PlainDecode(mode, nested, [], "integer", params, foreign);
    assert FieldWidth(0) == 0;
    Buffer.EmptyReadUndefined(!LittleEndianRequested(params), params.signed != Some("false"));
  }

  /** A field of `width` bytes that reads as `v` is what IntegerToValue returns for `8 * width` bits. */
  lemma ReadWidth(bytes: seq<int>, width: nat, bigEndian: bool, signed: bool, v: int)
    requires IsBytes(bytes) && width >= 1
    requires Buffer.ReadInt(bytes, 0, width, bigEndian, signed) == Ok(v)
    ensures IntegerToValue(bytes, 8 * width, bigEndian, signed) == Ok(Some(v))
  {
    assert FieldWidth(8 * width) == width;
    if width == 1 {
      SingleByteOrder(bytes, signed);
    }
  }

  /** Type "boolean" is true exactly when some byte of the buffer is non-zero. */
  lemma BooleanMeansNonZero(mode: Reading, nested: bool, bytes: seq<int>, params: Parameters, foreign: Foreign)
    requires IsBytes(bytes) && !SwapRequested(params)
    ensures Decode(mode, nested, bytes, Typed("boolean"), params, foreign)
      == Ok(Decoded(Bool(exists i :: 0 <= i < |bytes| && bytes[i] != 0), bytes))
  {
    BooleanName();
    NameKinds();
    PlainDecode(mode, nested, bytes, "boolean", params, foreign);
  }

  /** Type "string" with no charset decodes the UTF-8 encoding of a string to the string. */
  lemma Utf8TextRoundTrip(mode: Reading, nested: bool, s: string, foreign: Foreign)
    ensures Decode(mode, nested, Utf8.Encode(s), Typed("string"), NoParameters, foreign)
      == Ok(Decoded(Str(s), Utf8.Encode(s)))
  {
    var bytes := Utf8.Encode(s);
    StringName();
    NameKinds();
    PlainDecode(mode, nested, bytes, "string", NoParameters, foreign);
    KnownCharsets(bytes, foreign);
    Utf8.DecodeEncode(s);
    var layout := Layout(!LittleEndianRequested(NoParameters), NoParameters.signed != Some("false"), 0, 8 * |bytes|, "string");
    DispatchString(mode, bytes, 8 * |bytes|, layout, Typed("string"), NoParameters, foreign, s);
  }

  /** Type "string" with charset "hex" yields text that base16-decodes to the buffer. */
  lemma HexTextRoundTrip(mode: Reading, nested: bool, bytes: seq<int>, foreign: Foreign)
    requires IsBytes(bytes)
    ensures var r := Decode(mode, nested, bytes, Typed("string"), Parameters(None, None, Some("hex")), foreign);
      r.Ok? && r.value.value.Str? && HexDecode(r.value.value.s) == bytes
  {
    var params := Parameters(None, None, Some("hex"));
    StringName();
    NameKinds();
    PlainDecode(mode, nested, bytes, "string", params, foreign);
    KnownCharsets(bytes, foreign);
    HexRoundTrip(bytes);
    var layout := Layout(!LittleEndianRequested(params), params.signed != Some("false"), 0, 8 * |bytes|, "string");
    DispatchString(mode, bytes, 8 * |bytes|, layout, Typed("string"), params, foreign, HexEncode(bytes));
  }

  /** The 64-bit integer names fail the guard and fall through to the error for unknown types. */
  lemma SixtyFourBitUnhandled(mode: Reading, nested: bool, bytes: seq<int>, foreign: Foreign)
    requires IsBytes(bytes)
    ensures Decode(mode, nested, bytes, Typed("int64"), NoParameters, foreign) == Err(UnhandledType("int64"))
    ensures Decode(mode, nested, bytes, Typed("uint64"), NoParameters, foreign) == Err(UnhandledType("uint64"))
  {
    Int64Name();
    Uint64Name();
    NameKinds();
    PlainDecode(mode, nested, bytes, "int64", NoParameters, foreign);
    PlainDecode(mode, nested, bytes, "uint64", NoParameters, foreign);
  }

  lemma NullName()
    ensures ToLowerAscii("null") == "null" && !TypeTest("null")
  {
    LowerCaseKept("null");
    Unsized("null");
  }

  lemma ArrayName()
    ensures ToLowerAscii("array") == "array" && !TypeTest("array")
  {
    LowerCaseKept("array");
    Unsized("array");
  }

  /** Type "null" decodes to null whatever the bytes; type "array" has no decoder. */
  lemma NullAndArray(mode: Reading, nested: bool, bytes: seq<int>, params: Parameters, foreign: Foreign)
    requires IsBytes(bytes) && !SwapRequested(params)
    ensures Decode(mode, nested, bytes, Typed("null"), params, foreign) == Ok(Decoded(Null, bytes))
    ensures Decode(mode, nested, bytes, Typed("array"), params, foreign) == Err(UnhandledType("array"))
  {
    NullName();
    ArrayName();
    NameKinds();
    PlainDecode(mode, nested, bytes, "null", params, foreign);
    PlainDecode(mode, nested, bytes, "array", params, foreign);
  }

  /**
   * With the offset check in place, a bit length that reaches the switch
   * without a window is the whole buffer, so it is a multiple of 8.
   */
  lemma WholeBufferWidth(bytes: seq<int>, schema: DataSchema, params: Parameters, layout: Layout)
    requires Resolve(Corrected, bytes, schema, params) == Ok(layout) && layout.dataLength >= 8 * |bytes|
    ensures layout.dataLength == 8 * |bytes| && layout.dataLength % 8 == 0
  {
    assert 0 <= layout.offset && layout.dataLength <= 8 * |bytes| - layout.offset;
    var n := |bytes|;
    assert layout.dataLength == 8 * n;
    ModUnique(8 * n, 8, n, 0);
  }

  /** The bare keywords are their own lower case, pass the guard and parse with no width. */
  lemma BareKeyword(t: string)
    requires t in {"int", "short", "float", "byte"}
    ensures ToLowerAscii(t) == t && TypeTest(t) && ParseType(t) == Some(TypeSem(false, t, None))
  {
    assert OccursAt(t, t, 0);
    assert EndsWith(t, t);
    ContainsMeans(t, t);
    assert MatchAt(t, 0) == Some(TypeSem(false, t, None));
  }

  /** A bare keyword names no width, so it is always rejected, whatever the bit length. */
  lemma BareKeywordsRejected(mode: Reading, nested: bool, bytes: seq<int>, schema: DataSchema, params: Parameters, foreign: Foreign)
    requires IsBytes(bytes)
    requires schema.typ.Some? && schema.typ.value in {"int", "short", "float", "byte"}
    ensures Decode(mode, nested, bytes, schema, params, foreign) == Err(TypeWidthMismatch(schema.bitLength.GetOr(8 * |bytes|)))
  {
    BareKeyword(schema.typ.value);
    assert Resolve(mode, bytes, schema, params) == Err(TypeWidthMismatch(schema.bitLength.GetOr(8 * |bytes|)));
  }

  /**
   * A sized name decides the data type and width: when decoding proceeds, the
   * bit length is the name's width, and a `u` prefix forces an unsigned read
   * and clashes with `signed=true`.
   */
  lemma SizedTypeName(mode: Reading, bytes: seq<int>, schema: DataSchema, params: Parameters)
    requires schema.typ.Some? && TypeTest(ToLowerAscii(schema.typ.value))
    ensures var sem := ParseType(ToLowerAscii(schema.typ.value));
      var r := Resolve(mode, bytes, schema, params);
      && sem.Some?
      && (sem.value.unsigned && params.signed == Some("true") ==> r == Err(UnsignedTypeSigned))
      && (r.Ok? ==> r.value.dataType == sem.value.keyword && sem.value.width == Some(r.value.dataLength))
      && (r.Ok? && sem.value.unsigned ==> !r.value.signed)
      && (r.Ok? ==> r.value.signed == (params.signed != Some("false") && !sem.value.unsigned))
  {
    GuardedTypesParse(ToLowerAscii(schema.typ.value));
  }

  /** "UInt8" lowers to "uint8", an unsigned 8-bit integer. */
  lemma UInt8Name()
    ensures ToLowerAscii("UInt8") == "uint8" && TypeTest("uint8")
    ensures ParseType("uint8") == Some(TypeSem(true, "int", Some(8)))
  {
    assert EndsWith("uint8", "int8");
    assert KeywordAt("uint8", 1) == Some("int");
    assert MatchAt("uint8", 0) == Some(TypeSem(true, "int", Some(8)));
  }

  /**
   * Without a swap, a settled layout at least as long as the buffer skips the
   * bit reader and hands the buffer itself to the switch.
   */
  lemma DecodeWhole(mode: Reading, nested: bool, bytes: seq<int>, schema: DataSchema, params: Parameters, foreign: Foreign, layout: Layout)
    requires IsBytes(bytes) && !SwapRequested(params)
    requires Resolve(mode, bytes, schema, params) == Ok(layout) && layout.dataLength >= 8 * |bytes|
    ensures Decode(mode, nested, bytes, schema, params, foreign) == Dispatch(mode, bytes, layout.dataLength, layout, schema, params, foreign)
  {
  }

  /** A settled layout at least as long as the (possibly swapped) buffer hands that buffer to the switch. */
  lemma DecodeSwapped(mode: Reading, nested: bool, bytes: seq<int>, schema: DataSchema, params: Parameters, foreign: Foreign,
                      layout: Layout, swapped: seq<int>)
    requires IsBytes(bytes) && Resolve(mode, bytes, schema, params) == Ok(layout)
    requires (if mode.Corrected? && nested then Ok(bytes) else ByteSwap(bytes, params)) == Ok(swapped)
    requires layout.dataLength >= 8 * |swapped|
    ensures IsBytes(swapped)
    ensures Decode(mode, nested, bytes, schema, params, foreign) == Dispatch(mode, swapped, layout.dataLength, layout, schema, params, foreign)
  {
  }

  /** An integer data type goes to `integerToValue` and keeps the buffer. */
  lemma DispatchInteger(mode: Reading, bytes: seq<int>, n: int, layout: Layout, schema: DataSchema, params: Parameters, foreign: Foreign, v: int)
    requires IsBytes(bytes) && KindOf(layout.dataType) == IntegerKind
    requires IntegerToValue(bytes, n, layout.bigEndian, layout.signed) == Ok(Some(v))
    ensures Dispatch(mode, bytes, n, layout, schema, params, foreign) == Ok(Decoded(Int(v), bytes))
  {
  }

  /** A string data type goes to `toString` with the charset and keeps the buffer. */
  lemma DispatchString(mode: Reading, bytes: seq<int>, n: int, layout: Layout, schema: DataSchema, params: Parameters, foreign: Foreign, text: string)
    requires IsBytes(bytes) && KindOf(layout.dataType) == StringKind
    requires DecodeText(params.charset, bytes, foreign) == Ok(text)
    ensures Dispatch(mode, bytes, n, layout, schema, params, foreign) == Ok(Decoded(Str(text), bytes))
  {
  }

  /** The "object" case of the switch decodes the properties in order from the buffer it is given. */
  lemma DispatchObject(mode: Reading, bytes: seq<int>, n: int, layout: Layout, schema: DataSchema, params: Parameters, foreign: Foreign)
    requires IsBytes(bytes) && layout.dataType == "object" && schema.typ == Some("object") && schema.properties.Present?
    ensures var d := DecodeProperties(mode, bytes, schema, 0, params, foreign);
      Dispatch(mode, bytes, n, layout, schema, params, foreign) == if d.Ok? then Ok(Decoded(Obj(d.value.fields), d.value.buffer)) else Err(d.error)
  {
    assert KindOf("object") == ObjectKind;
  }

  /** The decoded properties are the decoded property `i` followed by the rest, decoded from the buffer it leaves. */
  lemma PropertiesCons(mode: Reading, bytes: seq<int>, schema: DataSchema, i: nat, params: Parameters, foreign: Foreign,
                       d: Decoded, rest: DecodedFields)
    requires IsBytes(bytes) && schema.properties.Present? && i < |schema.properties.list|
    requires Decode(mode, true, bytes, schema.properties.list[i].schema, params, foreign) == Ok(d)
    requires DecodeProperties(mode, d.buffer, schema, i + 1, params, foreign) == Ok(rest)
    ensures DecodeProperties(mode, bytes, schema, i, params, foreign)
      == Ok(DecodedFields([Field(schema.properties.list[i].name, d.value)] + rest.fields, rest.buffer))
  {
  }

  /**
   * A settled layout shorter than the (possibly swapped) buffer has its window
   * cut out by the bit reader and decoded on its own; the caller keeps the
   * swapped buffer.
   */
  lemma DecodeWindow(mode: Reading, nested: bool, bytes: seq<int>, schema: DataSchema, params: Parameters, foreign: Foreign,
                     layout: Layout, swapped: seq<int>, window: seq<int>)
    requires IsBytes(bytes) && Resolve(mode, bytes, schema, params) == Ok(layout)
    requires (if mode.Corrected? && nested then Ok(bytes) else ByteSwap(bytes, params)) == Ok(swapped)
    requires layout.dataLength < 8 * |swapped|
    requires BitWindow.Extract(swapped, layout.offset, layout.dataLength) == Ok(window)
    ensures IsBytes(window)
    ensures var d := Dispatch(mode, window, 8 * |window|, layout, schema, params, foreign);
      Decode(mode, nested, bytes, schema, params, foreign) == if d.Ok? then Ok(Decoded(d.value.value, swapped)) else Err(d.error)
  {
  }

  /** "UInt8" over one byte reads the byte unsigned, in either byte order. */
  lemma UnsignedByte(mode: Reading, nested: bool, x: int, bigEndian: bool, foreign: Foreign)
    requires IsByte(x)
    ensures Decode(mode, nested, [x], Typed("UInt8"), IntParameters(bigEndian, true), foreign) == Ok(Decoded(Int(x), [x]))
  {
    UInt8Name();
    var layout := Layout(bigEndian, false, 0, 8, "int");
    assert Resolve(mode, [x], Typed("UInt8"), IntParameters(bigEndian, true)) == Ok(layout);
    DecodeWhole(mode, nested, [x], Typed("UInt8"), IntParameters(bigEndian, true), foreign, layout);
    assert Buffer.ReadInt([x], 0, 1, true, false) == Ok(x) by {
      var field := [x][0..1];
      assert BigEndian(field) == BigEndian(field[..0]) * 256 + field[0];
    }
  }

  /** Reading a whole buffer big-endian is reading its reversal little-endian. */
  lemma ReversedBytesSwapOrder(bytes: seq<int>, signed: bool)
    requires IsBytes(bytes) && |bytes| >= 1
    ensures IsBytes(Reverse(bytes))
      && IntegerToValue(Reverse(bytes), 8 * |bytes|, true, signed) == IntegerToValue(bytes, 8 * |bytes|, false, signed)
  {
    ReverseBytes(bytes);
    var w := |bytes|;
    IntegerIsRead(Reverse(bytes), w, true, signed);
    IntegerIsRead(bytes, w, false, signed);
    if w == 1 {
      assert Reverse(bytes) == bytes;
    } else {
      Buffer.ReadReversed(bytes, signed);
    }
  }

  /** A field of `w` whole bytes is read as `w` bytes from the start, a single byte in either order. */
  lemma IntegerIsRead(bytes: seq<int>, w: int, bigEndian: bool, signed: bool)
    requires IsBytes(bytes) && w >= 1
    ensures var read := Buffer.ReadInt(bytes, 0, w, bigEndian || w == 1, signed);
      IntegerToValue(bytes, 8 * w, bigEndian, signed) == if read.Ok? then Ok(Some(read.value)) else Err(read.error)
  {
    assert FieldWidth(8 * w) == w;
  }

}

=== FILE: patternroundtrip.dfy ===
/**
 * The pattern codec in both directions for one integer variable: a value
 * filled into `prefix{name}suffix` with hex prefix and suffix, written with
 * `format: "hex"`, is read back by the same schema.
 */
module PatternRoundTrip {
  import opened Wrappers
  import opened Bytes
  import opened Errors
  import opened Text
  import opened Schema
  import opened BinaryNumbers
  import opened BinaryPattern
  import opened BinaryData
  import Buffer

  /** A hex-format schema whose pattern is `prefix{name}suffix` and whose one variable is the integer schema `vs`. */
  predicate OneInteger(schema: DataSchema, prefix: string, name: string, suffix: string, vs: DataSchema)
  {
    && schema.pattern == Some(prefix + "{" + name + "}" + suffix)
    && schema.variables == Present([Property(name, vs)])
    && schema.format == Some("hex")
    && IsHexText(prefix) && IsHexText(suffix) && BraceFree(name)
    && vs.typ == Some("integer")
  }

  /** An integer `v` that `vs` writes and reads back unchanged. */
  predicate Representable(vs: DataSchema, v: int)
  {
    && vs.bytelength.Some? && vs.bytelength.value >= 1
    && vs.scale.GetOr(1.0) == 1.0 && vs.offset.GetOr(0) == 0
    && OrderOf(vs.byteOrder) != NoOrder
    && Buffer.InRange(v as real, vs.bytelength.value, vs.signed.GetOr(false))
    && vs.precision.GetOr(2) >= 0 && Abs(v as real) * Pow10(vs.precision.GetOr(2)) as real < ExponentFrom
  }

  lemma HexBraceFree(s: string)
    requires IsHexText(s)
    ensures BraceFree(s)
  {
  }

  lemma HalfEven(n: nat)
    requires n % 2 == 0
    ensures n as real / 2.0 == (n / 2) as real
  {
  }

  lemma OneRendered(prefix: string, name: string, suffix: string)
    ensures Render([prefix, suffix], [name]) == prefix + "{" + name + "}" + suffix
  {
    assert [prefix, suffix][1..] == [suffix];
    assert RenderRest([suffix], [name]) == "{" + name + "}" + suffix + RenderRest([], []);
  }

  lemma OneField(name: string, v: Value, w: Value)
    ensures FieldValue([Field(name, v)], name) == Some(v)
    ensures SetField([Field(name, v)], name, w) == [Field(name, w)]
  {
    assert [Field(name, v)][1..] == [];
  }

  /** The integer field becomes the hex text of its bytes. */
  lemma OneHexField(name: string, vs: DataSchema, v: int)
    requires vs.typ == Some("integer") && IntToByte(vs, Some(v as real)).Ok?
    ensures HexFields([Property(name, vs)], [Field(name, Int(v))])
      == Ok([Field(name, Str(HexEncode(IntToByte(vs, Some(v as real)).value)))])
  {
    var h := HexEncode(IntToByte(vs, Some(v as real)).value);
    OneField(name, Int(v), Str(h));
    assert ToNumber(Some(Int(v))) == Ok(Some(v as real));
    assert HexField(Property(name, vs), [Field(name, Int(v))]) == Ok([Field(name, Str(h))]);
    assert [Property(name, vs)][1..] == [];
  }

  /** Expanding the pattern with a string for its one name puts the string between the prefix and the suffix. */
  lemma ExpandOne(prefix: string, name: string, suffix: string, h: string)
    requires BraceFree(prefix) && BraceFree(suffix) && BraceFree(name)
    ensures Expand(prefix + "{" + name + "}" + suffix, [Field(name, Str(h))]) == Ok(prefix + h + suffix)
  {
    var fields := [Field(name, Str(h))];
    OneRendered(prefix, name, suffix);
    OneField(name, Str(h), Str(h));
    ExpandRender([prefix, suffix], [name], fields);
    var texts := seq(|[name]|, i requires 0 <= i < |[name]| => FieldValue(fields, [name][i]).value.s);
    assert texts == [h];
    assert [prefix, suffix][1..] == [suffix];
    assert [suffix][1..] == [] && [h][1..] == [];
    assert Filled([suffix], [h]) == h + suffix;
    assert prefix + (h + suffix) == prefix + h + suffix;
  }

  /** Filling the pattern puts the variable's hex text between the prefix and the suffix. */
  lemma FillOne(schema: DataSchema, prefix: string, name: string, suffix: string, vs: DataSchema, v: int)
    requires OneInteger(schema, prefix, name, suffix, vs) && IntToByte(vs, Some(v as real)).Ok?
    ensures FillStringPattern(schema, Obj([Field(name, Int(v))]))
      == Ok(prefix + HexEncode(IntToByte(vs, Some(v as real)).value) + suffix)
  {
    OneHexField(name, vs, v);
    HexBraceFree(prefix);
    HexBraceFree(suffix);
    ExpandOne(prefix, name, suffix, HexEncode(IntToByte(vs, Some(v as real)).value));
  }

  /** Decoding the filled-in hex text gives the prefix's bytes, the field, and the suffix's bytes. */
  lemma HexOfFilled(prefix: string, field: seq<int>, suffix: string)
    requires IsHexText(prefix) && IsHexText(suffix) && IsBytes(field)
    ensures HexDecode(prefix + HexEncode(field) + suffix) == HexDecode(prefix) + field + HexDecode(suffix)
  {
    var h := HexEncode(field);
    assert prefix + h + suffix == prefix + (h + suffix);
    HexDecodeAppend(prefix, h + suffix);
    HexEncodeIsHexText(field);
    HexDecodeAppend(h, suffix);
    HexRoundTrip(field);
  }

  lemma EncodeOne(schema: DataSchema, prefix: string, name: string, suffix: string, vs: DataSchema, v: int, foreign: Foreign)
    requires OneInteger(schema, prefix, name, suffix, vs) && IntToByte(vs, Some(v as real)).Ok?
    ensures ValueToBytes(schema, Obj([Field(name, Int(v))]), foreign)
      == Ok(HexDecode(prefix) + IntToByte(vs, Some(v as real)).value + HexDecode(suffix))
  {
    FillOne(schema, prefix, name, suffix, vs, v);
    HexOfFilled(prefix, IntToByte(vs, Some(v as real)).value, suffix);
  }

  /** The pattern reads as the one name, with the prefix's byte count as the leading gap. */
  lemma TemplateOne(prefix: string, name: string, suffix: string)
    requires IsHexText(prefix) && IsHexText(suffix) && BraceFree(name)
    ensures ParseTemplate(prefix + "{" + name + "}" + suffix)
      == Ok(Template([name], [(|HexDecode(prefix)|) as real, Gap(suffix)]))
  {
    OneRendered(prefix, name, suffix);
    HexBraceFree(prefix);
    HexBraceFree(suffix);
    ParseRender([prefix, suffix], [name]);
    HexDecodeLength(prefix);
    HalfEven(|prefix|);
    assert Gaps([prefix, suffix]) == [Gap(prefix), Gap(suffix)];
  }

  /** The one variable's slice is the field after the prefix's bytes. */
  lemma SliceOne(before: seq<int>, field: seq<int>, after: seq<int>, name: string, vs: DataSchema, gap: real)
    requires vs.bytelength == Some(|field|)
    ensures SliceFrom(before + field + after, [name], [gap], Present([Property(name, vs)]), Some(|before| as real)) == Ok([field])
  {
    var bytes := before + field + after;
    var k := |before|;
    var variables := Present([Property(name, vs)]);
    assert VariableSchema(variables, name) == Ok(vs);
    var end := Add(Some(k as real), LengthOf(vs));
    assert end == Some((k + |field|) as real);
    assert [name][1..] == [] && [gap][1..] == [];
    assert SliceFrom(bytes, [], [], variables, Add(end, Some(gap))) == Ok([]);
    SliceCons(SubarrayOf(bytes), [name], [gap], variables, Some(k as real));
    SubarrayRange(bytes, k, k + |field|);
    assert bytes[k..k + |field|] == field;
    assert [field] + [] == [field];
  }

  /** The pattern cuts out exactly the field. */
  lemma ReadOne(schema: DataSchema, prefix: string, name: string, suffix: string, vs: DataSchema, field: seq<int>)
    requires OneInteger(schema, prefix, name, suffix, vs) && vs.bytelength == Some(|field|)
    ensures ReadPattern(schema, HexDecode(prefix) + field + HexDecode(suffix)) == Ok(Segments([name], [field]))
  {
    TemplateOne(prefix, name, suffix);
    SliceOne(HexDecode(prefix), field, HexDecode(suffix), name, vs, Gap(suffix));
    assert [(|HexDecode(prefix)|) as real, Gap(suffix)][1..] == [Gap(suffix)];
  }

  /** The field decodes by the variable's schema to the integer written into it. */
  lemma SegmentOne(schema: DataSchema, prefix: string, name: string, suffix: string, vs: DataSchema, v: int, foreign: Foreign)
    requires OneInteger(schema, prefix, name, suffix, vs) && Representable(vs, v)
    ensures IntToByte(vs, Some(v as real)).Ok?
    ensures DecodeSegments(schema.variables, [name], [IntToByte(vs, Some(v as real)).value], foreign) == Ok([Num(v as real)])
  {
    IntRoundTrip(vs, v);
    var field := IntToByte(vs, Some(v as real)).value;
    assert DecodeTyped(vs, field, foreign) == Ok(Num(v as real));
    assert VariableSchema(schema.variables, name) == Ok(vs);
    assert [name][1..] == [] && [field][1..] == [];
    assert DecodeSegments(schema.variables, [], [], foreign) == Ok([]);
    assert [Num(v as real)] + [] == [Num(v as real)];
  }

  lemma DecodeOne(schema: DataSchema, prefix: string, name: string, suffix: string, vs: DataSchema, v: int, foreign: Foreign)
    requires OneInteger(schema, prefix, name, suffix, vs) && Representable(vs, v)
    ensures IntToByte(vs, Some(v as real)).Ok?
    ensures var bytes := HexDecode(prefix) + IntToByte(vs, Some(v as real)).value + HexDecode(suffix);
      BytesToValue(schema, bytes, foreign) == Ok(List([Num(v as real)]))
  {
    SegmentOne(schema, prefix, name, suffix, vs, v, foreign);
    ReadOne(schema, prefix, name, suffix, vs, IntToByte(vs, Some(v as real)).value);
  }

  /**
   * Round trip through a one-variable pattern: the object `{name: v}` is
   * encoded as the prefix's bytes, the field and the suffix's bytes, and the
   * same schema decodes those bytes to the list holding `v`.
   */
  lemma OneVariableRoundTrip(schema: DataSchema, prefix: string, name: string, suffix: string, vs: DataSchema, v: int, foreign: Foreign)
    requires OneInteger(schema, prefix, name, suffix, vs) && Representable(vs, v)
    ensures ValueToBytes(schema, Obj([Field(name, Int(v))]), foreign).Ok?
    ensures BytesToValue(schema, ValueToBytes(schema, Obj([Field(name, Int(v))]), foreign).value, foreign) == Ok(List([Num(v as real)]))
  {
    DecodeOne(schema, prefix, name, suffix, vs, v, foreign);
    EncodeOne(schema, prefix, name, suffix, vs, v, foreign);
  }
}

=== FILE: schema.dfy ===
/**
 * The part of a Thing Description data schema the codecs read, and the
 * values they produce.  A schema attribute the JavaScript reads with
 * optional chaining or `??` is an `Option`; `None` is `undefined`.
 */
module Schema {
  import opened Wrappers

  /**
   * One data schema node.  `typ` is `type`; the `bdo:*` attributes keep their
   * names without the prefix (`bytelength` is the lower-case key
   * `bdo:bytelength` that the binary codec reads).  `bitOffset` and
   * `bitLength` are the integers `parseInt` makes of `bdo:bitOffset` and
   * `bdo:bitLength`.  `properties` and `variables` list their entries in the
   * object's own-property order.
   */
  datatype DataSchema = DataSchema(
    typ: Option<string>,
    format: Option<string>,
    properties: Entries,
    bitOffset: Option<int>,
    bitLength: Option<int>,
    pattern: Option<string>,
    variables: Entries,
    bytelength: Option<int>,
    signed: Option<bool>,
    byteOrder: Option<string>,
    scale: Option<real>,
    offset: Option<int>,
    precision: Option<int>)

  /** The entries of `properties` or `bdo:variables`, in own-property order, or `Absent` when undefined. */
  datatype Entries = Absent | Present(list: seq<Property>)

  /** A named entry of `properties` or `bdo:variables`. */
  datatype Property = Property(name: string, schema: DataSchema)

  /** A schema with no attribute set. */
  const Blank := DataSchema(None, None, Absent, None, None, None, Absent, None, None, None, None, None, None)

  /** A schema with only `type` set. */
  function Typed(t: string): (s: DataSchema)
    ensures s.typ == Some(t) && s.pattern.None? && s.properties.Absent?
  {
    Blank.(typ := Some(t))
  }

  /** `obj[name]` on an object whose entries are `props`. */
  function Lookup(props: seq<Property>, name: string): (r: Option<DataSchema>)
    ensures r.None? <==> forall i :: 0 <= i < |props| ==> props[i].name != name
    ensures r.Some? ==> exists i :: 0 <= i < |props| && props[i] == Property(name, r.value)
  {
    if |props| == 0 then None
    else if props[0].name == name then Some(props[0].schema)
    else
      var r := Lookup(props[1..], name);
      assert r.Some? ==> exists i :: 0 <= i < |props| - 1 && props[1..][i] == Property(name, r.value);
      r
  }

  /**
   * A decoded value.  `Int` is an integer the octet-stream decoder reads;
   * `Num` is a JavaScript number other than NaN, as an exact real, and
   * `NotANumber` is NaN.  `Undefined` is the `undefined` a zero-width read
   * of an empty buffer returns.  `Float` stands for a floating-point read the model
   * does not carry out: its width in bits, the buffer it would read from, and
   * the byte order.
   */
  datatype Value =
    | Null
    | Bool(b: bool)
    | Int(i: int)
    | Num(r: real)
    | NotANumber
    | Undefined
    | Float(width: int, raw: seq<int>, bigEndian: bool)
    | Str(s: string)
    | Obj(fields: seq<Field>)
    | List(items: seq<Value>)

  datatype Field = Field(name: string, value: Value)

  /**
   * The library calls the codecs delegate and this model does not open up:
   * `buffer.toString(charset)` for charsets other than utf-8 and hex (`None`
   * for one the library does not know), `JSON.parse` (`None` for a syntax
   * error) and `JSON.stringify`.
   */
  datatype Foreign = Foreign(
    charset: (string, seq<int>) -> Option<string>,
    parseJson: string -> Option<Value>,
    stringify: Value -> string)
}

=== FILE: text.dfy ===
/**
 * The JavaScript string operations the codecs and form parsers rely on:
 * `split` on a separator, `includes`, `endsWith`, ASCII `toLowerCase`,
 * clamped `substring`, and base16 text (section 8 of RFC 4648).
 */
module Text {
  import opened Wrappers

  /** `pat` occurs in `s` starting at index `j`. */
  predicate OccursAt(s: string, pat: string, j: int)
  {
    0 <= j && j + |pat| <= |s| && s[j..j + |pat|] == pat
  }

  /** Index of the first occurrence of `pat` in `s` at or after `i`, or -1 (`indexOf`). */
  function FindFrom(s: string, pat: string, i: nat): (k: int)
    requires |pat| > 0
    requires i <= |s|
    ensures k == -1 || (i <= k && OccursAt(s, pat, k))
    ensures forall j :: i <= j && (k == -1 || j < k) ==> !OccursAt(s, pat, j)
    decreases |s| - i
  {
    if i + |pat| > |s| then -1
    else if s[i..i + |pat|] == pat then i
    else FindFrom(s, pat, i + 1)
  }

  /** `s.includes(pat)` for a non-empty `pat`. */
  predicate Contains(s: string, pat: string)
    requires |pat| > 0
  {
    FindFrom(s, pat, 0) >= 0
  }

  lemma ContainsMeans(s: string, pat: string)
    requires |pat| > 0
    ensures Contains(s, pat) <==> exists j :: OccursAt(s, pat, j)
  {
  }

  /** A string in which the first two characters of `pat` never stand side by side does not contain `pat`. */
  lemma AbsentPair(s: string, pat: string)
    requires |pat| >= 2
    requires forall j :: 0 <= j < |s| - 1 ==> !(s[j] == pat[0] && s[j + 1] == pat[1])
    ensures !Contains(s, pat)
  {
    forall j ensures !OccursAt(s, pat, j) {
      if 0 <= j && j + |pat| <= |s| {
        assert s[j..j + |pat|][0] == s[j] && s[j..j + |pat|][1] == s[j + 1];
      }
    }
    NotContainsFrom(s, pat);
  }

  /** `s.endsWith(pat)`. */
  predicate EndsWith(s: string, pat: string)
  {
    |pat| <= |s| && s[|s| - |pat|..] == pat
  }

  /** `s.split(sep)` for a non-empty separator: the pieces between non-overlapping occurrences, left to right. */
  function Split(s: string, sep: string): (r: seq<string>)
    requires |sep| > 0
    ensures |r| >= 1
    decreases |s|
  {
    var k := FindFrom(s, sep, 0);
    if k < 0 then [s] else [s[..k]] + Split(s[k + |sep|..], sep)
  }

  /** `parts.join(sep)`. */
  function Join(parts: seq<string>, sep: string): string
  {
    if |parts| == 0 then ""
    else if |parts| == 1 then parts[0]
    else parts[0] + sep + Join(parts[1..], sep)
  }

  /** Splitting and re-joining on the same separator gives back the string. */
  lemma {:induction false} JoinSplit(s: string, sep: string)
    requires |sep| > 0
    ensures Join(Split(s, sep), sep) == s
    decreases |s|
  {
    var k := FindFrom(s, sep, 0);
    if k >= 0 {
      var head := s[..k];
      var rest := s[k + |sep|..];
      var tail := Split(rest, sep);
      assert Split(s, sep) == [head] + tail;
      JoinSplit(rest, sep);
      assert Join([head] + tail, sep) == head + sep + Join(tail, sep);
      assert s[k..k + |sep|] == sep;
      assert s == head + s[k..k + |sep|] + rest;
    }
  }

  /** No piece produced by `split` contains the separator. */
  lemma {:induction false} SplitPiecesFree(s: string, sep: string)
    requires |sep| > 0
    ensures forall i :: 0 <= i < |Split(s, sep)| ==> !Contains(Split(s, sep)[i], sep)
    decreases |s|
  {
    var k := FindFrom(s, sep, 0);
    if k < 0 {
      NotContainsFrom(s, sep);
    } else {
      var head := s[..k];
      SplitPiecesFree(s[k + |sep|..], sep);
      forall j | OccursAt(head, sep, j) ensures false {
        assert head[j..j + |sep|] == s[j..j + |sep|];
        assert OccursAt(s, sep, j);
      }
      NotContainsFrom(head, sep);
    }
  }

  lemma NotContainsFrom(s: string, sep: string)
    requires |sep| > 0
    requires forall j :: !OccursAt(s, sep, j)
    ensures !Contains(s, sep)
  {
  }

  /** A prefix free of a one-character separator splits off as the first piece. */
  lemma SplitAfterFree(a: string, c: char, b: string)
    requires forall i :: 0 <= i < |a| ==> a[i] != c
    ensures Split(a + [c] + b, [c]) == [a] + Split(b, [c])
  {
    var s := a + [c] + b;
    var k := FindFrom(s, [c], 0);
    assert OccursAt(s, [c], |a|);
    forall j | 0 <= j < |a| ensures !OccursAt(s, [c], j) {
      assert s[j..j + 1] == [a[j]];
    }
    assert k == |a|;
    assert s[..k] == a;
    assert s[k + 1..] == b;
  }

  /** A string free of a one-character separator is a single piece. */
  lemma SplitFree(a: string, c: char)
    requires forall i :: 0 <= i < |a| ==> a[i] != c
    ensures Split(a, [c]) == [a]
  {
    forall j | 0 <= j < |a| ensures !OccursAt(a, [c], j) {
      assert a[j..j + 1] == [a[j]];
    }
    assert FindFrom(a, [c], 0) == -1;
  }

  /** ASCII upper-case letters map to lower case; every other character is kept. */
  function LowerChar(c: char): (r: char)
    ensures 'A' <= c <= 'Z' ==> r as int == c as int + 32
    ensures !('A' <= c <= 'Z') ==> r == c
  {
    if 'A' <= c <= 'Z' then (c as int + 32) as char else c
  }

  /** `s.toLowerCase()` restricted to ASCII letters. */
  function ToLowerAscii(s: string): (r: string)
    ensures |r| == |s|
    ensures forall i :: 0 <= i < |s| ==> r[i] == LowerChar(s[i])
  {
    seq(|s|, i requires 0 <= i < |s| => LowerChar(s[i]))
  }

  /** A string without upper-case ASCII letters is its own lower case. */
  lemma LowerCaseKept(s: string)
    requires forall i :: 0 <= i < |s| ==> !('A' <= s[i] <= 'Z')
    ensures ToLowerAscii(s) == s
  {
  }

  /** `s.substring(start, end)`: both ends clamped to [0, |s|] and swapped when reversed. */
  function Substring(s: string, start: int, end: int): (r: string)
    ensures var a := Clamp(start, |s|); var b := Clamp(end, |s|);
      r == if a <= b then s[a..b] else s[b..a]
  {
    var a := Clamp(start, |s|);
    var b := Clamp(end, |s|);
    if a <= b then s[a..b] else s[b..a]
  }

  function Clamp(x: int, n: nat): (r: nat)
    ensures r <= n
    ensures 0 <= x <= n ==> r == x
  {
    if x < 0 then 0 else if x > n then n else x
  }

  // ---------------------------------------------------------------------------
  // Base16 (section 8 of RFC 4648), lower-case on output, either case on input.

  predicate IsHexDigit(c: char)
  {
    '0' <= c <= '9' || 'a' <= c <= 'f' || 'A' <= c <= 'F'
  }

  predicate IsLowerHexDigit(c: char)
  {
    '0' <= c <= '9' || 'a' <= c <= 'f'
  }

  function HexDigitValue(c: char): (v: int)
    requires IsHexDigit(c)
    ensures 0 <= v < 16
  {
    if '0' <= c <= '9' then c as int - '0' as int
    else if 'a' <= c <= 'f' then c as int - 'a' as int + 10
    else c as int - 'A' as int + 10
  }

  function LowerHexDigit(v: int): (c: char)
    requires 0 <= v < 16
    ensures IsLowerHexDigit(c)
    ensures HexDigitValue(c) == v
  {
    if v < 10 then ('0' as int + v) as char else ('a' as int + v - 10) as char
  }

  /** `buffer.toString("hex")`: two lower-case digits per byte, high nibble first. */
  function HexEncode(b: seq<int>): (s: string)
    requires forall i :: 0 <= i < |b| ==> 0 <= b[i] < 256
    ensures |s| == 2 * |b|
    ensures forall i :: 0 <= i < |s| ==> IsLowerHexDigit(s[i])
  {
    if |b| == 0 then ""
    else [LowerHexDigit(b[0] / 16), LowerHexDigit(b[0] % 16)] + HexEncode(b[1..])
  }

  /**
   * JavaScript's white space and line terminators (StrWhiteSpaceChar in
   * section 7.1.4.1.1 of ECMA-262), which `parseInt` skips before a number.
   */
  predicate IsJsSpace(c: char)
  {
    var k := c as int;
    k == 0x09 || k == 0x0A || k == 0x0B || k == 0x0C || k == 0x0D || k == 0x20 || k == 0xA0
    || k == 0x1680 || 0x2000 <= k <= 0x200A || k == 0x2028 || k == 0x2029 || k == 0x202F
    || k == 0x205F || k == 0x3000 || k == 0xFEFF
  }

  /** A character outside the Basic Multilingual Plane: two UTF-16 code units in a JavaScript string. */
  predicate IsAstral(c: char)
  {
    c as int >= 0x10000
  }

  /**
   * `parseInt(c0 + c1, 16)` (section 19.2.5 of ECMA-262): leading white space
   * is skipped, then one sign, then a "0x" prefix; the value is that of the
   * longest run of hex digits after them, and `None` (NaN) when there is none.
   * An astral `c1` stands for its leading surrogate, which is not a digit.
   */
  function ParseHexPair(c0: char, c1: char): (r: Option<int>)
    ensures IsHexDigit(c0) && IsHexDigit(c1) ==> r == Some(16 * HexDigitValue(c0) + HexDigitValue(c1))
    ensures r.Some? ==> -15 <= r.value < 256
    ensures r.None? <==> (
      !(IsHexDigit(c0) || ((IsJsSpace(c0) || c0 == '+' || c0 == '-') && IsHexDigit(c1)))
      || (c0 == '0' && (c1 == 'x' || c1 == 'X')))
  {
    if IsJsSpace(c0) then
      if IsHexDigit(c1) then Some(HexDigitValue(c1)) else None
    else if c0 == '+' || c0 == '-' then
      if !IsHexDigit(c1) then None
      else if c0 == '-' then Some(-HexDigitValue(c1))
      else Some(HexDigitValue(c1))
    else if !IsHexDigit(c0) then None
    else if c0 == '0' && (c1 == 'x' || c1 == 'X') then None
    else if IsHexDigit(c1) then Some(16 * HexDigitValue(c0) + HexDigitValue(c1))
    else Some(HexDigitValue(c0))
  }

  /**
   * `Buffer.from(s, "hex")` of the Buffer library: pair i of the text is read
   * with `parseInt(…, 16)` and stored into a byte (so modulo 256), and decoding
   * stops at the first pair that gives NaN. A trailing odd character is never
   * read, and after an astral character the next pair starts on its trailing
   * surrogate, which gives NaN.
   */
  function HexDecode(s: string): (b: seq<int>)
    ensures |b| <= |s| / 2
    ensures forall i :: 0 <= i < |b| ==> 0 <= b[i] < 256
  {
    if |s| < 2 then []
    else match ParseHexPair(s[0], s[1])
      case None => []
      case Some(v) => [v % 256] + (if IsAstral(s[1]) then [] else HexDecode(s[2..]))
  }

  /** Byte i of `b` is pair i of `s` read by `parseInt` and stored into a byte. */
  predicate DecodesPairs(s: string, b: seq<int>)
  {
    2 * |b| <= |s|
    && forall i :: 0 <= i < |b| ==>
      ParseHexPair(s[2 * i], s[2 * i + 1]).Some? && b[i] == ParseHexPair(s[2 * i], s[2 * i + 1]).value % 256
  }

  /**
   * Decoding `s` stops after `n` pairs: no pair before the last one read ends
   * in an astral character, and either the text has no further pair, the next
   * pair gives NaN, or the last pair read ended in an astral character.
   */
  predicate StopsAfter(s: string, n: nat)
    requires 2 * n <= |s|
  {
    (forall i :: 0 < i < n ==> !IsAstral(s[2 * i - 1]))
    && (|s| < 2 * n + 2 || ParseHexPair(s[2 * n], s[2 * n + 1]).None? || (n > 0 && IsAstral(s[2 * n - 1])))
  }

  /** The decoded bytes are the pairs read up to the first that gives NaN. */
  lemma {:induction false} HexDecodeMeaning(s: string)
    ensures DecodesPairs(s, HexDecode(s)) && StopsAfter(s, |HexDecode(s)|)
    decreases |s|
  {
    if |s| >= 2 && ParseHexPair(s[0], s[1]).Some? {
      var v := ParseHexPair(s[0], s[1]).value;
      if !IsAstral(s[1]) {
        var rest := HexDecode(s[2..]);
        HexDecodeMeaning(s[2..]);
        assert HexDecode(s) == [v % 256] + rest;
        PairsShift(s, v, rest);
        StopsShift(s, |rest|);
      }
    }
  }

  /** Reading one more pair in front extends a decoding of the rest. */
  lemma PairsShift(s: string, v: int, rest: seq<int>)
    requires |s| >= 2 && ParseHexPair(s[0], s[1]) == Some(v)
    requires DecodesPairs(s[2..], rest)
    ensures DecodesPairs(s, [v % 256] + rest)
  {
    var b := [v % 256] + rest;
    forall i | 0 < i < |b|
      ensures ParseHexPair(s[2 * i], s[2 * i + 1]).Some? && b[i] == ParseHexPair(s[2 * i], s[2 * i + 1]).value % 256
    {
      assert s[2 * i] == s[2..][2 * (i - 1)] && s[2 * i + 1] == s[2..][2 * (i - 1) + 1];
      assert b[i] == rest[i - 1];
    }
  }

  /** A stop after `n` pairs of the rest is a stop after `n + 1` pairs, when the first pair has no astral character. */
  lemma StopsShift(s: string, n: nat)
    requires |s| >= 2 && !IsAstral(s[1])
    requires 2 * n <= |s| - 2 && StopsAfter(s[2..], n)
    ensures StopsAfter(s, n + 1)
  {
    var t := s[2..];
    forall i | 1 < i < n + 1 ensures !IsAstral(s[2 * i - 1]) {
      assert s[2 * i - 1] == t[2 * (i - 1) - 1];
    }
    if 2 * n + 4 <= |s| {
      assert s[2 * (n + 1)] == t[2 * n] && s[2 * (n + 1) + 1] == t[2 * n + 1];
      if n > 0 {
        assert s[2 * (n + 1) - 1] == t[2 * n - 1];
      }
    }
  }

  /** A decoding is determined by the two facts above: they have one solution. */
  lemma DecodesPairsUnique(s: string, b: seq<int>, c: seq<int>)
    requires DecodesPairs(s, b) && StopsAfter(s, |b|)
    requires DecodesPairs(s, c) && StopsAfter(s, |c|)
    ensures b == c
  {
  }

  /** Pairs that are not two hex digits still decode as `parseInt` reads them. */
  lemma LenientPairs()
    ensures HexDecode("1g") == [0x01]
    ensures HexDecode(" f") == [0x0f]
    ensures HexDecode("-1") == [0xff]
    ensures HexDecode("0x12") == []
    ensures HexDecode("ab" + "zz" + "cd") == [0xab]
  {
    assert ParseHexPair('1', 'g') == Some(1);
    assert ParseHexPair(' ', 'f') == Some(15);
    assert ParseHexPair('-', '1') == Some(-1);
    assert ParseHexPair('0', 'x') == None;
    assert ParseHexPair('z', 'z') == None;
    assert ("ab" + "zz" + "cd")[2..] == "zzcd";
  }

  /** Hex text that decodes in full: an even number of hex digits. */
  predicate IsHexText(s: string)
  {
    |s| % 2 == 0 && forall i :: 0 <= i < |s| ==> IsHexDigit(s[i])
  }

  /** Decoding the hex rendering of a buffer gives the buffer back. */
  lemma {:induction false} HexRoundTrip(b: seq<int>)
    requires forall i :: 0 <= i < |b| ==> 0 <= b[i] < 256
    ensures HexDecode(HexEncode(b)) == b
  {
    if |b| > 0 {
      var s := HexEncode(b);
      assert s[2..] == HexEncode(b[1..]);
      HexRoundTrip(b[1..]);
    }
  }

  /** A hex digit's value, written back as a digit, is the digit in lower case. */
  lemma DigitCanonical(c: char)
    requires IsHexDigit(c)
    ensures LowerHexDigit(HexDigitValue(c)) == LowerChar(c)
  {
  }

  /** A byte's two hex digits are its quotient and remainder by sixteen. */
  lemma ByteDigits(hi: int, lo: int)
    requires 0 <= hi < 16 && 0 <= lo < 16
    ensures (16 * hi + lo) / 16 == hi && (16 * hi + lo) % 16 == lo
  {
  }

  /** Re-encoding decoded hex text gives the text in lower case. */
  lemma {:induction false} HexCanonical(s: string)
    requires IsHexText(s)
    ensures HexEncode(HexDecode(s)) == ToLowerAscii(s)
    decreases |s|
  {
    if |s| > 0 {
      var hi, lo := HexDigitValue(s[0]), HexDigitValue(s[1]);
      ByteDigits(hi, lo);
      DigitCanonical(s[0]);
      DigitCanonical(s[1]);
      assert IsHexText(s[2..]);
      HexCanonical(s[2..]);
      var d := HexDecode(s);
      assert d[0] == 16 * hi + lo && d[1..] == HexDecode(s[2..]);
      assert ToLowerAscii(s) == [LowerChar(s[0]), LowerChar(s[1])] + ToLowerAscii(s[2..]);
    }
  }

  /** Hex text decodes piecewise: a fully decodable prefix contributes its own bytes. */
  lemma {:induction false} HexDecodeAppend(a: string, b: string)
    requires IsHexText(a)
    ensures HexDecode(a + b) == HexDecode(a) + HexDecode(b)
    decreases |a|
  {
    if |a| > 0 {
      assert (a + b)[2..] == a[2..] + b;
      assert IsHexText(a[2..]);
      HexDecodeAppend(a[2..], b);
    } else {
      assert a + b == b;
    }
  }

  lemma {:induction false} HexDecodeLength(s: string)
    requires IsHexText(s)
    ensures |HexDecode(s)| == |s| / 2
    decreases |s|
  {
    if |s| > 0 {
      assert IsHexText(s[2..]);
      HexDecodeLength(s[2..]);
    }
  }

  lemma HexEncodeIsHexText(b: seq<int>)
    requires forall i :: 0 <= i < |b| ==> 0 <= b[i] < 256
    ensures IsHexText(HexEncode(b))
  {
    HexEncodeEven(b);
    HexEncodeDigits(b);
  }

  lemma HexEncodeEven(b: seq<int>)
    requires forall i :: 0 <= i < |b| ==> 0 <= b[i] < 256
    ensures |HexEncode(b)| % 2 == 0
  {
    assert |HexEncode(b)| == 2 * |b|;
  }

  lemma HexEncodeDigits(b: seq<int>)
    requires forall i :: 0 <= i < |b| ==> 0 <= b[i] < 256
    ensures forall i :: 0 <= i < |HexEncode(b)| ==> IsHexDigit(HexEncode(b)[i])
  {
  }
}

=== FILE: utf8.dfy ===
/**
 * UTF-8 (RFC 3629) as the buffer library applies it: `Buffer.from(s, "utf-8")`
 * and `buffer.toString("utf-8")`.  Strings are sequences of Unicode scalar
 * values; malformed input decodes to U+FFFD, one byte at a time.
 */
module Utf8 {
  import opened Bytes

  /** The one to four bytes of one scalar value. */
  function EncodeChar(c: char): (r: seq<int>)
    ensures 1 <= |r| <= 4
    ensures IsBytes(r)
  {
    var cp := c as int;
    if cp < 0x80 then [cp]
    else if cp < 0x800 then [0xC0 + cp / 64, 0x80 + cp % 64]
    else if cp < 0x10000 then [0xE0 + cp / 64 / 64, 0x80 + cp / 64 % 64, 0x80 + cp % 64]
    else [0xF0 + cp / 64 / 64 / 64, 0x80 + cp / 64 / 64 % 64, 0x80 + cp / 64 % 64, 0x80 + cp % 64]
  }

  /** `Buffer.from(s, "utf-8")`. */
  function Encode(s: string): (r: seq<int>)
    ensures IsBytes(r)
    ensures |s| <= |r| <= 4 * |s|
  {
    if |s| == 0 then [] else EncodeChar(s[0]) + Encode(s[1..])
  }

  /** A continuation byte: its top two bits are 10. */
  predicate IsContinuation(b: int)
  {
    b / 64 == 2
  }

  /** How many bytes the lead byte announces. */
  function SequenceLength(first: int): nat
  {
    if first > 0xEF then 4 else if first > 0xDF then 3 else if first > 0xBF then 2 else 1
  }

  /**
   * The scalar value of the well-formed sequence at the front of `b`, or -1
   * when the announced sequence is truncated, has a bad continuation byte, is
   * over-long, encodes a surrogate or lies beyond U+10FFFF.
   */
  function CodePointAt(b: seq<int>): (cp: int)
    requires |b| > 0 && IsBytes(b)
    ensures cp == -1 || (0 <= cp < 0xD800 || 0xE000 <= cp < 0x110000)
  {
    var first := b[0];
    var n := SequenceLength(first);
    if n > |b| then -1
    else if n == 1 then
      (if first < 0x80 then first else -1)
    else if n == 2 then
      var cp := (first % 32) * 64 + b[1] % 64;
      if IsContinuation(b[1]) && cp > 0x7F then cp else -1
    else if n == 3 then
      var cp := (first % 16) * 4096 + (b[1] % 64) * 64 + b[2] % 64;
      if IsContinuation(b[1]) && IsContinuation(b[2]) && cp > 0x7FF && (cp < 0xD800 || cp > 0xDFFF)
      then cp else -1
    else
      var cp := (first % 16) * 262144 + (b[1] % 64) * 4096 + (b[2] % 64) * 64 + b[3] % 64;
      if IsContinuation(b[1]) && IsContinuation(b[2]) && IsContinuation(b[3]) && cp > 0xFFFF && cp < 0x110000
      then cp else -1
  }

  /** `buffer.toString("utf-8")`. */
  function Decode(b: seq<int>): (s: string)
    requires IsBytes(b)
    ensures |s| <= |b|
    decreases |b|
  {
    if |b| == 0 then ""
    else
      var cp := CodePointAt(b);
      if cp < 0 then [0xFFFD as char] + Decode(b[1..])
      else [cp as char] + Decode(b[SequenceLength(b[0])..])
  }

  /** The two-byte form of a value in [U+0080, U+07FF] decodes back to it. */
  lemma DecodeTwo(cp: int, rest: seq<int>)
    requires 0x80 <= cp < 0x800 && IsBytes(rest)
    ensures var b := [0xC0 + cp / 64, 0x80 + cp % 64] + rest;
      SequenceLength(b[0]) == 2 && CodePointAt(b) == cp
  {
    var b := [0xC0 + cp / 64, 0x80 + cp % 64] + rest;
    assert b[0] % 32 == cp / 64 && b[1] % 64 == cp % 64;
    assert IsContinuation(b[1]);
  }

  /** The three-byte form of a value in [U+0800, U+FFFF] decodes back to it, surrogates aside. */
  lemma DecodeThree(cp: int, rest: seq<int>)
    requires 0x800 <= cp < 0x10000 && !(0xD800 <= cp <= 0xDFFF) && IsBytes(rest)
    ensures var b := [0xE0 + cp / 64 / 64, 0x80 + cp / 64 % 64, 0x80 + cp % 64] + rest;
      SequenceLength(b[0]) == 3 && CodePointAt(b) == cp
  {
    var q1 := cp / 64;
    var q2 := q1 / 64;
    var b := [0xE0 + q2, 0x80 + q1 % 64, 0x80 + cp % 64] + rest;
    assert b[0] % 16 == q2 && b[1] % 64 == q1 % 64 && b[2] % 64 == cp % 64;
    assert IsContinuation(b[1]) && IsContinuation(b[2]);
    assert q2 * 4096 + (q1 % 64) * 64 + cp % 64 == cp;
  }

  /** The four-byte form of a value in [U+10000, U+10FFFF] decodes back to it. */
  lemma DecodeFour(cp: int, rest: seq<int>)
    requires 0x10000 <= cp < 0x110000 && IsBytes(rest)
    ensures var b := [0xF0 + cp / 64 / 64 / 64, 0x80 + cp / 64 / 64 % 64, 0x80 + cp / 64 % 64, 0x80 + cp % 64] + rest;
      SequenceLength(b[0]) == 4 && CodePointAt(b) == cp
  {
    var q1 := cp / 64;
    var q2 := q1 / 64;
    var q3 := q2 / 64;
    var b := [0xF0 + q3, 0x80 + q2 % 64, 0x80 + q1 % 64, 0x80 + cp % 64] + rest;
    assert b[0] % 16 == q3 && b[1] % 64 == q2 % 64 && b[2] % 64 == q1 % 64 && b[3] % 64 == cp % 64;
    assert IsContinuation(b[1]) && IsContinuation(b[2]) && IsContinuation(b[3]);
    assert q3 * 262144 + (q2 % 64) * 4096 + (q1 % 64) * 64 + cp % 64 == cp;
  }

  /** The encoding of one scalar value decodes back to it and is consumed whole. */
  lemma DecodeChar(c: char, rest: seq<int>)
    requires IsBytes(rest)
    ensures var b := EncodeChar(c) + rest;
      IsBytes(b) && CodePointAt(b) == c as int && SequenceLength(b[0]) == |EncodeChar(c)|
  {
    var cp := c as int;
    if cp < 0x80 {
    } else if cp < 0x800 {
      DecodeTwo(cp, rest);
    } else if cp < 0x10000 {
      DecodeThree(cp, rest);
    } else {
      DecodeFour(cp, rest);
    }
  }

  /** Decoding the UTF-8 encoding of a string gives the string back. */
  lemma {:induction false} DecodeEncode(s: string)
    ensures Decode(Encode(s)) == s
  {
    if |s| > 0 {
      var head := EncodeChar(s[0]);
      var rest := Encode(s[1..]);
      DecodeChar(s[0], rest);
      var b := head + rest;
      assert Encode(s) == b;
      assert b[|head|..] == rest;
      DecodeEncode(s[1..]);
    }
  }
}

=== FILE: wrappers.dfy ===
/** Failure-compatible wrappers shared by every module of the model. */
module Wrappers {

  /** An optional value: a JavaScript property that may be `undefined`. */
  datatype Option<+T> = None | Some(value: T) {

    /** The value, or `default` when absent: JavaScript's `x ?? default`. */
    function GetOr(default: T): T
    {
      match this
      case Some(v) => v
      case None => default
    }
  }

  /** The outcome of an operation that either returns a value or throws. */
  datatype Result<+T, +E> = Ok(value: T) | Err(error: E) {

    predicate IsFailure()
    {
      Err?
    }

    function PropagateFailure<U>(): Result<U, E>
      requires Err?
    {
      Err(error)
    }

    function Extract(): T
      requires Ok?
    {
      value
    }
  }
}
